=== FILE: README.md ===
# Registration portal: a Dafny model

This project models the client-side logic of a youth-services portal's
registration pages, and proves properties of that model.

The core is the shared registration engine, `initRegPage` in
`pages/reg-engine.js`. Each scheme page hands it a configuration, and the
engine runs the form's lifecycle:

- the fourteen base validators and the scheme's own validator;
- the progress bar;
- submission, which numbers the registration ID from a counter kept in
  local storage, stores the record and drops the draft;
- the draft (save, autosave, restore, discard);
- admin deletion and "clear all";
- the CSV export.

Three schemes use the engine. Their configurations are modelled as constants:
Youth Volunteering, Adventure Training and Vocational Training. The Khel
Mahakumbh page (`pages/khel-mahakumbh/khel-mahakumbh.js`) keeps its own copy
of all of this, with its own rules, and is modelled on its own. Its storage
is a `Bucket` of its own, so its `deleteRegistration` and `clearAll` are
`Store.DeleteReg` and `Store.ClearAll` applied to that bucket. The home
page's hero carousel and FAQ accordion (`script.js`) are modelled too.

Modules, one per file:

| module | file | what it holds |
|---|---|---|
| `Wrappers` | `wrappers.dfy` | `Option` |
| `Text` | `text.dfy` | JavaScript `trim`, `String(n)`, `parseInt(s, 10)`, `padStart`, `replace(/x/g, …)`, `join` |
| `Age` | `age.dfy` | `computeAge` for the engine and for Khel, and the age categories |
| `Validators` | `validators.dfy` | field checks, the error list, name, phone, email and date-of-birth validators |
| `Escape` | `escape.dfy` | `esc`, the HTML escaping used for every value shown on a page |
| `Csv` | `csv.dfy` | CSV cells, rows and documents, and a reader for them |
| `Store` | `store.dfy` | a page's local-storage keys (records, counter, draft), the ID format, the storage invariant |
| `Forms` | `forms.dfy` | the collected form data, checkbox and radio groups, draft restore |
| `Engine` | `engine.dfy` | `initRegPage`: validation, progress, submit, drafts, admin, export |
| `Youth`, `Adventure`, `Vocational` | `youth.dfy`, `adventure.dfy`, `vocational.dfy` | the three scheme configurations |
| `Khel` | `khel.dfy` | the Khel Mahakumbh page |
| `Home` | `home.dfy` | carousel and accordion |

How the model represents the things it cannot run:

- **Storage.** A page's local storage is a `Bucket`. The records key and the
  draft key are each a `Slot`: missing, corrupt (JSON that does not parse) or
  saved. The counter key is the stored text itself, because the source reads
  it back with `parseInt`. A counter that does not parse gives `NaN`, modelled
  as `None`.
- **Environment.** Values from outside the form are parameters of type
  `Engine.Env`: today's date, the browser's date parser, the submission
  timestamp, the photo preview (its resolved `src` and whether it is hidden)
  and the page address.
- **Scheme hooks.** A scheme's hooks are function values in `Engine.Config`.

## Model

| member | source | states |
|---|---|---|
| Text.Trim | pages/reg-engine.js:140-145 | `trim`: the result is no longer than the input, has no white space at either end, and is empty exactly when the input is all white space; that it is the slice between the leading and trailing white space is `Text.TrimIsSlice` |
| Text.TrimIsSlice | pages/reg-engine.js:140-145 | what `trim` keeps is a contiguous slice of the input, with only white space before and after it |
| Text.TrimOfTrimmed | pages/reg-engine.js:738-748 | trimming a value that has no white space at either end leaves it unchanged |
| Text.StrippedEmpty | pages/reg-engine.js:140-145 | stripping both ends gives the empty string exactly when the input is all white space |
| Text.NatToString | pages/reg-engine.js:734 | `String(n)` of a whole number: at least one decimal digit, a leading zero only for zero, and the digits denote `n` |
| Text.IntToString | pages/reg-engine.js:734 | `String(n)`: a leading minus exactly for negative numbers, and for the others decimal digits that denote `n` |
| Text.ParseInt10 | pages/reg-engine.js:733 | `parseInt(s, 10)`: a number exactly when, after leading white space and an optional sign, a digit follows; a negative result only after a minus |
| Text.ParseIntOfIntToString | pages/reg-engine.js:733-734 | `parseInt` reads back exactly the number that `String(n)` wrote, for negative numbers too |
| Text.PadStart | pages/reg-engine.js:737 | `padStart`: the result is the target width (or the input's length if longer), ends with the input, and is filled in front with the pad character |
| Text.ParseIntOfPadded | pages/reg-engine.js:737 | leading zeros added by `padStart` do not change the number `parseInt` reads |
| Text.ReplaceAllConcat | pages/reg-engine.js:404-406 | a global single-character replace distributes over concatenation |
| Text.ReplaceAllRemoves | pages/reg-engine.js:404-406 | `replace(/c/g, rep)` with a replacement free of `c` leaves no `c` behind |
| Text.ReplaceAllAbsent | pages/reg-engine.js:404-406 | `replace(/c/g, rep)` leaves a text without `c` unchanged |
| Text.ReplaceAllLonger | pages/reg-engine.js:404-406 | `replace(/c/g, rep)` with a non-empty replacement never shortens the text |
| Text.Join | pages/reg-engine.js:414-425 | `join(sep)`: the items' lengths plus one separator between each pair, starting with the first item; empty for no items |
| Text.JoinConcat | pages/reg-engine.js:414-425 | joining two non-empty lists is the two joins with one separator between them, so every item and every separator appears, in order |
| Text.Split | pages/youth-volunteering/index.js:202 | a reference reading of a joined text: the pieces between occurrences of a one-character separator |
| Text.SplitJoin | pages/youth-volunteering/index.js:202 | splitting a join on a one-character separator that no item contains gives back exactly the items, e.g. the service areas joined with `|` |
| Age.AgeOn | pages/reg-engine.js:58-60 | the age is the number of whole birthdays reached: the last one is on or before today and the next one is after |
| Age.AgeIsLastBirthday | pages/reg-engine.js:58-60 | the `n`-th birthday has been reached exactly when `n` is at most the computed age |
| Age.AgeMonotone | pages/reg-engine.js:58-60 | a later "today" never gives a smaller age |
| Age.EngineCategory | pages/reg-engine.js:61-70 | the category, with a minimum age over 15: Eligible exactly within bounds, else Ineligible; otherwise Junior up to 18, Senior up to the maximum, Overage above it, Ineligible below the minimum |
| Age.CategoryAdmitsIffInBounds | pages/reg-engine.js:61-70 | the category is Junior, Senior or Eligible exactly when the age is within the scheme's bounds, provided that with bands in use the maximum is at least 18 |
| Age.BandedJuniorAboveMaximum | pages/reg-engine.js:61-65 | with bands in use (minimum age 15 or less), any age above the maximum but not above 18 is labelled Junior, never Overage |
| Age.ComputeAge | pages/reg-engine.js:53-72 | no age and no category exactly when the date is empty or does not parse; otherwise the age on today's date and its category |
| Age.KhelCategory | pages/khel-mahakumbh/khel-mahakumbh.js:103-108 | Khel's categories: Junior from 10 to 18, Senior from 19 to 60, otherwise Ineligible |
| Age.KhelVersusEngine | pages/khel-mahakumbh/khel-mahakumbh.js:103-108 | Khel's categories agree with the engine's for ages up to 60; above 60 Khel says Ineligible where the engine says Overage |
| Age.KhelComputeAge | pages/khel-mahakumbh/khel-mahakumbh.js:95-110 | Khel's `computeAge`: no age exactly when the date is empty or unparsable; otherwise the age on today's date with its Khel category (Junior up to 18, Senior above), eligible exactly from 10 to 60 |
| Validators.Failures | pages/reg-engine.js:228-262 | one error per failing check, never more errors than checks |
| Validators.NoFailuresIffAllPass | pages/reg-engine.js:228-262 | the error list is empty exactly when every check passes |
| Validators.FailuresConcat | pages/reg-engine.js:228-262 | errors of two check lists in a row are the errors of each, in order |
| Validators.FailuresMembership | pages/reg-engine.js:261 | an error is reported exactly when some check with that key fails with that message |
| Validators.Required | pages/adventure-training/index.js:102-108 | a required-selection check fails exactly when the value is missing, and then carries its message |
| Validators.ReportedIffFails | pages/adventure-training/index.js:102-108 | when keys are distinct, a field's error is in the list exactly when its check fails |
| Validators.RequiredThree | pages/youth-volunteering/index.js:105-134 | three required selections report, in order, the error of each absent one and nothing else |
| Validators.RequiredFour | pages/vocational-training/index.js:71-99 | four required selections report, in order, the error of each absent one and nothing else |
| Validators.RequiredSix | pages/adventure-training/index.js:68-110 | six required selections report, in order, the error of each absent one and nothing else |
| Validators.ReportedFour | pages/vocational-training/index.js:71-99 | with distinct keys, each of four selection errors is listed exactly when its value is absent, and none exactly when all are present |
| Validators.ReportedSix | pages/adventure-training/index.js:100-108 | with distinct keys, each of six selection errors is listed exactly when its value is absent, and none exactly when all are present |
| Validators.FailuresCut | pages/reg-engine.js:228-262 | the errors keep the checks' order: those from the first `m` checks come before those from the rest |
| Validators.FailuresDistinctKeys | pages/reg-engine.js:228-262 | with distinct check keys, no key is reported twice |
| Validators.ValidateName | pages/reg-engine.js:140-145 | the name validator passes exactly when the trimmed name has at least 3 characters; blank gives the "required" message, otherwise the "at least 3 characters" message |
| Validators.ValidatePhone | pages/reg-engine.js:157-163 | the phone validator passes exactly when the trimmed value is ten digits starting 6 to 9; blank gives the "required" message, otherwise the "invalid" message |
| Validators.EmailShapeIsPattern | pages/reg-engine.js:164-170 | the executable email test agrees with the pattern: no white space or `@` outside a single `@`, and a dot with characters on both sides after it |
| Validators.ValidateEmail | pages/reg-engine.js:164-170 | the optional email passes exactly when it is blank or its trimmed value matches the pattern |
| Validators.CheckDob | pages/reg-engine.js:146-153 | the date-of-birth verdict is missing, invalid, too young, too old or fine, each exactly in its case |
| Escape.EscChar | pages/reg-engine.js:28-36 | each of `& < > " '` becomes an entity starting with `&`, and every other character is kept |
| Escape.Esc | pages/reg-engine.js:28-36 | `esc`: empty exactly for empty input (the `!s` branch) and never shorter than the input; per-character content is `Escape.EscIsPerCharacter` |
| Escape.EscIsPerCharacter | pages/reg-engine.js:28-36 | the five chained global replaces equal escaping character by character; `&` goes first, so no entity is escaped twice |
| Escape.EscMapHasNoMarkup | pages/reg-engine.js:28-36 | escaped text contains no `<`, `>`, `"` or `'` |
| Escape.UnescapeEsc | pages/reg-engine.js:28-36 | decoding the five entities recovers the escaped text exactly |
| Csv.Quote | pages/reg-engine.js:404-406 | `q` wraps the value in double quotes |
| Csv.ReadQuotedOf | pages/reg-engine.js:404-406 | a quoted cell whose quotes were doubled reads back as the original value, whatever it contains |
| Csv.ReadBareOf | pages/reg-engine.js:407-414 | an unquoted cell without comma, quote or line feed reads back as itself |
| Csv.ReadCellOf | pages/reg-engine.js:404-422 | any encodable cell, quoted or bare, reads back as its text |
| Csv.ReadRowOf | pages/reg-engine.js:414-422 | a row joined with commas reads back as its cells' texts |
| Csv.ReadDocumentOf | pages/reg-engine.js:414-425 | rows joined with line feeds read back as the rows' texts, one row per encoded row |
| Csv.JoinLineFeeds | pages/reg-engine.js:425 | lines that hold no line feed, joined with line feeds, give one line feed fewer than lines |
| Store.GetReg | pages/reg-engine.js:10-16 | the stored list when it parses; otherwise the empty list |
| Store.SaveReg | pages/reg-engine.js:5-9 | the new record is appended after the stored ones; counter and draft are untouched |
| Store.DeleteReg | pages/reg-engine.js:17-22 | the stored list loses exactly the records with that ID |
| Store.RemoveId | pages/reg-engine.js:18-20 | the filter keeps only records of the list, none with the ID |
| Store.RemoveIdMembership | pages/reg-engine.js:18-20 | a record survives the filter exactly when it was stored and carries another ID |
| Store.RemoveIdIdempotent | pages/reg-engine.js:18-20 | deleting the same ID twice is the same as deleting it once |
| Store.RemoveAbsentId | pages/reg-engine.js:17-22 | deleting an ID that no stored record has leaves the list as it was |
| Store.RemoveUniqueId | pages/reg-engine.js:18-20 | with unique IDs, deleting a record's ID removes that record alone and keeps the order of the rest |
| Store.NextNumber | pages/reg-engine.js:733 | a missing or empty counter gives 1 |
| Store.NextNumberAt | pages/reg-engine.js:733 | a counter holding `String(c)` gives `c + 1` |
| Store.NumberText | pages/reg-engine.js:734 | `String(n)` reads back as `n`; `NaN` is written as "NaN" |
| Store.FormatId | pages/reg-engine.js:737 | an ID is the prefix, a dash and a suffix of at least six characters |
| Store.FormatIdInjective | pages/reg-engine.js:737 | different numbers give different IDs under the same prefix |
| Store.BumpCounter | pages/reg-engine.js:733-734 | the counter is rewritten with the next number; records and draft are untouched |
| Store.BumpCounterAt | pages/reg-engine.js:733-734 | a counter at `c` moves to `c + 1` |
| Store.NaNCounterRepeats | pages/reg-engine.js:733-737 | a counter that does not parse stays `NaN` after saving, so every later submission gets the same `-000NaN` ID |
| Store.NaNId | pages/reg-engine.js:737 | the ID written for a `NaN` number is the prefix followed by `-000NaN` |
| Store.FreshIsConsistent | pages/reg-engine.js:10-16 | empty storage satisfies the storage invariant at counter 0 |
| Store.NewIdIsFresh | pages/reg-engine.js:733-737 | under the invariant, the next ID belongs to no stored record |
| Store.SavePreservesConsistency | pages/reg-engine.js:733-755 | storing a record under the next ID and bumping the counter keeps the invariant (unique IDs, each for a number reached), with or without the draft |
| Store.DeletePreservesConsistency | pages/reg-engine.js:17-22 | deleting by ID keeps the invariant |
| Store.ClearAll | pages/reg-engine.js:783-795 | confirmed with records present, the records and the counter are removed; otherwise nothing changes; the draft is kept |
| Store.ClearAllRestarts | pages/reg-engine.js:783-795 | after clearing, numbering starts again at 1 and the invariant holds at counter 0 |
| Forms.CheckedValues | pages/youth-volunteering/index.js:10-19 | the checked boxes' values, never more than there are boxes; page order is `Forms.CheckedValuesConcat`, content is `Forms.CheckedValuesMembership` |
| Forms.CheckedValuesConcat | pages/youth-volunteering/index.js:10-19 | collection keeps page order: the values checked in an earlier part of the page precede those of a later part |
| Forms.CheckedValuesMembership | pages/youth-volunteering/index.js:10-19 | a value is collected exactly when some checked box carries it |
| Forms.RadioValue | pages/vocational-training/index.js:7-17 | a radio group's value is that of a checked option, or empty |
| Forms.CheckListed | pages/youth-volunteering/index.js:33-42 | on restore, each box is ticked exactly when its value is in the draft's list |
| Forms.CheckListedRestores | pages/youth-volunteering/index.js:33-42 | with distinct option values, ticking from the collected list gives back the saved group |
| Forms.RadioRestores | pages/vocational-training/index.js:32-48 | restoring a radio value selects it when it is one of the options, and nothing otherwise |
| Forms.RestoreRadio | pages/vocational-training/index.js:32-48 | an empty draft value leaves the group alone; otherwise exactly the inputs whose value equals the draft's are checked; the options are never changed |
| Forms.RestoreRadioRoundTrip | pages/vocational-training/index.js:32-48 | on a fresh page, restoring a saved radio value gives back the same value |
| Forms.Prefer | pages/adventure-training/index.js:25-37 | a select or input takes the draft's value only when that value is non-empty |
| Forms.EnforceMax | pages/youth-volunteering/index.js:55-61 | the change handler only ever unticks; it changes nothing while the limit holds |
| Forms.EnforceMaxKeepsLimit | pages/youth-volunteering/index.js:55-61 | after the handler runs, no more boxes are ticked than the limit |
| Forms.ToggleLimited | pages/youth-volunteering/index.js:55-61 | a click followed by the handler: the click stands unless it would exceed the limit, in which case the clicked box is unticked; other boxes are untouched |
| Forms.Collect | pages/reg-engine.js:114-135 | `collectBaseData`: each of the thirteen other fields is read as the form holds it, and the gender is the checked radio's value; `Forms.RestoreThenCollect` is its partner |
| Forms.RestoreBase | pages/reg-engine.js:309-339 | the seven text fields take the draft's values; district and relation only when the draft has one; the gender radio is set to the draft's value when it has one and left alone otherwise, its options unchanged; each consent box is ticked when the draft's is and never unticked |
| Forms.RestoreThenCollect | pages/reg-engine.js:309-339 | on a blank page whose gender options include the draft's, restoring then collecting gives back the draft's base data |
| Engine.DobMessage | pages/reg-engine.js:146-153 | the date-of-birth validator passes exactly on a fine verdict, with the engine's wording otherwise |
| Engine.DobVerdict | pages/reg-engine.js:146-153 | the date of birth passes exactly when it is present, parses, and gives an age within the scheme's bounds |
| Engine.IdentityVerdicts | pages/reg-engine.js:140-156 | name, date of birth and gender all pass exactly when the trimmed name has 3 or more characters, the date is valid and a gender is chosen |
| Engine.ReachVerdicts | pages/reg-engine.js:157-170 | mobile and email both pass exactly when the trimmed mobile is a valid number and the email is blank or well formed |
| Engine.PlaceVerdicts | pages/reg-engine.js:171-179 | district and photo pass exactly when a district is chosen and the preview's source is neither empty nor the page itself |
| Engine.PersonalPassIffValid | pages/reg-engine.js:140-179 | the seven personal-details validators all pass exactly when the personal details are acceptable |
| Engine.EmergencyPassIffValid | pages/reg-engine.js:180-195 | the three emergency-contact validators all pass exactly when the contact's name, phone and relation are acceptable |
| Engine.ConsentPassIffGiven | pages/reg-engine.js:196-207 | the four consent validators all pass exactly when all four boxes are ticked |
| Engine.BaseChecksPassIffValid | pages/reg-engine.js:228-262 | the fourteen base checks all pass exactly when the base form is acceptable |
| Engine.RunValidation | pages/reg-engine.js:228-269 | at most fourteen base errors, each under a base key, followed by exactly the scheme's extra errors in their order; which base errors appear, once each and in key order, is `Engine.BaseErrors` with `Engine.BaseReported`, `Engine.BaseKeyOnce` and `Engine.BaseErrorsInKeyOrder` |
| Engine.BaseErrors | pages/reg-engine.js:228-262 | the errors `runValidation` lists before the scheme's are exactly the failures of the fourteen base checks |
| Engine.ChecksReported | pages/reg-engine.js:246-261 | on the base checklist, key `k` is listed with message `m` exactly when verdict `k` is `m` |
| Engine.BaseReported | pages/reg-engine.js:246-261 | base validator `k` is reported, under its own key and with its message, exactly when it fails with that message |
| Engine.BaseKeyOnce | pages/reg-engine.js:228-262 | no base key is reported twice |
| Engine.BaseErrorsInKeyOrder | pages/reg-engine.js:230-262 | the base errors follow the fourteen keys' order: for any cut of the key list, errors for earlier keys precede errors for later ones |
| Engine.RunValidationPassesIffValid | pages/reg-engine.js:228-269 | no error at all exactly when the base form is acceptable and the scheme reports nothing |
| Engine.RoundPercent | pages/reg-engine.js:103-106 | `Math.round(n / t * 100)` is the whole percentage nearest to `n / t`, with halves rounded up |
| Engine.RoundPercentMonotone | pages/reg-engine.js:103-106 | more items counted never shows a smaller percentage |
| Engine.CappedPercent | pages/reg-engine.js:103-106 | the shown percentage is at most 100, and is 100 exactly when every item counts |
| Engine.BaseProgress | pages/reg-engine.js:75-102 | the bar counts at most ten base items, and all ten exactly when each holds: a trimmed name of three or more, a parsable date, a gender, a ten-character mobile, a district, a shown preview, a trimmed contact name of three or more, a ten-character contact phone, a relation, and all four consents |
| Engine.Progress | pages/reg-engine.js:75-111 | the bar shows at most 100%, and 100% exactly when all ten base items and the scheme's full extra count are there |
| Engine.ValidFormCountsFully | pages/reg-engine.js:75-102 | a form that passes validation, with phone fields that have no surrounding white space and a visible preview, fills the base part of the bar |
| Engine.BuildBase | pages/reg-engine.js:736-752 | the base record: the given ID, "pending", trimmed name, phones, email, emergency name and medical notes, the computed age, the photo source and the timestamp |
| Engine.Submit | pages/reg-engine.js:703-762 | with errors nothing is stored and the errors are returned; otherwise the record gets the next ID and "pending", is appended after the stored records, the counter moves on and the draft is removed |
| Engine.Accept | pages/reg-engine.js:732-755 | the accepting branch: the new record, the bumped counter, the record appended, the draft gone |
| Engine.NewRecord | pages/reg-engine.js:733-753 | the stored record carries the next ID, "pending", the trimmed name and the scheme's own part |
| Engine.AcceptedRecordInBounds | pages/reg-engine.js:703-753 | every accepted record has an age within the scheme's bounds, valid mobile and emergency numbers, and a name of 3 or more characters |
| Engine.SubmitKeepsConsistency | pages/reg-engine.js:703-762 | submission keeps the storage invariant; the counter moves on only when the form is accepted |
| Engine.OneDigitId | pages/reg-engine.js:737 | a one-digit number is written after five zeros |
| Engine.FirstSubmission | pages/reg-engine.js:733-754 | the first accepted submission on empty storage gets the ID ending `-000001`, leaves the counter at "1" and is the only stored record |
| Engine.SecondSubmission | pages/reg-engine.js:733-754 | the next one gets the ID ending `-000002` and is stored after the first |
| Engine.SaveDraft | pages/reg-engine.js:689-698 | Save Draft (and the autosave) stores the collected data as the draft, which reads back unchanged; records and counter are untouched |
| Engine.LoadDraft | pages/reg-engine.js:665-668 | the draft read back at page load: the stored draft itself when it parses, and nothing otherwise |
| Engine.RestoreOfferedIff | pages/reg-engine.js:665-670 | a restore is offered exactly when a readable draft with a non-empty full name is stored |
| Engine.DiscardDraft | pages/reg-engine.js:680-686 | Discard removes the draft, so no restore is offered; records and counter are untouched |
| Engine.DeleteRecord | pages/reg-engine.js:796-802 | once confirmed, exactly the records with that ID are removed; if not confirmed, nothing changes |
| Engine.AgeCell | pages/reg-engine.js:417 | the age column's cell is empty exactly when the age is missing or zero; otherwise it reads back as the age |
| Engine.ExportCsv | pages/reg-engine.js:398-425 | no file exactly when nothing is stored |
| Engine.HeaderCells | pages/reg-engine.js:407-414 | the header row: one cell per admin column plus the ID and timestamp cells, all written unquoted |
| Engine.RecordCells | pages/reg-engine.js:415-422 | a record's row: one cell per admin column plus the ID and timestamp cells, all quoted |
| Engine.HeaderReadable | pages/reg-engine.js:407-414 | with plain column labels, the header row reads back as "Registration ID", the labels, "Registered At" |
| Engine.RecordRowReadable | pages/reg-engine.js:415-422 | a record's row reads back as its ID, each column's value and its timestamp |
| Engine.ExportReadsBack | pages/reg-engine.js:398-425 | the export reads back as the header and then one row per stored record, in storage order, each with the record's ID, column values and timestamp, whatever the values contain |
| Engine.ExportCell | pages/reg-engine.js:414-422 | the cell at row `i + 1`, column `j + 1` holds column `j`'s value for the `i`-th stored record |
| Engine.ExportColumn | pages/reg-engine.js:414-422 | a column whose value for the `i`-th record is `v` reads back as `v` in that record's row |
| Youth.ExtraProgress | pages/youth-volunteering/index.js:94-102 | the scheme's bar counts availability, at least one service area and qualification, up to 3 |
| Youth.ValidateExtra | pages/youth-volunteering/index.js:105-134 | exactly the errors of the missing requirements, each once, in the order service area, availability, qualification; none exactly when all three are there |
| Youth.AcceptedIff | pages/youth-volunteering/index.js:84-134 | an application is accepted exactly when the base form is acceptable for ages 18 to 29 and the three requirements hold |
| Youth.ProgressFullIff | pages/youth-volunteering/index.js:94-102 | the bar is full exactly when all base items and all three scheme items count |
| Youth.AcceptedRecordKeepsValues | pages/youth-volunteering/index.js:137-147 | an accepted record keeps every collected scheme value and has at least one service area |
| Youth.CollectExtra | pages/youth-volunteering/index.js:7-29 | the service areas and languages are the checked boxes; each of the selects and text fields as the form holds it |
| Youth.RestoreExtra | pages/youth-volunteering/index.js:32-49 | restoring never changes the checkbox options |
| Youth.RestoreRoundTrip | pages/youth-volunteering/index.js:7-49 | a draft restored on a fresh page collects back to the saved values |
| Youth.ToggleKeepsLimit | pages/youth-volunteering/index.js:52-80 | with the change handler, at most three service areas are ever collected |
| Youth.ExportServiceAreas | pages/youth-volunteering/index.js:201-203 | in the export, a record's service-areas cell reads back as its areas joined with `\|` |
| Adventure.ExtraProgress | pages/adventure-training/index.js:56-66 | the scheme's bar counts five selections, full exactly when all five are made |
| Adventure.ValidateExtra | pages/adventure-training/index.js:68-110 | exactly the errors of the empty selections, each once, in the order course, batch, accommodation, fitness, qualification, swimming; each is reported exactly when its selection is empty, and none exactly when all six are made |
| Adventure.UncheckedFields | pages/adventure-training/index.js:68-110 | prior activities, highest altitude and blood group never cause an error |
| Adventure.FullBarMissingAccommodation | pages/adventure-training/index.js:56-110 | the scheme's bar can be full while accommodation is missing and still refused |
| Adventure.AcceptedIff | pages/adventure-training/index.js:48-110 | accepted exactly when the base form is acceptable for ages 15 to 35 and all six selections are made |
| Adventure.ProgressFullIff | pages/adventure-training/index.js:56-66 | the bar is full exactly when all base items and the five counted selections are there |
| Adventure.RestoreRoundTrip | pages/adventure-training/index.js:4-45 | a draft restored on a fresh page collects back to the saved values |
| Adventure.CollectExtra | pages/adventure-training/index.js:4-23 | each of the eight selects and inputs as the form holds it, and the prior activities as the checked boxes' values; `Adventure.RestoreRoundTrip` is its partner |
| Adventure.RestoreExtra | pages/adventure-training/index.js:25-45 | restoring never changes which prior-activity boxes exist, only which are ticked |
| Adventure.ExportBloodGroup | pages/adventure-training/index.js:156-188 | in the export, the last column before the timestamp reads back as the blood group |
| Vocational.ExtraProgress | pages/vocational-training/index.js:60-69 | the scheme's bar counts the four required selections, full exactly when all are made |
| Vocational.ValidateExtra | pages/vocational-training/index.js:71-99 | exactly the errors of the empty selections, each once, in the order sector, duration, qualification, status; none exactly when all four are made |
| Vocational.ProgressAgreesWithValidation | pages/vocational-training/index.js:60-99 | the scheme's part of the bar is full exactly when the scheme reports no error |
| Vocational.UncheckedFields | pages/vocational-training/index.js:71-99 | training mode, employment goal, category and Aadhaar number never cause an error |
| Vocational.AcceptedIff | pages/vocational-training/index.js:52-99 | accepted exactly when the base form is acceptable for ages 14 to 35 and the four selections are made |
| Vocational.ProgressFullIff | pages/vocational-training/index.js:60-69 | the bar is full exactly when all base items and the four selections are there |
| Vocational.CollectExtra | pages/vocational-training/index.js:4-20 | each of the three radio groups gives its checked value or nothing; the selects and the Aadhaar input as the form holds them |
| Vocational.RestoreExtra | pages/vocational-training/index.js:22-49 | restoring never changes the options of the three radio groups, only which is checked |
| Vocational.RestoreRoundTrip | pages/vocational-training/index.js:4-49 | a draft restored on a fresh page collects back to the saved values |
| Vocational.ExportStatus | pages/vocational-training/index.js:164-172 | in the export, the "Status" column reads back as the employment status |
| Khel.AgeOfDob | pages/khel-mahakumbh/khel-mahakumbh.js:95-102 | no age exactly when the date is empty or does not parse, otherwise the age on today's date |
| Khel.DobMessage | pages/khel-mahakumbh/khel-mahakumbh.js:201-210 | passes exactly on a fine verdict; too young and too old carry Khel's "at least 10" and "at most 60" wording |
| Khel.SportMessage | pages/khel-mahakumbh/khel-mahakumbh.js:231-236 | the sport validator passes exactly for one to three sports, with its two messages otherwise |
| Khel.IdentityVerdicts | pages/khel-mahakumbh/khel-mahakumbh.js:195-213 | name, date of birth and gender pass exactly when the name has 3 or more characters after trimming, the age is 10 to 60 and a gender is chosen |
| Khel.ValidateAll | pages/khel-mahakumbh/khel-mahakumbh.js:310-357 | at most fifteen errors, none exactly when every validator passes, each under one of the fifteen keys |
| Khel.Reported | pages/khel-mahakumbh/khel-mahakumbh.js:329-355 | an error with key `k` and message `m` is reported exactly when the `k`-th validator returns `m` |
| Khel.NoKeyTwice | pages/khel-mahakumbh/khel-mahakumbh.js:310-357 | no key is reported twice |
| Khel.ErrorsInKeyOrder | pages/khel-mahakumbh/khel-mahakumbh.js:312-355 | errors come in the checklist's order: those of the first `m` keys before the rest |
| Khel.PersonalPassIffValid | pages/khel-mahakumbh/khel-mahakumbh.js:195-230 | the personal-details validators all pass exactly when the personal details are acceptable for Khel |
| Khel.SelectionPassIffValid | pages/khel-mahakumbh/khel-mahakumbh.js:231-242 | sport and photo pass exactly when one to three sports are chosen and a photo is present |
| Khel.ValidateAllPassesIffValid | pages/khel-mahakumbh/khel-mahakumbh.js:310-357 | no error exactly when the whole form is acceptable, stated directly |
| Khel.AgreesWithEngine | pages/khel-mahakumbh/khel-mahakumbh.js:194-271 | Khel accepts exactly what the engine accepts with ages 10 to 60, plus a valid sports choice, despite its different wording |
| Khel.ProgressCount | pages/khel-mahakumbh/khel-mahakumbh.js:129-148 | at most fourteen items count, and all fourteen exactly when every item's condition holds (untrimmed lengths, any non-empty date, a shown preview, each consent) |
| Khel.Progress | pages/khel-mahakumbh/khel-mahakumbh.js:129-156 | the bar shows at most 100%, and 100% exactly when all fourteen items count |
| Khel.ValidFormFullBar | pages/khel-mahakumbh/khel-mahakumbh.js:129-156 | an acceptable form with phone fields that have no surrounding white space and a visible preview shows a full bar |
| Khel.ProgressIgnoresDobValidity | pages/khel-mahakumbh/khel-mahakumbh.js:134 | the bar counts any non-empty date of birth, valid or not |
| Khel.BlankNameCounts | pages/khel-mahakumbh/khel-mahakumbh.js:133 | a name of three or more spaces counts on the bar like a real name, while validation reports it as missing |
| Khel.GenerateIdAt | pages/khel-mahakumbh/khel-mahakumbh.js:57-60 | with the counter at `c`, the ID is that of `c + 1` and its suffix reads back as `c + 1` |
| Khel.GenerateId | pages/khel-mahakumbh/khel-mahakumbh.js:57-60 | the ID is "KMK-UT-2026", a dash and a suffix of at least six characters |
| Khel.SaveRegistration | pages/khel-mahakumbh/khel-mahakumbh.js:22-29 | the record is appended and the counter moves on; the draft is untouched |
| Khel.CollectData | pages/khel-mahakumbh/khel-mahakumbh.js:161-189 | the base fields as the engine collects them and the sports as the checked boxes' values; `Khel.RestoreRoundTrip` is its partner |
| Khel.BuildRecord | pages/khel-mahakumbh/khel-mahakumbh.js:557-575 | the record: the given ID, "pending", trimmed text fields, the computed age and category label, the sports |
| Khel.Submit | pages/khel-mahakumbh/khel-mahakumbh.js:492-586 | with errors nothing changes; otherwise the record gets the next ID, is appended, the counter moves on and the draft is removed |
| Khel.Accept | pages/khel-mahakumbh/khel-mahakumbh.js:549-578 | the accepting branch: the record built with the next ID, the counter moved on, the record appended to what was stored, the draft removed |
| Khel.AcceptedRecord | pages/khel-mahakumbh/khel-mahakumbh.js:557-575 | an accepted record has an age from 10 to 60, category Junior exactly up to 18 and Senior above, one to three sports and valid phone numbers |
| Khel.SubmitKeepsConsistency | pages/khel-mahakumbh/khel-mahakumbh.js:492-586 | submission keeps the storage invariant |
| Khel.FirstSubmission | pages/khel-mahakumbh/khel-mahakumbh.js:57-60 | the first accepted submission gets `KMK-UT-2026-000001` and leaves the counter at "1" |
| Khel.RestoreDraft | pages/khel-mahakumbh/khel-mahakumbh.js:470-475 | the sport boxes are re-ticked from the draft's list only when that list is non-empty |
| Khel.RestoreRoundTrip | pages/khel-mahakumbh/khel-mahakumbh.js:442-487 | a draft restored on a fresh page collects back to the saved data |
| Khel.ToggleKeepsLimit | pages/khel-mahakumbh/khel-mahakumbh.js:949-961 | with the change handler, at most three sports are ever collected |
| Khel.Q | pages/khel-mahakumbh/khel-mahakumbh.js:809-812 | Khel's `q` gives a cell that reads back as its value and needs no further escaping: an empty value is written as nothing (an empty bare cell), any other value is quoted |
| Khel.AgeText | pages/khel-mahakumbh/khel-mahakumbh.js:819 | the unquoted age cell is empty exactly when there is no age, reads back as the age, and never needs quoting |
| Khel.RowCells | pages/khel-mahakumbh/khel-mahakumbh.js:815-832 | sixteen cells holding `Khel.RowValues` (the record's fields in header order, the age as `AgeText`, the sports joined with `|`); every cell other than name, email, sports, emergency name and medical notes is written bare |
| Khel.ExportCsv | pages/khel-mahakumbh/khel-mahakumbh.js:785-835 | no file exactly when nothing is stored |
| Khel.ExportReadsBack | pages/khel-mahakumbh/khel-mahakumbh.js:785-835 | when the unquoted fields hold no comma, quote or line feed, the export reads back as the header and one row of sixteen values per stored record, in order |
| Khel.BareCommaShiftsColumns | pages/khel-mahakumbh/khel-mahakumbh.js:824 | a district containing a comma is written unquoted, so the row no longer reads back cell for cell |
| Home.ChangeSlide | script.js:7-25 | with no slides nothing changes; otherwise the index stays in range, moving by the direction and wrapping past either end |
| Home.ForwardIsModular | script.js:7-25 | one step forward is addition modulo the number of slides |
| Home.BackwardIsModular | script.js:7-25 | one step back is subtraction modulo the number of slides |
| Home.StepsUndo | script.js:7-25 | back undoes forward and forward undoes back |
| Home.AdvanceIsModular | script.js:33-38 | after `k` automatic advances the carousel shows slide `(current + k) mod total` |
| Home.FullRound | script.js:33-38 | after as many advances as there are slides, the carousel is back where it started |
| Home.Click | script.js:41-61 | a header click leaves at most one item open: the clicked one is toggled and every other is closed |
| Home.ClickOpenClosesAll | script.js:46-59 | clicking the open item closes everything |
| Home.ClickTwice | script.js:41-61 | clicking the same header twice restores that item's state and closes all the others |

## Left out

- The DOM is not modelled. This covers error elements and `setFieldState`, the blur and input-time validators (which call the same validators as submission), focus, toasts, the success screen and its detail rows, the printed receipt, the admin table's HTML, its statistics and search, "copy ID", the section observer and registerAnother.
- Local storage and JSON are modelled as values, not as serialisation. A stored draft is modelled as the collected data itself, so `restoreDraft`'s `draft[n] !== undefined` test always holds.
- The captcha is left out. It is random and page-only.
- Photo upload is not modelled: file reading, the size and type checks, drag and drop. Only the preview's resolved source and its `hidden` flag are modelled, as parameters.
- Date parsing is a parameter (`Env.parse`), and so are the current date and the ISO timestamp. JavaScript's `Date` string parsing and time zones are not modelled.
- The autosave's two-second debounce and the submit handler's 600 ms delay are left out. The autosave is `Engine.SaveDraft`.
- Timers are left out. The carousel's four-second interval is modelled as a count of advances (`Home.Advance`).
- Strings are sequences of Unicode scalar values. JavaScript's `length` counts UTF-16 code units, so the model differs for characters outside the Basic Multilingual Plane.
- Engine.RoundPercent: `Math.round` of a floating-point quotient is modelled exactly with integers. The two agree for the totals the pages use (10 to 15), where no count falls exactly on a half. The proof does not cover floating-point rounding in general.
- Csv.JoinLineFeeds: the export has one line per record only when no value holds a line feed. A quoted value with a line feed (such as Khel's medical notes) spans several physical lines, but it still reads back as one cell (`Engine.ExportReadsBack`, `Khel.ExportReadsBack`).
- Engine.ExportReadsBack requires the column labels to contain no comma, quote or line feed, because the header row is written unquoted. Every scheme's labels satisfy this (`LabelsArePlain` in each scheme module).
- The `replace(/_/g, " ")` display formatting is left out. It affects only page text, not stored or exported values.
- `buildRecord`'s `|| ""` and `|| []` defaults are left out. They only matter for values the forms cannot produce.
- The CSV download (`Blob`, object URL, file name with `Date.now()`) is left out. The model stops at the CSV text.
- The page-load check that the draft has a name before offering a restore is kept as the `OffersRestore` predicate (`Engine.RestoreOfferedIff`). The banner itself is not modelled.
- Text.ParseIntOfIntToString: proved for unbounded integers. JavaScript's `String(n)` switches to exponent notation from 1e21, and `parseInt("1e+21", 10)` is 1, so in the program the round trip holds only below 1e21.
- Store.NextNumberAt: the counter moves from `c` to `c + 1` for every `c`. In JavaScript's double-precision numbers `c + 1` equals `c` from 2^53 on, so there the counter would stop advancing. The model has unbounded integers.
- Store.NewIdIsFresh: the freshness of the next ID, and likewise `Khel.GenerateIdAt` and the ID numbering of both submits, holds in the program only while the counter is below 2^53, for the reason above.
- Store.GetReg: a records key whose JSON parses but is not an array (such as `null` or `{}`) is returned unchanged by `getReg` and `getRegistrations`, and the next `push` or `filter` then throws. `Slot` has no such state: a records key is missing, corrupt or a list.

=== FILE: adventure.dfy ===
/**
 * The Adventure Training scheme: ages 15 to 35, IDs `AT-UT-2026-NNNNNN`, six
 * required selections, and prior activities, highest altitude and blood
 * group collected but never checked.
 */
module Adventure {
  import opened Wrappers
  import opened Text
  import opened Csv
  import opened Validators
  import opened Store
  import opened Forms
  import opened Engine

  /** The scheme's own values, as collected and as stored in the record. */
  datatype AdventureData = AdventureData(
    courseType: string,
    batchMonth: string,
    accommodation: string,
    fitnessLevel: string,
    priorActivities: seq<string>,
    highestAltitude: string,
    qualification: string,
    swimmingAbility: string,
    bloodGroup: string)

  /** The six selections `validateExtra` insists on. */
  predicate Complete(x: AdventureData) {
    && x.courseType != "" && x.batchMonth != "" && x.accommodation != ""
    && x.fitnessLevel != "" && x.qualification != "" && x.swimmingAbility != ""
  }

  /** The five selections the progress bar counts: all but accommodation. */
  predicate Counted(x: AdventureData) {
    && x.courseType != "" && x.batchMonth != "" && x.fitnessLevel != ""
    && x.qualification != "" && x.swimmingAbility != ""
  }

  /** `extraProgress`. */
  function ExtraProgress(x: AdventureData): (n: nat)
    ensures n <= 5
    ensures n == 5 <==> Counted(x)
  {
    Count(x.courseType != "") + Count(x.batchMonth != "") + Count(x.fitnessLevel != "")
    + Count(x.qualification != "") + Count(x.swimmingAbility != "")
  }

  const CourseMissing := FieldError("courseType", "Please select a course or program type.")
  const BatchMissing := FieldError("batchMonth", "Please select your preferred batch month.")
  const AccommodationMissing := FieldError("accommodation", "Please indicate accommodation requirement.")
  const FitnessMissing := FieldError("fitnessLevel", "Please select your fitness level.")
  const QualificationMissing := FieldError("qualification", "Please select your highest qualification.")
  const SwimmingMissing := FieldError("swimmingAbility", "Please indicate your swimming ability.")

  function ExtraChecks(x: AdventureData): (checks: seq<Check>)
    ensures |checks| == 6 && DistinctKeys(checks)
  {
    [ Required(CourseMissing, x.courseType != ""),
      Required(BatchMissing, x.batchMonth != ""),
      Required(AccommodationMissing, x.accommodation != ""),
      Required(FitnessMissing, x.fitnessLevel != ""),
      Required(QualificationMissing, x.qualification != ""),
      Required(SwimmingMissing, x.swimmingAbility != "") ]
  }

  /** `validateExtra`: one error per empty selection, in the order course,
      batch, accommodation, fitness, qualification, swimming. */
  function ValidateExtra(x: AdventureData): (errors: seq<FieldError>)
    ensures errors == [] <==> Complete(x)
    ensures |errors| <= 6
    ensures CourseMissing in errors <==> x.courseType == ""
    ensures BatchMissing in errors <==> x.batchMonth == ""
    ensures AccommodationMissing in errors <==> x.accommodation == ""
    ensures FitnessMissing in errors <==> x.fitnessLevel == ""
    ensures QualificationMissing in errors <==> x.qualification == ""
    ensures SwimmingMissing in errors <==> x.swimmingAbility == ""
    ensures errors == ErrorIf(x.courseType == "", CourseMissing)
                    + ErrorIf(x.batchMonth == "", BatchMissing)
                    + ErrorIf(x.accommodation == "", AccommodationMissing)
                    + ErrorIf(x.fitnessLevel == "", FitnessMissing)
                    + ErrorIf(x.qualification == "", QualificationMissing)
                    + ErrorIf(x.swimmingAbility == "", SwimmingMissing)
  {
    var checks := ExtraChecks(x);
    RequiredSix(CourseMissing, x.courseType != "", BatchMissing, x.batchMonth != "",
                AccommodationMissing, x.accommodation != "", FitnessMissing, x.fitnessLevel != "",
                QualificationMissing, x.qualification != "", SwimmingMissing, x.swimmingAbility != "");
    ReportedSix(CourseMissing, x.courseType != "", BatchMissing, x.batchMonth != "",
                AccommodationMissing, x.accommodation != "", FitnessMissing, x.fitnessLevel != "",
                QualificationMissing, x.qualification != "", SwimmingMissing, x.swimmingAbility != "");
    Failures(checks)
  }

  /** Prior activities, highest altitude and blood group never cause an error. */
  lemma UncheckedFields(x: AdventureData, activities: seq<string>, altitude: string, blood: string)
    ensures ValidateExtra(x.(priorActivities := activities, highestAltitude := altitude, bloodGroup := blood))
         == ValidateExtra(x)
  {
    assert ExtraChecks(x.(priorActivities := activities, highestAltitude := altitude, bloodGroup := blood))
        == ExtraChecks(x);
  }

  /** The scheme's bar can be full while the form is still refused: the
      accommodation choice is required but not counted. */
  lemma FullBarMissingAccommodation(x: AdventureData)
    requires Counted(x) && x.accommodation == ""
    ensures ExtraProgress(x) == 5
    ensures AccommodationMissing in ValidateExtra(x)
  {
  }

  /** The admin table's columns and their CSV cells. */
  const Columns: seq<Column<AdventureData>> := [
    Column("Name", NameCell), Column("Age", AgeCell), Column("District", DistrictCell),
    Column("Course", CourseCell), Column("Batch", BatchCell), Column("Fitness", FitnessCell),
    Column("Blood Grp", BloodGroupCell)]

  function NameCell(r: Record<AdventureData>): string { r.base.fullName }
  function DistrictCell(r: Record<AdventureData>): string { r.base.district }
  function CourseCell(r: Record<AdventureData>): string { r.extra.courseType }
  function BatchCell(r: Record<AdventureData>): string { r.extra.batchMonth }
  function FitnessCell(r: Record<AdventureData>): string { r.extra.fitnessLevel }
  function BloodGroupCell(r: Record<AdventureData>): string { r.extra.bloodGroup }

  /** The configuration the page hands to the engine. */
  const Scheme: Config<AdventureData, AdventureData> :=
    Config("AT-UT-2026", 15, 35, ExtraProgress, 5, ValidateExtra, (x: AdventureData) => x, Columns)

  /** An application is accepted exactly when the base form is acceptable
      for ages 15 to 35 and all six selections are made. */
  lemma AcceptedIff(data: FormData<AdventureData>, env: Env)
    ensures RunValidation(Scheme, data, env) == [] <==> BaseValid(Scheme, data.base, env) && Complete(data.extra)
  {
    RunValidationPassesIffValid(Scheme, data, env);
  }

  /** The bar is full exactly when every base item and the five counted
      selections are there. */
  lemma ProgressFullIff(data: FormData<AdventureData>, env: Env)
    ensures Progress(Scheme, data, env) == 100 <==> BaseProgress(Scheme, data.base, env) == 10 && Counted(data.extra)
  {
  }

  /* ---------------------------------------------------------- the form */

  /** The scheme's part of the form. */
  datatype AdventureForm = AdventureForm(
    courseType: string,
    batchMonth: string,
    accommodation: string,
    fitnessLevel: string,
    priorActivities: seq<Box>,
    highestAltitude: string,
    qualification: string,
    swimmingAbility: string,
    bloodGroup: string)

  /** `_regCollectExtra`. */
  function CollectExtra(f: AdventureForm): (x: AdventureData)
    ensures x.priorActivities == CheckedValues(f.priorActivities)
    ensures x.courseType == f.courseType && x.batchMonth == f.batchMonth && x.accommodation == f.accommodation
    ensures x.fitnessLevel == f.fitnessLevel && x.highestAltitude == f.highestAltitude
    ensures x.qualification == f.qualification && x.swimmingAbility == f.swimmingAbility
    ensures x.bloodGroup == f.bloodGroup
  {
    AdventureData(f.courseType, f.batchMonth, f.accommodation, f.fitnessLevel,
                  CheckedValues(f.priorActivities), f.highestAltitude, f.qualification,
                  f.swimmingAbility, f.bloodGroup)
  }

  /** `_regRestoreExtra`: the eight selects and inputs take the draft's
      non-empty values; the activity boxes are ticked from its list. */
  function RestoreExtra(f: AdventureForm, d: AdventureData): (r: AdventureForm)
    ensures Values(r.priorActivities) == Values(f.priorActivities)
  {
    var pa := CheckListed(f.priorActivities, d.priorActivities);
    assert Values(pa) == Values(f.priorActivities);
    AdventureForm(
      Prefer(d.courseType, f.courseType), Prefer(d.batchMonth, f.batchMonth),
      Prefer(d.accommodation, f.accommodation), Prefer(d.fitnessLevel, f.fitnessLevel),
      pa, Prefer(d.highestAltitude, f.highestAltitude), Prefer(d.qualification, f.qualification),
      Prefer(d.swimmingAbility, f.swimmingAbility), Prefer(d.bloodGroup, f.bloodGroup))
  }

  /** The page as first shown: nothing chosen or typed. */
  predicate Blank(f: AdventureForm) {
    && f.courseType == "" && f.batchMonth == "" && f.accommodation == "" && f.fitnessLevel == ""
    && f.highestAltitude == "" && f.qualification == "" && f.swimmingAbility == "" && f.bloodGroup == ""
  }

  /** A draft saved from a form restores, on a freshly loaded page with the
      same (distinct) activity options, to a form that collects the same values. */
  lemma RestoreRoundTrip(saved: AdventureForm, f: AdventureForm)
    requires Blank(f)
    requires Values(f.priorActivities) == Values(saved.priorActivities) && Distinct(Values(f.priorActivities))
    ensures CollectExtra(RestoreExtra(f, CollectExtra(saved))) == CollectExtra(saved)
  {
    CheckListedRestores(f.priorActivities, saved.priorActivities);
  }

  lemma LabelsArePlain()
    ensures forall i :: 0 <= i < |Columns| ==> SafeBare(Columns[i].header)
  {
    FirstLabelsPlain();
    LastLabelsPlain();
  }

  lemma FirstLabelsPlain()
    ensures forall i :: 0 <= i < 3 ==> SafeBare(Columns[i].header)
  {
  }

  lemma LastLabelsPlain()
    ensures forall i :: 3 <= i < |Columns| ==> SafeBare(Columns[i].header)
  {
  }

  /** In the export, each record's last column before the timestamp reads
      back as its blood group, quoted or not. */
  lemma ExportBloodGroup(b: Bucket<FormData<AdventureData>, AdventureData>, i: nat)
    requires i < |GetReg(b)|
    ensures ReadDocument(ExportCsv(Scheme, b).value).Some?
    ensures var rows := ReadDocument(ExportCsv(Scheme, b).value).value;
            i + 1 < |rows| && 7 < |rows[i + 1]| && rows[i + 1][7] == GetReg(b)[i].extra.bloodGroup
  {
    SchemeLabelsPlain();
    BloodGroupColumn(GetReg(b)[i]);
    ExportColumn(Scheme, b, i, 6, GetReg(b)[i].extra.bloodGroup);
  }

  lemma SchemeLabelsPlain()
    ensures forall k :: 0 <= k < |Scheme.adminColumns| ==> SafeBare(Scheme.adminColumns[k].header)
  {
    LabelsArePlain();
  }

  lemma BloodGroupColumn(r: Record<AdventureData>)
    ensures Scheme.adminColumns[6].cell(r) == r.extra.bloodGroup
  {
    assert Scheme.adminColumns[6] == Column("Blood Grp", BloodGroupCell);
  }
}

=== FILE: age.dfy ===
/**
 * Age and category. Both scripts compute a whole-years age from the date of
 * birth and "today", then band it into a category. The shared engine has two
 * policies chosen by the scheme's minimum age; the Khel Mahakumbh page has a
 * third rule of its own.
 */
module Age {
  import opened Wrappers

  /** A calendar date as the scripts read it through `getFullYear()`,
      `getMonth()` and `getDate()`. */
  datatype Date = Date(year: int, month: int, day: int)

  /** `a` falls on or before `b`, comparing year, then month, then day. */
  predicate OnOrBefore(a: Date, b: Date) {
    || a.year < b.year
    || (a.year == b.year && (a.month < b.month || (a.month == b.month && a.day <= b.day)))
  }

  /** The `n`-th birthday of someone born on `born`. */
  function Anniversary(born: Date, n: int): Date {
    Date(born.year + n, born.month, born.day)
  }

  /** The whole-years age on `today`: the year difference, one less when
      today's month and day come before the birth month and day. The result is
      the number of the last birthday reached, which the next one exceeds. */
  function AgeOn(born: Date, today: Date): (age: int)
    ensures OnOrBefore(Anniversary(born, age), today)
    ensures !OnOrBefore(Anniversary(born, age + 1), today)
  {
    var age := today.year - born.year;
    var m := today.month - born.month;
    if m < 0 || (m == 0 && today.day < born.day) then age - 1 else age
  }

  /** The age is exactly the largest `n` whose `n`-th birthday is not after today. */
  lemma AgeIsLastBirthday(born: Date, today: Date, n: int)
    ensures OnOrBefore(Anniversary(born, n), today) <==> n <= AgeOn(born, today)
  {
    var a := AgeOn(born, today);
    if n <= a {
      assert OnOrBefore(Anniversary(born, n), Anniversary(born, a));
    } else {
      assert OnOrBefore(Anniversary(born, a + 1), Anniversary(born, n));
    }
  }

  /** Moving "today" later never lowers the age. */
  lemma AgeMonotone(born: Date, earlier: Date, later: Date)
    requires OnOrBefore(earlier, later)
    ensures AgeOn(born, earlier) <= AgeOn(born, later)
  {
    var a := AgeOn(born, earlier);
    AgeIsLastBirthday(born, later, a);
  }

  /** The category label; `Unknown` is the empty label of an unknown age. */
  datatype Category = Unknown | Junior | Senior | Overage | Eligible | Ineligible {
    function Label(): string {
      match this
      case Unknown => ""
      case Junior => "Junior"
      case Senior => "Senior"
      case Overage => "Overage"
      case Eligible => "Eligible"
      case Ineligible => "Ineligible"
    }
  }

  /** What `computeAge` returns: `age: null` is `None`. */
  datatype AgeInfo = AgeInfo(age: Option<int>, category: Category)

  /** The engine's category: a banded Junior/Senior/Overage rule, replaced by a
      binary Eligible/Ineligible rule when the scheme's minimum age is above 15. */
  function EngineCategory(age: int, minAge: int, maxAge: int): (c: Category)
    ensures minAge > 15 ==> (c == Eligible <==> minAge <= age <= maxAge)
    ensures minAge > 15 ==> c == Eligible || c == Ineligible
    ensures minAge <= 15 ==> (c == Junior <==> minAge <= age <= 18)
    ensures minAge <= 15 ==> (c == Senior <==> 18 < age <= maxAge)
    ensures minAge <= 15 ==> (c == Overage <==> 18 < age && maxAge < age)
    ensures minAge <= 15 ==> (c == Ineligible <==> age < minAge)
    ensures c != Unknown
  {
    var banded :=
      if minAge <= age <= 18 then Junior
      else if 18 < age <= maxAge then Senior
      else if 18 < age && maxAge < age then Overage
      else Ineligible;
    if minAge > 15 then
      (if minAge <= age <= maxAge then Eligible else Ineligible)
    else
      banded
  }

  /** The category admits the applicant exactly when the age lies in the
      scheme's bounds, under either policy, as long as the banded policy's
      upper bound reaches the Junior/Senior boundary of 18. */
  lemma CategoryAdmitsIffInBounds(age: int, minAge: int, maxAge: int)
    requires minAge <= 15 ==> 18 <= maxAge
    ensures EngineCategory(age, minAge, maxAge) in {Junior, Senior, Eligible}
        <==> minAge <= age <= maxAge
  {
  }

  /** The asymmetry of the banded policy: with an upper bound below 18, an age
      above the bound but not above 18 is still labelled Junior rather than
      Overage (for instance 17 with bounds 10 to 16). */
  lemma BandedJuniorAboveMaximum(age: int, minAge: int, maxAge: int)
    requires minAge <= 15 && minAge <= age <= 18 && maxAge < age
    ensures EngineCategory(age, minAge, maxAge) == Junior
    ensures EngineCategory(age, minAge, maxAge) != Overage
  {
  }

  /** `computeAge` of the engine: an empty or unparsable date gives no age and
      the empty category; otherwise the age on `today` and its category. */
  function ComputeAge(dob: string, parse: string -> Option<Date>, today: Date,
                      minAge: int, maxAge: int): (r: AgeInfo)
    ensures r.age.None? <==> dob == "" || parse(dob).None?
    ensures r.age.None? <==> r.category == Unknown
    ensures r.age.Some? ==> r.age.value == AgeOn(parse(dob).value, today)
    ensures r.age.Some? ==> r.category == EngineCategory(r.age.value, minAge, maxAge)
  {
    if dob == "" then AgeInfo(None, Unknown)
    else
      match parse(dob)
      case None => AgeInfo(None, Unknown)
      case Some(born) =>
        var age := AgeOn(born, today);
        AgeInfo(Some(age), EngineCategory(age, minAge, maxAge))
  }

  /* ------------------------------------------------------- Khel Mahakumbh */

  const KhelMinAge := 10
  const KhelMaxAge := 60

  /** The Khel Mahakumbh category: Junior from 10 to 18, Senior above 18 up to
      60, Ineligible otherwise; there is no Overage band. */
  function KhelCategory(age: int): (c: Category)
    ensures c == Junior <==> KhelMinAge <= age <= 18
    ensures c == Senior <==> 18 < age <= KhelMaxAge
    ensures c == Ineligible <==> age < KhelMinAge || KhelMaxAge < age
  {
    if KhelMinAge <= age <= 18 then Junior
    else if 18 < age <= KhelMaxAge then Senior
    else Ineligible
  }

  /** The Khel rule agrees with the engine's banded rule on the same bounds
      except above the maximum, where the engine says Overage and Khel says
      Ineligible. */
  lemma KhelVersusEngine(age: int)
    ensures age <= KhelMaxAge ==> KhelCategory(age) == EngineCategory(age, KhelMinAge, KhelMaxAge)
    ensures age > KhelMaxAge ==>
      KhelCategory(age) == Ineligible && EngineCategory(age, KhelMinAge, KhelMaxAge) == Overage
  {
  }

  /** `computeAge` of the Khel Mahakumbh page. */
  function KhelComputeAge(dob: string, parse: string -> Option<Date>, today: Date): (r: AgeInfo)
    ensures r.age.None? <==> dob == "" || parse(dob).None?
    ensures r.age.None? <==> r.category == Unknown
    ensures r.age.Some? ==> r.age.value == AgeOn(parse(dob).value, today)
    ensures r.age.Some? ==> (r.category != Ineligible <==> KhelMinAge <= r.age.value <= KhelMaxAge)
    ensures r.age.Some? ==> r.category == KhelCategory(r.age.value)
  {
    if dob == "" then AgeInfo(None, Unknown)
    else
      match parse(dob)
      case None => AgeInfo(None, Unknown)
      case Some(born) =>
        var age := AgeOn(born, today);
        AgeInfo(Some(age), KhelCategory(age))
  }
}

=== FILE: csv.dfy ===
/**
 * The CSV text the admin export writes, and a reader for it. A document is
 * rows joined with line feeds; a row is cells joined with commas; a cell is
 * either written bare or wrapped in double quotes with inner quotes doubled.
 * The reader is the partner of the writer: it recovers every row and cell,
 * including quoted cells that hold commas, quotes or line feeds.
 */
module Csv {
  import opened Wrappers
  import opened Text

  /** A cell as the export writes it. */
  datatype Cell = Quoted(text: string) | Bare(text: string)

  /** The export's `q`: the value in double quotes, inner quotes doubled. */
  function Quote(v: string): (r: string)
    ensures |r| >= 2 && r[0] == '"' && r[|r| - 1] == '"'
  {
    "\"" + ReplaceAll(v, '"', "\"\"") + "\""
  }

  function EncodeCell(c: Cell): string {
    match c
    case Quoted(v) => Quote(v)
    case Bare(v) => v
  }

  function EncodeCells(cells: seq<Cell>): (r: seq<string>)
    ensures |r| == |cells|
  {
    if cells == [] then [] else [EncodeCell(cells[0])] + EncodeCells(cells[1..])
  }

  /** A row: its encoded cells joined with commas. */
  function EncodeRow(cells: seq<Cell>): string {
    Join(EncodeCells(cells), ",")
  }

  function EncodeRows(rows: seq<seq<Cell>>): (r: seq<string>)
    ensures |r| == |rows|
  {
    if rows == [] then [] else [EncodeRow(rows[0])] + EncodeRows(rows[1..])
  }

  /** A document: its rows joined with line feeds. */
  function EncodeDocument(rows: seq<seq<Cell>>): string {
    Join(EncodeRows(rows), "\n")
  }

  /** The values a row holds. */
  function Texts(cells: seq<Cell>): (r: seq<string>)
    ensures |r| == |cells|
    ensures forall i :: 0 <= i < |cells| ==> r[i] == cells[i].text
  {
    if cells == [] then [] else [cells[0].text] + Texts(cells[1..])
  }

  function TextRows(rows: seq<seq<Cell>>): (r: seq<seq<string>>)
    ensures |r| == |rows|
    ensures forall i :: 0 <= i < |rows| ==> r[i] == Texts(rows[i])
  {
    if rows == [] then [] else [Texts(rows[0])] + TextRows(rows[1..])
  }

  /** A value that can be written bare without changing how the text reads:
      no separator, line feed or quote in it. */
  predicate SafeBare(v: string) {
    forall i :: 0 <= i < |v| ==> v[i] != ',' && v[i] != '\n' && v[i] != '"'
  }

  predicate Encodable(c: Cell) {
    c.Quoted? || SafeBare(c.text)
  }

  predicate EncodableRow(cells: seq<Cell>) {
    cells != [] && forall i :: 0 <= i < |cells| ==> Encodable(cells[i])
  }

  /* --------------------------------------------------------------- reader */

  function Prepend(c: char, o: Option<(string, string)>): (r: Option<(string, string)>)
    ensures r.Some? <==> o.Some?
    ensures r.Some? ==> r.value == ([c] + o.value.0, o.value.1)
  {
    match o
    case None => None
    case Some((v, rest)) => Some(([c] + v, rest))
  }

  /** Reads the inside of a quoted cell, after its opening quote: a doubled
      quote stands for one quote, a single quote closes the cell. `None` when
      the closing quote is missing. */
  function ReadQuoted(t: string): (r: Option<(string, string)>)
    ensures r.Some? ==> |r.value.1| < |t|
    decreases |t|
  {
    if t == [] then None
    else if t[0] == '"' then
      if |t| >= 2 && t[1] == '"' then Prepend('"', ReadQuoted(t[2..])) else Some(([], t[1..]))
    else Prepend(t[0], ReadQuoted(t[1..]))
  }

  /** Reads a bare cell: everything up to the next comma or line feed. */
  function ReadBare(t: string): (r: (string, string))
    ensures r.0 + r.1 == t
    ensures r.1 == [] || r.1[0] == ',' || r.1[0] == '\n'
  {
    if t == [] || t[0] == ',' || t[0] == '\n' then ([], t)
    else
      var (v, rest) := ReadBare(t[1..]);
      ([t[0]] + v, rest)
  }

  function ReadCell(t: string): (r: Option<(string, string)>)
    ensures r.Some? ==> |r.value.1| <= |t|
  {
    if t != [] && t[0] == '"' then ReadQuoted(t[1..]) else Some(ReadBare(t))
  }

  /** Reads the cells of one row, up to the line feed that ends it. */
  function ReadRow(t: string): (r: Option<(seq<string>, string)>)
    ensures r.Some? ==> |r.value.1| <= |t| && r.value.0 != []
    decreases |t|
  {
    match ReadCell(t)
    case None => None
    case Some((v, rest)) =>
      if rest != [] && rest[0] == ',' then
        match ReadRow(rest[1..])
        case None => None
        case Some((vs, rest2)) => Some(([v] + vs, rest2))
      else Some(([v], rest))
  }

  /** Reads a whole document; `None` when the text is not well-formed. */
  function ReadDocument(t: string): (r: Option<seq<seq<string>>>)
    ensures r.Some? ==> r.value != []
    decreases |t|
  {
    match ReadRow(t)
    case None => None
    case Some((cells, rest)) =>
      if rest == [] then Some([cells])
      else if rest[0] == '\n' then
        match ReadDocument(rest[1..])
        case None => None
        case Some(rows) => Some([cells] + rows)
      else None
  }

  /* ----------------------------------------------------------- round trip */

  lemma {:induction false} ReadQuotedOf(v: string, rest: string)
    requires rest == [] || rest[0] != '"'
    ensures ReadQuoted(ReplaceAll(v, '"', "\"\"") + "\"" + rest) == Some((v, rest))
  {
    var t := ReplaceAll(v, '"', "\"\"") + "\"" + rest;
    if v == [] {
      assert t == "\"" + rest;
      assert t[1..] == rest;
    } else {
      var tail := ReplaceAll(v[1..], '"', "\"\"") + "\"" + rest;
      ReadQuotedOf(v[1..], rest);
      assert v == [v[0]] + v[1..];
      if v[0] == '"' {
        assert t == "\"\"" + tail;
        assert t[2..] == tail;
      } else {
        assert t == [v[0]] + tail;
        assert t[1..] == tail;
      }
    }
  }

  lemma {:induction false} ReadBareOf(v: string, rest: string)
    requires SafeBare(v)
    requires rest == [] || rest[0] == ',' || rest[0] == '\n'
    ensures ReadBare(v + rest) == (v, rest)
  {
    if v == [] {
      assert v + rest == rest;
    } else {
      assert (v + rest)[0] == v[0] && (v + rest)[1..] == v[1..] + rest;
      assert SafeBare(v[1..]) by {
        assert forall i :: 0 <= i < |v[1..]| ==> v[1..][i] == v[i + 1];
      }
      ReadBareOf(v[1..], rest);
      assert v[0] != ',' && v[0] != '\n';
      assert [v[0]] + v[1..] == v;
    }
  }

  /** A written cell reads back as its value, leaving what follows it. */
  lemma ReadCellOf(c: Cell, rest: string)
    requires Encodable(c)
    requires rest == [] || rest[0] == ',' || rest[0] == '\n'
    ensures ReadCell(EncodeCell(c) + rest) == Some((c.text, rest))
  {
    var t := EncodeCell(c) + rest;
    if c.Quoted? {
      var body := ReplaceAll(c.text, '"', "\"\"");
      assert t == "\"" + (body + "\"" + rest);
      assert t[1..] == body + "\"" + rest;
      ReadQuotedOf(c.text, rest);
    } else {
      assert t != [] ==> t[0] != '"' by {
        if c.text != [] {
          assert t[0] == c.text[0];
        }
      }
      ReadBareOf(c.text, rest);
    }
  }

  /** A written row reads back as its values. */
  lemma {:induction false} ReadRowOf(cells: seq<Cell>, rest: string)
    requires EncodableRow(cells)
    requires rest == [] || rest[0] == '\n'
    ensures ReadRow(EncodeRow(cells) + rest) == Some((Texts(cells), rest))
  {
    var c := cells[0];
    if |cells| == 1 {
      assert EncodeCells(cells) == [EncodeCell(c)];
      assert Texts(cells) == [c.text];
      ReadCellOf(c, rest);
    } else {
      var tail := cells[1..];
      assert EncodeCells(cells)[1..] == EncodeCells(tail);
      assert EncodeRow(cells) == EncodeCell(c) + "," + EncodeRow(tail);
      var after := EncodeRow(tail) + rest;
      assert EncodeRow(cells) + rest == EncodeCell(c) + ("," + after);
      ReadCellOf(c, "," + after);
      assert ("," + after)[1..] == after;
      assert EncodableRow(tail) by {
        assert forall i :: 0 <= i < |tail| ==> tail[i] == cells[i + 1];
      }
      ReadRowOf(tail, rest);
      assert Texts(cells) == [c.text] + Texts(tail);
    }
  }

  /** A written document reads back row by row: the reader finds exactly as
      many rows as were written, whatever line feeds quoted cells hold. */
  lemma {:induction false} ReadDocumentOf(rows: seq<seq<Cell>>)
    requires rows != []
    requires forall i :: 0 <= i < |rows| ==> EncodableRow(rows[i])
    ensures ReadDocument(EncodeDocument(rows)) == Some(TextRows(rows))
  {
    if |rows| == 1 {
      assert EncodeRows(rows) == [EncodeRow(rows[0])];
      assert EncodeRow(rows[0]) + "" == EncodeRow(rows[0]);
      assert TextRows(rows) == [Texts(rows[0])];
      ReadRowOf(rows[0], "");
    } else {
      var tail := rows[1..];
      assert EncodeRows(rows)[1..] == EncodeRows(tail);
      var after := EncodeDocument(tail);
      assert EncodeDocument(rows) == EncodeRow(rows[0]) + ("\n" + after);
      ReadRowOf(rows[0], "\n" + after);
      assert ("\n" + after)[1..] == after;
      assert forall i :: 0 <= i < |tail| ==> tail[i] == rows[i + 1];
      ReadDocumentOf(tail);
      assert TextRows(rows) == [Texts(rows[0])] + TextRows(tail);
    }
  }

  /* ------------------------------------------------------------- lines */

  /** The number of line feeds in a text. */
  function LineFeeds(s: string): nat {
    if s == [] then 0 else (if s[0] == '\n' then 1 else 0) + LineFeeds(s[1..])
  }

  lemma {:induction false} LineFeedsConcat(a: string, b: string)
    ensures LineFeeds(a + b) == LineFeeds(a) + LineFeeds(b)
  {
    if a == [] {
      assert a + b == b;
    } else {
      assert (a + b)[1..] == a[1..] + b;
      LineFeedsConcat(a[1..], b);
    }
  }

  /** Joining `n` line-feed-free texts with line feeds gives `n` physical
      lines; a cell holding a line feed adds a physical line but not a row. */
  lemma {:induction false} JoinLineFeeds(lines: seq<string>)
    requires lines != []
    requires forall i :: 0 <= i < |lines| ==> LineFeeds(lines[i]) == 0
    ensures LineFeeds(Join(lines, "\n")) == |lines| - 1
  {
    if |lines| > 1 {
      JoinLineFeeds(lines[1..]);
      LineFeedsConcat(lines[0] + "\n", Join(lines[1..], "\n"));
      LineFeedsConcat(lines[0], "\n");
      assert "\n"[1..] == [];
    }
  }
}

=== FILE: engine.dfy ===
/**
 * The shared registration engine (`initRegPage`): a scheme page hands it a
 * configuration and the engine runs the form's lifecycle — validation, the
 * progress bar, submission with ID numbering, draft handling, admin deletion
 * and the CSV export.
 */
module Engine {
  import opened Wrappers
  import opened Text
  import opened Age
  import opened Validators
  import opened Csv
  import opened Store
  import opened Forms

  /** The photo preview image: its resolved `src` and whether it is hidden.
      An image whose `src` was set to "" resolves to the page's own address. */
  datatype Photo = Photo(src: string, hidden: bool)

  /** What the engine reads from outside the form: today's date, the browser's
      date parser, the submission timestamp, the photo preview and the page
      address. */
  datatype Env = Env(today: Date, parse: string -> Option<Date>, now: string, photo: Photo, pageHref: string)

  /** One admin-table column: its header label and the CSV cell of a record
      (`csvVal(r)` when the column has one, otherwise `r[key] || ""`). */
  datatype Column<!E> = Column(header: string, cell: Record<E> -> string)

  /** A scheme's configuration, with its hooks as functions of the scheme's
      own collected values `X`; `E` is the record's scheme part. */
  datatype Config<!X, !E> = Config(
    idPrefix: string,
    minAge: int,
    maxAge: int,
    extraProgress: X -> nat,
    extraProgressMax: nat,
    validateExtra: X -> seq<FieldError>,
    buildExtra: X -> E,
    adminColumns: seq<Column<E>>)

  /** The photo validator's test: a source other than the page itself. */
  predicate PhotoPresent(env: Env) {
    env.photo.src != "" && env.photo.src != env.pageHref
  }

  /* ----------------------------------------------------------- validation */

  const BaseKeys: seq<string> := [
    "fullName", "dob", "gender", "mobile", "email", "district", "photo",
    "emergencyName", "emergencyPhone", "emergencyRelation",
    "consentAccuracy", "consentMedical", "consentRules", "consentData"]

  function AgeOf<X, E>(cfg: Config<X, E>, dob: string, env: Env): Option<int> {
    ComputeAge(dob, env.parse, env.today, cfg.minAge, cfg.maxAge).age
  }

  /** The date-of-birth validator with the engine's wording. */
  function DobMessage(v: DobVerdict, minAge: int, maxAge: int): (r: Option<string>)
    ensures r.None? <==> v == DobOk
  {
    match v
    case DobMissing => Some("Date of birth is required.")
    case DobInvalid => Some("Invalid date.")
    case DobTooYoung => Some("Minimum age is " + IntToString(minAge) + " years.")
    case DobTooOld => Some("Maximum age is " + IntToString(maxAge) + " years.")
    case DobOk => None
  }

  const NameRequired := "Full name is required."
  const GenderRequired := "Please select a gender option."
  const MobileRequired := "Mobile number is required."
  const MobileInvalid := "Enter a valid 10-digit mobile number."
  const DistrictRequired := "Please select your district."
  const PhotoRequired := "Please upload a photo."

  /** The date-of-birth validator's verdict: present, parsable and within
      the scheme's age bounds. */
  function DobVerdict<X, E>(cfg: Config<X, E>, d: BaseData, env: Env): (r: Option<string>)
    ensures r.None? <==> DobValid(cfg, d, env)
  {
    DobMessage(CheckDob(d.dob, AgeOf(cfg, d.dob, env), cfg.minAge, cfg.maxAge), cfg.minAge, cfg.maxAge)
  }

  /** The verdicts on who the applicant is: name, date of birth, gender. */
  function IdentityVerdicts<X, E>(cfg: Config<X, E>, d: BaseData, env: Env): (v: seq<Option<string>>)
    ensures |v| == 3
    ensures AllPass(v) <==> IdentityValid(cfg, d, env)
  {
    var v := [ValidateName(d.fullName, NameRequired), DobVerdict(cfg, d, env), Require(d.gender != "", GenderRequired)];
    AllPassThree(v);
    v
  }

  /** The mobile number and email verdicts; both pages share them, each with
      its own wording for an invalid mobile number. */
  function ReachVerdicts(d: BaseData, mobileInvalid: string): (v: seq<Option<string>>)
    ensures |v| == 2
    ensures AllPass(v) <==> ReachValid(d)
  {
    var v := [ValidatePhone(d.mobile, MobileRequired, mobileInvalid), ValidateEmail(d.email)];
    AllPassTwo(v);
    v
  }

  /** The district and photo verdicts. */
  function PlaceVerdicts(d: BaseData, env: Env): (v: seq<Option<string>>)
    ensures |v| == 2
    ensures AllPass(v) <==> d.district != "" && PhotoPresent(env)
  {
    var v := [Require(d.district != "", DistrictRequired), Require(PhotoPresent(env), PhotoRequired)];
    AllPassTwo(v);
    v
  }

  /** The verdicts of the personal-details validators. */
  function PersonalVerdicts<X, E>(cfg: Config<X, E>, d: BaseData, env: Env): (v: seq<Option<string>>)
    ensures |v| == 7
  {
    IdentityVerdicts(cfg, d, env) + ReachVerdicts(d, MobileInvalid) + PlaceVerdicts(d, env)
  }

  /** A page's wording for the messages in which the two scripts differ: a
      missing emergency phone and the four consents. */
  datatype Wording = Wording(phoneRequired: string, accuracy: string, medical: string, rules: string, data: string)

  const EngineWording := Wording(
    "Emergency contact phone is required.",
    "Please confirm accuracy of information.",
    "Please confirm medical fitness.",
    "Please agree to program rules.",
    "Please consent to data processing.")

  /** The verdicts of the emergency-contact validators. */
  function EmergencyVerdicts(d: BaseData, w: Wording): (v: seq<Option<string>>)
    ensures |v| == 3
  {
    [ ValidateName(d.emergencyName, "Emergency contact name is required."),
      ValidatePhone(d.emergencyPhone, w.phoneRequired, "Enter a valid 10-digit phone number."),
      Require(d.emergencyRelation != "", "Please select the relation.") ]
  }

  /** The verdicts of the four consent boxes. */
  function ConsentVerdicts(d: BaseData, w: Wording): (v: seq<Option<string>>)
    ensures |v| == 4
  {
    [ Require(d.consentAccuracy, w.accuracy),
      Require(d.consentMedical, w.medical),
      Require(d.consentRules, w.rules),
      Require(d.consentData, w.data) ]
  }

  /** The verdicts of the fourteen base validators, in `runValidation`'s order. */
  function BaseVerdicts<X, E>(cfg: Config<X, E>, d: BaseData, env: Env): (v: seq<Option<string>>)
    ensures |v| == |BaseKeys|
  {
    PersonalVerdicts(cfg, d, env) + EmergencyVerdicts(d, EngineWording) + ConsentVerdicts(d, EngineWording)
  }

  /** Pairs each verdict with its field key. */
  function ChecksOf(vs: seq<Option<string>>): (r: seq<Check>)
    requires |vs| == |BaseKeys|
    ensures |r| == |BaseKeys|
    ensures forall i :: 0 <= i < |r| ==> r[i] == Check(BaseKeys[i], vs[i])
  {
    seq(|BaseKeys|, i requires 0 <= i < |BaseKeys| => Check(BaseKeys[i], vs[i]))
  }

  /** The fourteen base checks of `runValidation`. */
  function BaseChecks<X, E>(cfg: Config<X, E>, d: BaseData, env: Env): seq<Check> {
    ChecksOf(BaseVerdicts(cfg, d, env))
  }

  /** The date of birth is present, parsable and within the age bounds. */
  ghost predicate DobValid<X, E>(cfg: Config<X, E>, d: BaseData, env: Env) {
    && d.dob != ""
    && AgeOf(cfg, d.dob, env).Some?
    && cfg.minAge <= AgeOf(cfg, d.dob, env).value <= cfg.maxAge
  }

  ghost predicate IdentityValid<X, E>(cfg: Config<X, E>, d: BaseData, env: Env) {
    |Trim(d.fullName)| >= 3 && DobValid(cfg, d, env) && d.gender != ""
  }

  /** A ten-digit mobile number starting 6 to 9, and an email that is blank
      or matches the pattern. */
  ghost predicate ReachValid(d: BaseData) {
    IsMobileNumber(Trim(d.mobile)) && (AllSpace(d.email) || EmailPattern(Trim(d.email)))
  }

  /** The personal details are acceptable, stated directly. */
  ghost predicate PersonalValid<X, E>(cfg: Config<X, E>, d: BaseData, env: Env) {
    IdentityValid(cfg, d, env) && ReachValid(d) && d.district != "" && PhotoPresent(env)
  }

  /** The emergency contact is acceptable, stated directly. */
  predicate EmergencyValid(d: BaseData) {
    && |Trim(d.emergencyName)| >= 3
    && IsMobileNumber(Trim(d.emergencyPhone))
    && d.emergencyRelation != ""
  }

  predicate ConsentsGiven(d: BaseData) {
    d.consentAccuracy && d.consentMedical && d.consentRules && d.consentData
  }

  /** The base form is acceptable: the conditions the fourteen validators
      test, stated directly. */
  ghost predicate BaseValid<X, E>(cfg: Config<X, E>, d: BaseData, env: Env) {
    PersonalValid(cfg, d, env) && EmergencyValid(d) && ConsentsGiven(d)
  }

  predicate AllPass(vs: seq<Option<string>>) {
    forall i :: 0 <= i < |vs| ==> vs[i].None?
  }

  lemma AllPassConcat(a: seq<Option<string>>, b: seq<Option<string>>)
    ensures AllPass(a + b) <==> AllPass(a) && AllPass(b)
  {
    forall i | 0 <= i < |a| ensures (a + b)[i] == a[i] {}
    forall i | 0 <= i < |b| ensures (a + b)[|a| + i] == b[i] {}
  }

  lemma AllPassTwo(v: seq<Option<string>>)
    requires |v| == 2
    ensures AllPass(v) <==> v[0].None? && v[1].None?
  {
  }

  lemma AllPassThree(v: seq<Option<string>>)
    requires |v| == 3
    ensures AllPass(v) <==> v[0].None? && v[1].None? && v[2].None?
  {
  }

  lemma PersonalPassIffValid<X, E>(cfg: Config<X, E>, d: BaseData, env: Env)
    ensures AllPass(PersonalVerdicts(cfg, d, env)) <==> PersonalValid(cfg, d, env)
  {
    var a, b, c := IdentityVerdicts(cfg, d, env), ReachVerdicts(d, MobileInvalid), PlaceVerdicts(d, env);
    AllPassConcat(a, b);
    AllPassConcat(a + b, c);
  }

  lemma EmergencyPassIffValid(d: BaseData, w: Wording)
    ensures AllPass(EmergencyVerdicts(d, w)) <==> EmergencyValid(d)
  {
    AllPassThree(EmergencyVerdicts(d, w));
  }

  lemma ConsentPassIffGiven(d: BaseData, w: Wording)
    ensures AllPass(ConsentVerdicts(d, w)) <==> ConsentsGiven(d)
  {
    var v := ConsentVerdicts(d, w);
    if AllPass(v) {
      assert v[0].None? && v[1].None? && v[2].None? && v[3].None?;
    }
  }

  lemma ChecksPassIffAllPass(vs: seq<Option<string>>)
    requires |vs| == |BaseKeys|
    ensures (forall i :: 0 <= i < |BaseKeys| ==> ChecksOf(vs)[i].verdict.None?) <==> AllPass(vs)
  {
    var cs := ChecksOf(vs);
    assert forall i :: 0 <= i < |BaseKeys| ==> cs[i].verdict == vs[i];
  }

  /** All fourteen base checks pass exactly when the base form is acceptable. */
  lemma BaseChecksPassIffValid<X, E>(cfg: Config<X, E>, d: BaseData, env: Env)
    ensures (forall i :: 0 <= i < |BaseKeys| ==> BaseChecks(cfg, d, env)[i].verdict.None?)
        <==> BaseValid(cfg, d, env)
  {
    var p, e, c := PersonalVerdicts(cfg, d, env), EmergencyVerdicts(d, EngineWording), ConsentVerdicts(d, EngineWording);
    var v := BaseVerdicts(cfg, d, env);
    var cs := BaseChecks(cfg, d, env);
    ChecksPassIffAllPass(v);
    assert AllPass(v) <==> AllPass(p) && AllPass(e) && AllPass(c) by {
      AllPassConcat(p, e);
      AllPassConcat(p + e, c);
    }
    PersonalPassIffValid(cfg, d, env);
    EmergencyPassIffValid(d, EngineWording);
    ConsentPassIffGiven(d, EngineWording);
  }

  /** The key of every error a checklist reports is one of the checklist's keys. */
  lemma FailureKeys(checks: seq<Check>)
    requires |checks| == |BaseKeys| && forall i :: 0 <= i < |checks| ==> checks[i].key == BaseKeys[i]
    ensures forall e :: e in Failures(checks) ==> e.key in BaseKeys
  {
    forall e | e in Failures(checks) ensures e.key in BaseKeys {
      FailuresMembership(checks, e);
      var i :| 0 <= i < |checks| && checks[i] == Check(e.key, Some(e.message));
      assert e.key == BaseKeys[i];
    }
  }

  /** `runValidation` fed with the scheme's extra errors: the failing base
      checks, each under one of the fourteen base keys, then the extra errors
      in their own order. */
  function RunValidation<X, E>(cfg: Config<X, E>, data: FormData<X>, env: Env): (errors: seq<FieldError>)
    ensures |cfg.validateExtra(data.extra)| <= |errors| <= |BaseKeys| + |cfg.validateExtra(data.extra)|
    ensures errors[|errors| - |cfg.validateExtra(data.extra)|..] == cfg.validateExtra(data.extra)
    ensures forall e :: e in errors[..|errors| - |cfg.validateExtra(data.extra)|] ==> e.key in BaseKeys
  {
    Report(BaseChecks(cfg, data.base, env), cfg.validateExtra(data.extra))
  }

  /** The errors of the failing base checks, then the extra errors. */
  function Report(checks: seq<Check>, extra: seq<FieldError>): (errors: seq<FieldError>)
    requires |checks| == |BaseKeys| && forall i :: 0 <= i < |checks| ==> checks[i].key == BaseKeys[i]
    ensures |extra| <= |errors| <= |BaseKeys| + |extra|
    ensures errors[|errors| - |extra|..] == extra
    ensures forall e :: e in errors[..|errors| - |extra|] ==> e.key in BaseKeys
    ensures errors[..|errors| - |extra|] == Failures(checks)
  {
    var base := Failures(checks);
    FailureKeys(checks);
    AppendedErrors(base, extra);
    base + extra
  }

  /** Base errors followed by extra ones: the extra errors form the tail and
      every error before them carries a base key. */
  lemma AppendedErrors(base: seq<FieldError>, extra: seq<FieldError>)
    requires |base| <= |BaseKeys| && forall e :: e in base ==> e.key in BaseKeys
    ensures |extra| <= |base + extra| <= |BaseKeys| + |extra|
    ensures (base + extra)[|base + extra| - |extra|..] == extra
    ensures forall e :: e in (base + extra)[..|base + extra| - |extra|] ==> e.key in BaseKeys
    ensures (base + extra)[..|base + extra| - |extra|] == base
  {
    assert (base + extra)[..|base|] == base;
  }

  /** The errors `runValidation` reports for the base form, before the
      scheme's own. */
  function BaseErrors<X, E>(cfg: Config<X, E>, data: FormData<X>, env: Env): (base: seq<FieldError>)
    ensures base == Failures(BaseChecks(cfg, data.base, env))
  {
    var errors := RunValidation(cfg, data, env);
    errors[..|errors| - |cfg.validateExtra(data.extra)|]
  }

  lemma BaseKeysDistinct()
    ensures forall i, j :: 0 <= i < j < |BaseKeys| ==> BaseKeys[i] != BaseKeys[j]
  {
  }

  /** The base checklist has the fourteen base keys, each once. */
  lemma ChecksKeyed(vs: seq<Option<string>>)
    requires |vs| == |BaseKeys|
    ensures DistinctKeys(ChecksOf(vs)) && KeysOf(ChecksOf(vs)) == BaseKeys
  {
    BaseKeysDistinct();
    var cs := ChecksOf(vs);
    assert KeysOf(cs) == BaseKeys;
  }

  /** Line `k` of a base checklist is reported, with its own message, exactly
      when its verdict is that message. */
  lemma ChecksReported(vs: seq<Option<string>>, k: nat, m: string)
    requires |vs| == |BaseKeys| && k < |BaseKeys|
    ensures FieldError(BaseKeys[k], m) in Failures(ChecksOf(vs)) <==> vs[k] == Some(m)
  {
    var checks := ChecksOf(vs);
    FailuresMembership(checks, FieldError(BaseKeys[k], m));
    if FieldError(BaseKeys[k], m) in Failures(checks) {
      var i :| 0 <= i < |checks| && checks[i] == Check(BaseKeys[k], Some(m));
      BaseKeysDistinct();
      assert i == k;
    }
  }

  /** Base validator `k` is reported, under its own key and with its own
      message, exactly when it fails with that message. */
  lemma BaseReported<X, E>(cfg: Config<X, E>, data: FormData<X>, env: Env, k: nat, m: string)
    requires k < |BaseKeys|
    ensures FieldError(BaseKeys[k], m) in BaseErrors(cfg, data, env)
        <==> BaseVerdicts(cfg, data.base, env)[k] == Some(m)
  {
    ChecksReported(BaseVerdicts(cfg, data.base, env), k, m);
  }

  /** No base key is reported twice. */
  lemma BaseKeyOnce<X, E>(cfg: Config<X, E>, data: FormData<X>, env: Env, i: nat, j: nat)
    requires i < j < |BaseErrors(cfg, data, env)|
    ensures BaseErrors(cfg, data, env)[i].key != BaseErrors(cfg, data, env)[j].key
  {
    var checks := BaseChecks(cfg, data.base, env);
    ChecksKeyed(BaseVerdicts(cfg, data.base, env));
    FailuresDistinctKeys(checks);
  }

  /** The base errors come in `runValidation`'s key order: cutting the key
      list anywhere, the errors for keys before the cut all precede those for
      keys after it. */
  lemma BaseErrorsInKeyOrder<X, E>(cfg: Config<X, E>, data: FormData<X>, env: Env, m: nat)
    requires m <= |BaseKeys|
    ensures var errors, p := BaseErrors(cfg, data, env), |Failures(BaseChecks(cfg, data.base, env)[..m])|;
            && p <= |errors|
            && (forall t :: 0 <= t < p ==> errors[t].key in BaseKeys[..m])
            && (forall t :: p <= t < |errors| ==> errors[t].key in BaseKeys[m..])
  {
    var checks := BaseChecks(cfg, data.base, env);
    ChecksKeyed(BaseVerdicts(cfg, data.base, env));
    FailuresCut(checks, m);
  }

  /** The form is accepted exactly when the base form is acceptable and the
      scheme reports no error of its own. */
  lemma RunValidationPassesIffValid<X, E>(cfg: Config<X, E>, data: FormData<X>, env: Env)
    ensures RunValidation(cfg, data, env) == []
        <==> BaseValid(cfg, data.base, env) && cfg.validateExtra(data.extra) == []
  {
    var checks := BaseChecks(cfg, data.base, env);
    BaseChecksPassIffValid(cfg, data.base, env);
    NoFailuresIffAllPass(checks);
    assert RunValidation(cfg, data, env) == Failures(checks) + cfg.validateExtra(data.extra);
  }

  /* ------------------------------------------------------------- progress */

  /** `Math.round(n / t * 100)` for whole `n` and positive `t`: the nearest
      whole percentage, halves rounded up. */
  function RoundPercent(n: nat, t: nat): (p: nat)
    requires t > 0
    ensures 2 * t * p <= 200 * n + t < 2 * t * (p + 1)
  {
    (200 * n + t) / (2 * t)
  }

  lemma MulLe(k: nat, x: nat, y: nat)
    requires x <= y
    ensures k * x <= k * y
  {
    assert k * y == k * x + k * (y - x);
  }

  /** A larger count never shows a smaller percentage. */
  lemma RoundPercentMonotone(a: nat, b: nat, t: nat)
    requires t > 0 && a <= b
    ensures RoundPercent(a, t) <= RoundPercent(b, t)
  {
    var pa, pb := RoundPercent(a, t), RoundPercent(b, t);
    if pa > pb {
      MulLe(2 * t, pb + 1, pa);
    }
  }

  /** A whole count reaches 100% exactly when it reaches the total, for the
      totals the pages use (below 200). */
  lemma RoundPercentFull(n: nat, t: nat)
    requires 0 < t < 200 && n <= t
    ensures RoundPercent(n, t) == 100 <==> n == t
    ensures RoundPercent(n, t) <= 100
  {
    var p := RoundPercent(n, t);
    var k := 2 * t;
    assert k * 100 == 200 * t;
    if p > 100 {
      MulLe(k, 101, p);
    }
    if n == t && p < 100 {
      MulLe(k, p + 1, 100);
    }
  }

  /** `Math.min(100, Math.round(n / t * 100))`. */
  function CappedPercent(n: nat, t: nat): (p: nat)
    requires t > 0
    ensures p <= 100
    ensures n <= t < 200 ==> (p == 100 <==> n == t)
  {
    var r := RoundPercent(n, t);
    assert n <= t < 200 ==> (r == 100 <==> n == t) && r <= 100 by {
      if n <= t < 200 {
        RoundPercentFull(n, t);
      }
    }
    if r < 100 then r else 100
  }

  function Count(b: bool): nat {
    if b then 1 else 0
  }

  /** The ten base items the engine's progress bar counts. Unlike the
      validators, the phone lengths are taken before trimming, the photo must
      also be visible, and the four consents make a single item. */
  function BaseProgress<X, E>(cfg: Config<X, E>, d: BaseData, env: Env): (n: nat)
    ensures n <= 10
    ensures n == 10 <==> BaseBarFull(cfg, d, env)
  {
    Count(|Trim(d.fullName)| >= 3)
    + Count(d.dob != "" && AgeOf(cfg, d.dob, env).Some?)
    + Count(d.gender != "")
    + Count(|d.mobile| == 10)
    + Count(d.district != "")
    + Count(PhotoPresent(env) && !env.photo.hidden)
    + Count(|Trim(d.emergencyName)| >= 3)
    + Count(|d.emergencyPhone| == 10)
    + Count(d.emergencyRelation != "")
    + Count(d.consentAccuracy && d.consentMedical && d.consentRules && d.consentData)
  }

  /** Every one of the ten base items counts. */
  predicate BaseBarFull<X, E>(cfg: Config<X, E>, d: BaseData, env: Env) {
    && |Trim(d.fullName)| >= 3 && d.dob != "" && AgeOf(cfg, d.dob, env).Some?
    && d.gender != "" && |d.mobile| == 10 && d.district != ""
    && PhotoPresent(env) && !env.photo.hidden
    && |Trim(d.emergencyName)| >= 3 && |d.emergencyPhone| == 10 && d.emergencyRelation != ""
    && d.consentAccuracy && d.consentMedical && d.consentRules && d.consentData
  }

  /** `updateProgress`: the counted items over ten plus the scheme's extra
      maximum, as a rounded percentage capped at 100. */
  function Progress<X, E>(cfg: Config<X, E>, data: FormData<X>, env: Env): (pct: nat)
    ensures pct <= 100
    ensures cfg.extraProgress(data.extra) <= cfg.extraProgressMax < 190 ==>
              (pct == 100 <==> BaseProgress(cfg, data.base, env) == 10
                               && cfg.extraProgress(data.extra) == cfg.extraProgressMax)
  {
    CappedPercent(BaseProgress(cfg, data.base, env) + cfg.extraProgress(data.extra), 10 + cfg.extraProgressMax)
  }

  /** A form that passes validation counts every base item once its phone
      fields carry no surrounding white space and the preview is visible. */
  lemma ValidFormCountsFully<X, E>(cfg: Config<X, E>, d: BaseData, env: Env)
    requires BaseValid(cfg, d, env)
    requires Trim(d.mobile) == d.mobile && Trim(d.emergencyPhone) == d.emergencyPhone
    requires !env.photo.hidden
    ensures BaseProgress(cfg, d, env) == 10
  {
  }

  /* ----------------------------------------------------------- submission */

  datatype Submission<E> = Rejected(errors: seq<FieldError>) | Accepted(record: Record<E>)

  /** The base record the submit handler builds around a registration ID. */
  function BuildBase<X, E>(cfg: Config<X, E>, d: BaseData, id: string, env: Env): (r: BaseRecord)
    ensures r.registrationId == id && r.status == "pending"
    ensures r.fullName == Trim(d.fullName) && r.mobile == Trim(d.mobile) && r.email == Trim(d.email)
    ensures r.emergencyName == Trim(d.emergencyName) && r.emergencyPhone == Trim(d.emergencyPhone)
    ensures r.medicalConditions == Trim(d.medicalConditions)
    ensures r.dob == d.dob && r.gender == d.gender && r.district == d.district
    ensures r.emergencyRelation == d.emergencyRelation
    ensures r.age == AgeOf(cfg, d.dob, env) && r.photoData == env.photo.src && r.registeredAt == env.now
  {
    BaseRecord(
      id, Trim(d.fullName), d.dob, AgeOf(cfg, d.dob, env), d.gender, Trim(d.mobile), Trim(d.email),
      d.district, Trim(d.emergencyName), Trim(d.emergencyPhone), d.emergencyRelation,
      Trim(d.medicalConditions), env.photo.src, env.now, "pending")
  }

  /** The submit handler: with errors nothing is stored; otherwise the
      counter moves on, the record gets the next ID and "pending" status, is
      appended after the stored records, and the draft is removed. */
  function Submit<X, E>(cfg: Config<X, E>, b: Bucket<FormData<X>, E>, data: FormData<X>, env: Env)
    : (r: (Submission<E>, Bucket<FormData<X>, E>))
    ensures RunValidation(cfg, data, env) != [] ==> r == (Rejected(RunValidation(cfg, data, env)), b)
    ensures RunValidation(cfg, data, env) == [] ==>
      && r.0.Accepted?
      && r.0.record.Id() == FormatId(cfg.idPrefix, NextNumber(b.counter))
      && r.0.record.base.status == "pending"
      && r.0.record.base.fullName == Trim(data.base.fullName)
      && r.0.record.extra == cfg.buildExtra(data.extra)
      && r.1.counter == Some(NumberText(NextNumber(b.counter)))
      && GetReg(r.1) == GetReg(b) + [r.0.record]
      && r.1.draft.Missing?
  {
    var errors := RunValidation(cfg, data, env);
    if errors != [] then (Rejected(errors), b) else Accept(cfg, b, data, env)
  }

  /** The accepting branch of the submit handler. */
  function Accept<X, E>(cfg: Config<X, E>, b: Bucket<FormData<X>, E>, data: FormData<X>, env: Env)
    : (r: (Submission<E>, Bucket<FormData<X>, E>))
    ensures r.0 == Accepted(NewRecord(cfg, b, data, env))
    ensures r.1.counter == Some(NumberText(NextNumber(b.counter)))
    ensures GetReg(r.1) == GetReg(b) + [r.0.record]
    ensures r.1.draft.Missing?
  {
    var record := NewRecord(cfg, b, data, env);
    var saved := SaveReg(BumpCounter(b), record);
    assert GetReg(saved.(draft := Missing)) == GetReg(saved);
    (Accepted(record), saved.(draft := Missing))
  }

  /** The record an accepted submission stores: the next ID, "pending". */
  function NewRecord<X, E>(cfg: Config<X, E>, b: Bucket<FormData<X>, E>, data: FormData<X>, env: Env): (r: Record<E>)
    ensures r.Id() == FormatId(cfg.idPrefix, NextNumber(b.counter))
    ensures r.base.status == "pending" && r.base.fullName == Trim(data.base.fullName)
    ensures r.extra == cfg.buildExtra(data.extra)
  {
    Record(BuildBase(cfg, data.base, FormatId(cfg.idPrefix, NextNumber(b.counter)), env), cfg.buildExtra(data.extra))
  }

  /** Every accepted record carries an age within the scheme's bounds and a
      well-formed mobile number. */
  lemma AcceptedRecordInBounds<X, E>(cfg: Config<X, E>, b: Bucket<FormData<X>, E>, data: FormData<X>, env: Env)
    requires RunValidation(cfg, data, env) == []
    ensures var r := Submit(cfg, b, data, env).0.record;
            && r.base.age.Some? && cfg.minAge <= r.base.age.value <= cfg.maxAge
            && IsMobileNumber(r.base.mobile) && IsMobileNumber(r.base.emergencyPhone)
            && |r.base.fullName| >= 3
  {
    RunValidationPassesIffValid(cfg, data, env);
  }

  /** Submission keeps the storage invariant: unique IDs, each for a number
      the counter has reached. */
  lemma SubmitKeepsConsistency<X, E>(cfg: Config<X, E>, b: Bucket<FormData<X>, E>, c: nat,
                                     data: FormData<X>, env: Env)
    requires Consistent(cfg.idPrefix, b, c)
    ensures RunValidation(cfg, data, env) != [] ==> Consistent(cfg.idPrefix, Submit(cfg, b, data, env).1, c)
    ensures RunValidation(cfg, data, env) == [] ==> Consistent(cfg.idPrefix, Submit(cfg, b, data, env).1, c + 1)
  {
    if RunValidation(cfg, data, env) == [] {
      var r := Submit(cfg, b, data, env).0.record;
      SavePreservesConsistency(cfg.idPrefix, b, c, r);
    }
  }

  /** A one-digit number written as the six-character ID suffix. */
  lemma OneDigitId(prefix: string, d: nat)
    requires 1 <= d < 10
    ensures FormatId(prefix, Some(d)) == prefix + "-00000" + [DigitChar(d)]
  {
    assert NumberText(Some(d)) == [DigitChar(d)];
    assert Repeat('0', 5) == "00000";
    assert PadStart([DigitChar(d)], 6, '0') == "00000" + [DigitChar(d)];
    assert prefix + "-" + ("00000" + [DigitChar(d)]) == prefix + "-00000" + [DigitChar(d)];
  }

  /** The first accepted submission on a page with nothing stored gets the
      ID ending -000001 and leaves the counter at "1". */
  lemma FirstSubmission<X, E>(cfg: Config<X, E>, data: FormData<X>, env: Env)
    requires RunValidation(cfg, data, env) == []
    ensures Submit(cfg, Fresh(), data, env).0.record.Id() == cfg.idPrefix + "-00000" + "1"
    ensures CounterAt(Submit(cfg, Fresh(), data, env).1.counter, 1)
    ensures GetReg(Submit(cfg, Fresh(), data, env).1) == [Submit(cfg, Fresh(), data, env).0.record]
  {
    FirstAccept(cfg, data, env);
  }

  lemma FirstAccept<X, E>(cfg: Config<X, E>, data: FormData<X>, env: Env)
    ensures Accept(cfg, Fresh(), data, env).0.record.Id() == cfg.idPrefix + "-00000" + "1"
    ensures CounterAt(Accept(cfg, Fresh(), data, env).1.counter, 1)
    ensures GetReg(Accept(cfg, Fresh(), data, env).1) == [Accept(cfg, Fresh(), data, env).0.record]
  {
    var b: Bucket<FormData<X>, E> := Fresh();
    NextNumberAt(b.counter, 0);
    BumpCounterAt(b, 0);
    OneDigitId(cfg.idPrefix, 1);
  }

  /** The submission after that gets the ID ending -000002 and is stored
      after the first. */
  lemma SecondSubmission<X, E>(cfg: Config<X, E>, b: Bucket<FormData<X>, E>, data: FormData<X>, env: Env)
    requires RunValidation(cfg, data, env) == []
    requires CounterAt(b.counter, 1)
    ensures Submit(cfg, b, data, env).0.record.Id() == cfg.idPrefix + "-00000" + "2"
    ensures GetReg(Submit(cfg, b, data, env).1) == GetReg(b) + [Submit(cfg, b, data, env).0.record]
  {
    SecondAccept(cfg, b, data, env);
  }

  lemma SecondAccept<X, E>(cfg: Config<X, E>, b: Bucket<FormData<X>, E>, data: FormData<X>, env: Env)
    requires CounterAt(b.counter, 1)
    ensures Accept(cfg, b, data, env).0.record.Id() == cfg.idPrefix + "-00000" + "2"
  {
    NextNumberAt(b.counter, 1);
    OneDigitId(cfg.idPrefix, 2);
  }

  /* ------------------------------------------------------- drafts, admin */

  /** Save Draft (and the input autosave): the collected data is written. */
  function SaveDraft<X, E>(b: Bucket<FormData<X>, E>, data: FormData<X>): (b': Bucket<FormData<X>, E>)
    ensures LoadDraft(b') == Some(data)
    ensures GetReg(b') == GetReg(b) && b'.counter == b.counter
  {
    b.(draft := Saved(data))
  }

  /** The draft read at page load; an unreadable draft is no draft. */
  function LoadDraft<X, E>(b: Bucket<FormData<X>, E>): (d: Option<FormData<X>>)
    ensures d.Some? <==> b.draft.Saved?
    ensures b.draft.Saved? ==> d == Some(b.draft.value)
  {
    match b.draft
    case Saved(d) => Some(d)
    case _ => None
  }

  /** A restore is offered exactly when a readable draft with a full name is
      stored. */
  lemma RestoreOfferedIff<X, E>(b: Bucket<FormData<X>, E>)
    ensures OffersRestore(LoadDraft(b)) <==> b.draft.Saved? && b.draft.value.base.fullName != ""
  {
  }

  /** Discard on the draft banner removes the draft key. */
  function DiscardDraft<X, E>(b: Bucket<FormData<X>, E>): (b': Bucket<FormData<X>, E>)
    ensures LoadDraft(b').None? && !OffersRestore(LoadDraft(b'))
    ensures GetReg(b') == GetReg(b) && b'.counter == b.counter
  {
    b.(draft := Missing)
  }

  /** `regDeleteRecord`: once confirmed, the record is filtered out. */
  function DeleteRecord<X, E>(b: Bucket<FormData<X>, E>, id: string, confirmed: bool): (b': Bucket<FormData<X>, E>)
    ensures confirmed ==> GetReg(b') == RemoveId(GetReg(b), id)
    ensures !confirmed ==> b' == b
    ensures b'.counter == b.counter && b'.draft == b.draft
  {
    if confirmed then DeleteReg(b, id) else b
  }

  /* ------------------------------------------------------------ CSV export */

  function Labels<E>(cols: seq<Column<E>>): (r: seq<string>)
    ensures |r| == |cols| && forall i :: 0 <= i < |cols| ==> r[i] == cols[i].header
  {
    if cols == [] then [] else [cols[0].header] + Labels(cols[1..])
  }

  function BareCells(vs: seq<string>): (r: seq<Cell>)
    ensures |r| == |vs| && forall i :: 0 <= i < |vs| ==> r[i] == Bare(vs[i])
  {
    if vs == [] then [] else [Bare(vs[0])] + BareCells(vs[1..])
  }

  function ColumnCells<E>(cols: seq<Column<E>>, r: Record<E>): (cells: seq<Cell>)
    ensures |cells| == |cols| && forall i :: 0 <= i < |cols| ==> cells[i] == Quoted(cols[i].cell(r))
  {
    if cols == [] then [] else [Quoted(cols[0].cell(r))] + ColumnCells(cols[1..], r)
  }

  /** The age column's cell: `r.age || ""`, so a missing age and an age of
      zero both give the empty cell. */
  function AgeCell<E>(r: Record<E>): (v: string)
    ensures v == "" <==> r.base.age.None? || r.base.age == Some(0)
    ensures r.base.age.Some? && r.base.age.value != 0 ==> ParseInt10(v) == r.base.age
  {
    match r.base.age
    case None => ""
    case Some(a) =>
      ParseIntOfIntToString(a);
      if a == 0 then "" else IntToString(a)
  }

  /** The header row: written without quotes. */
  function HeaderCells<X, E>(cfg: Config<X, E>): (cells: seq<Cell>)
    ensures |cells| == |cfg.adminColumns| + 2
    ensures forall i :: 0 <= i < |cells| ==> cells[i].Bare?
  {
    BareCells(["Registration ID"] + Labels(cfg.adminColumns) + ["Registered At"])
  }

  /** A record's row: every cell quoted. */
  function RecordCells<X, E>(cfg: Config<X, E>, r: Record<E>): (cells: seq<Cell>)
    ensures |cells| == |cfg.adminColumns| + 2
    ensures forall i :: 0 <= i < |cells| ==> cells[i].Quoted?
  {
    [Quoted(r.Id())] + ColumnCells(cfg.adminColumns, r) + [Quoted(r.base.registeredAt)]
  }

  function RecordRows<X, E>(cfg: Config<X, E>, recs: seq<Record<E>>): (rows: seq<seq<Cell>>)
    ensures |rows| == |recs| && forall i :: 0 <= i < |recs| ==> rows[i] == RecordCells(cfg, recs[i])
  {
    if recs == [] then [] else [RecordCells(cfg, recs[0])] + RecordRows(cfg, recs[1..])
  }

  /** `exportCSV`: nothing when there are no records; otherwise the header
      and one row per stored record, joined with line feeds. */
  function ExportCsv<X, E>(cfg: Config<X, E>, b: Bucket<FormData<X>, E>): (r: Option<string>)
    ensures r.None? <==> GetReg(b) == []
  {
    var recs := GetReg(b);
    if recs == [] then None
    else Some(EncodeDocument([HeaderCells(cfg)] + RecordRows(cfg, recs)))
  }

  /** The header row is plain when the column labels are. */
  lemma HeaderReadable<X, E>(cfg: Config<X, E>)
    requires forall i :: 0 <= i < |cfg.adminColumns| ==> SafeBare(cfg.adminColumns[i].header)
    ensures EncodableRow(HeaderCells(cfg))
    ensures Texts(HeaderCells(cfg)) == ["Registration ID"] + Labels(cfg.adminColumns) + ["Registered At"]
  {
    var labels := ["Registration ID"] + Labels(cfg.adminColumns) + ["Registered At"];
    assert SafeBare("Registration ID") && SafeBare("Registered At");
    forall i | 0 <= i < |labels| ensures SafeBare(labels[i]) {
      if 0 < i < |labels| - 1 {
        assert labels[i] == cfg.adminColumns[i - 1].header;
      }
    }
  }

  /** A record's row: its ID, each column's cell, then its timestamp. */
  lemma RecordRowReadable<X, E>(cfg: Config<X, E>, r: Record<E>)
    ensures EncodableRow(RecordCells(cfg, r))
    ensures |Texts(RecordCells(cfg, r))| == |cfg.adminColumns| + 2
    ensures Texts(RecordCells(cfg, r))[0] == r.Id()
    ensures forall j :: 0 <= j < |cfg.adminColumns| ==>
              Texts(RecordCells(cfg, r))[j + 1] == cfg.adminColumns[j].cell(r)
    ensures Texts(RecordCells(cfg, r))[|cfg.adminColumns| + 1] == r.base.registeredAt
  {
    var cells := RecordCells(cfg, r);
    forall j | 0 <= j < |cfg.adminColumns| ensures Texts(cells)[j + 1] == cfg.adminColumns[j].cell(r) {
      assert cells[j + 1] == ColumnCells(cfg.adminColumns, r)[j];
    }
  }

  /** Read back, the export holds the header and then exactly one row per
      stored record, in storage order, each starting with the record's ID and
      ending with its timestamp — whatever commas, quotes or line feeds the
      values contain. Header labels must be plain (they are written bare). */
  lemma ExportReadsBack<X, E>(cfg: Config<X, E>, b: Bucket<FormData<X>, E>)
    requires GetReg(b) != []
    requires forall i :: 0 <= i < |cfg.adminColumns| ==> SafeBare(cfg.adminColumns[i].header)
    ensures ReadDocument(ExportCsv(cfg, b).value).Some?
    ensures var rows := ReadDocument(ExportCsv(cfg, b).value).value;
            && |rows| == |GetReg(b)| + 1
            && rows[0] == ["Registration ID"] + Labels(cfg.adminColumns) + ["Registered At"]
            && forall i :: 0 <= i < |GetReg(b)| ==>
                 && |rows[i + 1]| == |cfg.adminColumns| + 2
                 && rows[i + 1][0] == GetReg(b)[i].Id()
                 && (forall j :: 0 <= j < |cfg.adminColumns| ==>
                       rows[i + 1][j + 1] == cfg.adminColumns[j].cell(GetReg(b)[i]))
                 && rows[i + 1][|cfg.adminColumns| + 1] == GetReg(b)[i].base.registeredAt
  {
    var recs := GetReg(b);
    var doc := [HeaderCells(cfg)] + RecordRows(cfg, recs);
    HeaderReadable(cfg);
    forall i | 0 <= i < |doc| ensures EncodableRow(doc[i]) {
      if i > 0 {
        RecordRowReadable(cfg, recs[i - 1]);
      }
    }
    ReadDocumentOf(doc);
    forall i | 0 <= i < |recs|
      ensures TextRows(doc)[i + 1] == Texts(RecordCells(cfg, recs[i]))
    {
      RecordRowReadable(cfg, recs[i]);
    }
    forall i | 0 <= i < |recs|
      ensures |TextRows(doc)[i + 1]| == |cfg.adminColumns| + 2
      ensures TextRows(doc)[i + 1][0] == recs[i].Id()
      ensures forall j :: 0 <= j < |cfg.adminColumns| ==>
                TextRows(doc)[i + 1][j + 1] == cfg.adminColumns[j].cell(recs[i])
      ensures TextRows(doc)[i + 1][|cfg.adminColumns| + 1] == recs[i].base.registeredAt
    {
      RecordRowReadable(cfg, recs[i]);
    }
  }

  /** One cell of the read-back export: row `i + 1`, column `j + 1` holds
      column `j`'s value for the `i`-th stored record. */
  lemma ExportCell<X, E>(cfg: Config<X, E>, b: Bucket<FormData<X>, E>, i: nat, j: nat)
    requires i < |GetReg(b)| && j < |cfg.adminColumns|
    requires forall k :: 0 <= k < |cfg.adminColumns| ==> SafeBare(cfg.adminColumns[k].header)
    ensures ReadDocument(ExportCsv(cfg, b).value).Some?
    ensures var rows := ReadDocument(ExportCsv(cfg, b).value).value;
            && i + 1 < |rows| && j + 1 < |rows[i + 1]|
            && rows[i + 1][j + 1] == cfg.adminColumns[j].cell(GetReg(b)[i])
  {
    ExportReadsBack(cfg, b);
    var rows := ReadDocument(ExportCsv(cfg, b).value).value;
    var r := GetReg(b)[i];
    assert rows[i + 1][0] == r.Id();
    assert |rows[i + 1]| == |cfg.adminColumns| + 2;
  }

  /** `ExportCell` for a column whose value for the record is known to be `v`. */
  lemma ExportColumn<X, E>(cfg: Config<X, E>, b: Bucket<FormData<X>, E>, i: nat, j: nat, v: string)
    requires i < |GetReg(b)| && j < |cfg.adminColumns|
    requires forall k :: 0 <= k < |cfg.adminColumns| ==> SafeBare(cfg.adminColumns[k].header)
    requires cfg.adminColumns[j].cell(GetReg(b)[i]) == v
    ensures ReadDocument(ExportCsv(cfg, b).value).Some?
    ensures var rows := ReadDocument(ExportCsv(cfg, b).value).value;
            && i + 1 < |rows| && j + 1 < |rows[i + 1]| && rows[i + 1][j + 1] == v
  {
    ExportCell(cfg, b, i, j);
  }
}

=== FILE: escape.dfy ===
/**
 * `esc`, the HTML escaping both scripts apply before inserting user text into
 * markup: five global replacements, ampersand first.
 */
module Escape {
  import opened Text

  /** The replacements `esc` performs, in the order it performs them. */
  const Steps: seq<(char, string)> :=
    [('&', "&amp;"), ('<', "&lt;"), ('>', "&gt;"), ('"', "&quot;"), ('\'', "&#039;")]

  /** The replacements from the `k`-th on, each over the whole string. */
  function EscFrom(s: string, k: nat): (r: string)
    requires k <= |Steps|
    ensures |r| >= |s|
    decreases |Steps| - k
  {
    if k == |Steps| then s
    else
      ReplaceAllLonger(s, Steps[k].0, Steps[k].1);
      EscFrom(ReplaceAll(s, Steps[k].0, Steps[k].1), k + 1)
  }

  /** `esc(s)`: empty input gives the empty string; otherwise the five global
      replacements, ampersand first. */
  function Esc(s: string): (r: string)
    ensures r == "" <==> s == ""
    ensures |r| >= |s|
  {
    if s == "" then "" else EscFrom(s, 0)
  }

  /** The entity a single character is written as. */
  function EscChar(c: char): (r: string)
    ensures r != []
    ensures c in "&<>\"'" <==> r[0] == '&'
    ensures c !in "&<>\"'" ==> r == [c]
  {
    match c
    case '&' => "&amp;"
    case '<' => "&lt;"
    case '>' => "&gt;"
    case '"' => "&quot;"
    case '\'' => "&#039;"
    case _ => [c]
  }

  /** The character-by-character reading of the escaping. */
  function EscMap(s: string): string {
    if s == [] then [] else EscChar(s[0]) + EscMap(s[1..])
  }

  /** One replacement step applied to a one-character string. */
  lemma ReplaceAllSingle(c: char, x: char, rep: string)
    ensures ReplaceAll([c], x, rep) == if c == x then rep else [c]
  {
    assert [c][1..] == [];
  }

  lemma {:induction false} EscFromConcat(x: string, y: string, k: nat)
    requires k <= |Steps|
    ensures EscFrom(x + y, k) == EscFrom(x, k) + EscFrom(y, k)
    decreases |Steps| - k
  {
    if k < |Steps| {
      ReplaceAllConcat(x, y, Steps[k].0, Steps[k].1);
      EscFromConcat(ReplaceAll(x, Steps[k].0, Steps[k].1), ReplaceAll(y, Steps[k].0, Steps[k].1), k + 1);
    }
  }

  lemma {:induction false} EscFromUntouched(s: string, k: nat)
    requires k <= |Steps|
    requires forall j :: k <= j < |Steps| ==> Steps[j].0 !in s
    ensures EscFrom(s, k) == s
    decreases |Steps| - k
  {
    if k < |Steps| {
      ReplaceAllAbsent(s, Steps[k].0, Steps[k].1);
      EscFromUntouched(s, k + 1);
    }
  }

  /** The position of `c` among the replaced characters, or 5 when it is not one. */
  function StepOf(c: char): (k: nat)
    ensures k <= |Steps|
    ensures k < |Steps| ==> Steps[k].0 == c && Steps[k].1 == EscChar(c)
    ensures forall j :: 0 <= j < k ==> Steps[j].0 != c
    ensures k == |Steps| <==> EscChar(c) == [c]
  {
    match c
    case '&' => 0
    case '<' => 1
    case '>' => 2
    case '"' => 3
    case '\'' => 4
    case _ => 5
  }

  /** A character not yet reached by the replacements ends up as its entity. */
  lemma {:induction false} EscFromChar(c: char, k: nat)
    requires k <= StepOf(c)
    ensures EscFrom([c], k) == EscChar(c)
    decreases |Steps| - k
  {
    if k < |Steps| {
      ReplaceAllSingle(c, Steps[k].0, Steps[k].1);
      if k == StepOf(c) {
        EscFromUntouched(EscChar(c), k + 1);
      } else {
        EscFromChar(c, k + 1);
      }
    }
  }

  /** The chained global replacements escape each character independently:
      because `&` goes first, no entity written by a later step is escaped
      again. */
  lemma {:induction false} EscIsPerCharacter(s: string)
    ensures Esc(s) == EscMap(s)
  {
    if s != [] {
      assert s == [s[0]] + s[1..];
      EscFromConcat([s[0]], s[1..], 0);
      EscFromChar(s[0], 0);
      EscIsPerCharacter(s[1..]);
      if s[1..] == [] {
        EscFromUntouched([], 0);
      }
    }
  }

  /** Escaped text never holds a markup-significant character other than the
      `&` that opens an entity. */
  lemma {:induction false} EscMapHasNoMarkup(s: string)
    ensures forall i :: 0 <= i < |EscMap(s)| ==> EscMap(s)[i] !in "<>\"'"
  {
    if s != [] {
      EscMapHasNoMarkup(s[1..]);
      var h, t := EscChar(s[0]), EscMap(s[1..]);
      assert EscMap(s) == h + t;
      forall i | 0 <= i < |h + t| ensures (h + t)[i] !in "<>\"'" {
        if i >= |h| {
          assert (h + t)[i] == t[i - |h|];
        }
      }
    }
  }

  /** The browser's reading of the five entities back into characters. */
  function Unescape(t: string): string
    decreases |t|
  {
    if t == [] then []
    else if |t| >= 5 && t[..5] == "&amp;" then "&" + Unescape(t[5..])
    else if |t| >= 4 && t[..4] == "&lt;" then "<" + Unescape(t[4..])
    else if |t| >= 4 && t[..4] == "&gt;" then ">" + Unescape(t[4..])
    else if |t| >= 6 && t[..6] == "&quot;" then "\"" + Unescape(t[6..])
    else if |t| >= 6 && t[..6] == "&#039;" then "'" + Unescape(t[6..])
    else [t[0]] + Unescape(t[1..])
  }

  /** Unescaping a text that opens with the entity `e` for `c`. */
  lemma UnescapeEntity(c: char, rest: string)
    requires c in "&<>\"'"
    ensures Unescape(EscChar(c) + rest) == [c] + Unescape(rest)
  {
    var e := EscChar(c);
    var t := e + rest;
    assert t[..|e|] == e && t[|e|..] == rest;
    assert t[1] == e[1];
    if c == '&' {
      assert t[..5] == "&amp;";
    } else if c == '<' || c == '>' {
      assert |t| >= 5 ==> t[..5][1] != 'a';
    } else {
      assert t[..5][1] != 'a' && t[..4][1] != 'l' && t[..4][1] != 'g';
      assert c == '\'' ==> t[..6][1] != 'q';
    }
  }

  lemma UnescapePlain(c: char, rest: string)
    requires c !in "&<>\"'"
    ensures Unescape(EscChar(c) + rest) == [c] + Unescape(rest)
  {
    var t := [c] + rest;
    assert t[0] == c && t[1..] == rest;
  }

  lemma UnescapeStep(c: char, rest: string)
    ensures Unescape(EscChar(c) + rest) == [c] + Unescape(rest)
  {
    if c in "&<>\"'" {
      UnescapeEntity(c, rest);
    } else {
      UnescapePlain(c, rest);
    }
  }

  /** Escaping loses nothing: the displayed text is the original. */
  lemma {:induction false} UnescapeEsc(s: string)
    ensures Unescape(Esc(s)) == s
  {
    EscIsPerCharacter(s);
    UnescapeEscMap(s);
  }

  lemma {:induction false} UnescapeEscMap(s: string)
    ensures Unescape(EscMap(s)) == s
  {
    if s != [] {
      UnescapeStep(s[0], EscMap(s[1..]));
      UnescapeEscMap(s[1..]);
    }
  }
}

=== FILE: forms.dfy ===
/**
 * The registration form as the scripts see it: the base values they collect,
 * checkbox and radio groups, and the rules by which a saved draft is put back
 * into the form.
 */
module Forms {
  import opened Wrappers
  import opened Text

  /** What `collectBaseData` / `collectData` read from the form. */
  datatype BaseData = BaseData(
    fullName: string,
    dob: string,
    gender: string,
    mobile: string,
    email: string,
    district: string,
    emergencyName: string,
    emergencyPhone: string,
    emergencyRelation: string,
    medicalConditions: string,
    consentAccuracy: bool,
    consentMedical: bool,
    consentRules: bool,
    consentData: bool)

  /** The collected data: base values and the scheme's own values. This is
      also what a draft holds. */
  datatype FormData<X> = FormData(base: BaseData, extra: X)

  /* --------------------------------------------------------------- groups */

  /** One checkbox or radio input of a group, in document order. */
  datatype Box = Box(value: string, checked: bool)

  function Values(g: seq<Box>): (r: seq<string>)
    ensures |r| == |g| && forall i :: 0 <= i < |g| ==> r[i] == g[i].value
  {
    if g == [] then [] else [g[0].value] + Values(g[1..])
  }

  predicate Distinct(vs: seq<string>) {
    forall i, j :: 0 <= i < j < |vs| ==> vs[i] != vs[j]
  }

  /** The values of the checked inputs, in document order
      (`querySelectorAll(':checked')` mapped to `value`). */
  function CheckedValues(g: seq<Box>): (r: seq<string>)
    ensures |r| <= |g|
  {
    if g == [] then []
    else (if g[0].checked then [g[0].value] else []) + CheckedValues(g[1..])
  }

  /** Collection keeps page order: the values checked in an earlier part of
      the page come before those checked in a later part. */
  lemma {:induction false} CheckedValuesConcat(g1: seq<Box>, g2: seq<Box>)
    ensures CheckedValues(g1 + g2) == CheckedValues(g1) + CheckedValues(g2)
  {
    if g1 == [] {
      assert g1 + g2 == g2;
    } else {
      assert (g1 + g2)[0] == g1[0] && (g1 + g2)[1..] == g1[1..] + g2;
      CheckedValuesConcat(g1[1..], g2);
    }
  }

  function CountChecked(g: seq<Box>): nat {
    |CheckedValues(g)|
  }

  /** A value is listed exactly when some checked input carries it. */
  lemma {:induction false} CheckedValuesMembership(g: seq<Box>, v: string)
    ensures v in CheckedValues(g) <==> exists i :: 0 <= i < |g| && g[i].checked && g[i].value == v
  {
    if g != [] {
      CheckedValuesMembership(g[1..], v);
      if v in CheckedValues(g[1..]) {
        var i :| 0 <= i < |g[1..]| && g[1..][i].checked && g[1..][i].value == v;
        assert g[i + 1] == g[1..][i];
      }
      if exists i :: 0 <= i < |g| && g[i].checked && g[i].value == v {
        var i :| 0 <= i < |g| && g[i].checked && g[i].value == v;
        if i > 0 {
          assert g[1..][i - 1] == g[i];
        }
      }
    }
  }

  /** The value of the first checked radio, or "" when none is checked
      (`querySelector(':checked')`). */
  function RadioValue(g: seq<Box>): (r: string)
    ensures r != "" ==> exists i :: 0 <= i < |g| && g[i].checked && g[i].value == r
  {
    if g == [] then ""
    else if g[0].checked then g[0].value
    else
      var r := RadioValue(g[1..]);
      assert r != "" ==> exists i :: 0 <= i < |g| && g[i].checked && g[i].value == r by {
        if r != "" {
          var i :| 0 <= i < |g[1..]| && g[1..][i].checked && g[1..][i].value == r;
          assert g[i + 1] == g[1..][i];
        }
      }
      r
  }

  /** `cb.checked = list.indexOf(cb.value) !== -1` over the group. */
  function CheckListed(g: seq<Box>, list: seq<string>): (r: seq<Box>)
    ensures |r| == |g|
    ensures forall i :: 0 <= i < |g| ==> r[i] == Box(g[i].value, g[i].value in list)
  {
    seq(|g|, i requires 0 <= i < |g| => Box(g[i].value, g[i].value in list))
  }

  /** `r.checked = r.value === value` over the group. */
  function CheckMatching(g: seq<Box>, value: string): (r: seq<Box>)
    ensures |r| == |g|
    ensures forall i :: 0 <= i < |g| ==> r[i] == Box(g[i].value, g[i].value == value)
  {
    seq(|g|, i requires 0 <= i < |g| => Box(g[i].value, g[i].value == value))
  }

  /** Restoring a checkbox list saved from the same group gives back exactly
      the saved ticks, when the group's values are distinct. */
  lemma CheckListedRestores(g: seq<Box>, saved: seq<Box>)
    requires Values(g) == Values(saved)
    requires Distinct(Values(g))
    ensures CheckListed(g, CheckedValues(saved)) == saved
  {
    var r := CheckListed(g, CheckedValues(saved));
    forall i | 0 <= i < |g| ensures r[i] == saved[i] {
      var v := saved[i].value;
      assert g[i].value == v by {
        assert Values(g)[i] == Values(saved)[i];
      }
      CheckedValuesMembership(saved, v);
      if v in CheckedValues(saved) {
        var j :| 0 <= j < |saved| && saved[j].checked && saved[j].value == v;
        assert j == i;
      }
    }
  }

  /** After restoring a radio value, the group reads back that value when one
      of its inputs carries it, and "" otherwise. */
  lemma {:induction false} RadioRestores(g: seq<Box>, value: string)
    ensures RadioValue(CheckMatching(g, value)) == (if value in Values(g) then value else "")
  {
    if g != [] {
      var r := CheckMatching(g, value);
      assert r[1..] == CheckMatching(g[1..], value);
      RadioRestores(g[1..], value);
      assert Values(g) == [g[0].value] + Values(g[1..]);
    }
  }

  /* ------------------------------------------------------------ max rule */

  lemma {:induction false} CountAfterUpdate(g: seq<Box>, i: nat, b: Box)
    requires i < |g|
    ensures CountChecked(g[i := b]) + (if g[i].checked then 1 else 0)
         == CountChecked(g) + (if b.checked then 1 else 0)
  {
    if i > 0 {
      assert g[i := b][1..] == g[1..][i - 1 := b];
      CountAfterUpdate(g[1..], i - 1, b);
    } else {
      assert g[i := b][1..] == g[1..];
    }
  }

  /** The change handler of a limited checkbox group: if the change at `i`
      leaves more than `max` inputs checked, input `i` is unchecked again. */
  function EnforceMax(g: seq<Box>, i: nat, max: nat): (r: seq<Box>)
    requires i < |g|
    ensures |r| == |g|
    ensures forall j :: 0 <= j < |g| ==> r[j].value == g[j].value && (r[j].checked ==> g[j].checked)
    ensures CountChecked(g) <= max ==> r == g
  {
    if CountChecked(g) > max then g[i := Box(g[i].value, false)] else g
  }

  /** Starting within the limit, one change followed by the handler stays
      within the limit; a box the user just unchecked stays unchecked. */
  lemma EnforceMaxKeepsLimit(before: seq<Box>, i: nat, checked: bool, max: nat)
    requires i < |before|
    requires CountChecked(before) <= max
    ensures CountChecked(EnforceMax(before[i := Box(before[i].value, checked)], i, max)) <= max
  {
    var g := before[i := Box(before[i].value, checked)];
    CountAfterUpdate(before, i, Box(before[i].value, checked));
    if CountChecked(g) > max {
      CountAfterUpdate(g, i, Box(g[i].value, false));
    }
  }

  /** A limited group's change handler: input `i` takes the user's new state,
      and is unchecked again when that leaves more than `max` inputs checked.
      A change that stays within the limit is kept as made. */
  function ToggleLimited(g: seq<Box>, i: nat, checked: bool, max: nat): (r: seq<Box>)
    requires i < |g|
    ensures Values(r) == Values(g)
    ensures CountChecked(g) <= max ==> CountChecked(r) <= max
    ensures CountChecked(g[i := Box(g[i].value, checked)]) <= max ==> r == g[i := Box(g[i].value, checked)]
    ensures r != g[i := Box(g[i].value, checked)] ==> !r[i].checked
    ensures forall j :: 0 <= j < |g| && j != i ==> r[j] == g[j]
  {
    var changed := g[i := Box(g[i].value, checked)];
    var r := EnforceMax(changed, i, max);
    assert CountChecked(g) <= max ==> CountChecked(r) <= max by {
      if CountChecked(g) <= max {
        EnforceMaxKeepsLimit(g, i, checked, max);
      }
    }
    assert Values(r) == Values(g);
    r
  }

  /* ------------------------------------------------------- base restore */

  /** A select or text field during restore: it takes the draft's value
      when that is non-empty and keeps its own otherwise. */
  function Prefer(draft: string, current: string): (v: string)
    ensures draft != "" ==> v == draft
    ensures draft == "" ==> v == current
  {
    if draft != "" then draft else current
  }

  /** A radio group during restore: when the draft has a value the input
      carrying it is checked and the others unchecked; otherwise the group is
      left as it is. */
  function RestoreRadio(g: seq<Box>, draft: string): (r: seq<Box>)
    ensures Values(r) == Values(g)
    ensures draft == "" ==> r == g
    ensures draft != "" ==> forall i :: 0 <= i < |r| ==> r[i].checked == (r[i].value == draft)
  {
    if draft != "" then
      var r := CheckMatching(g, draft);
      assert Values(r) == Values(g);
      r
    else g
  }

  /** A radio value collected from a group reads back after restoring it
      into the same options, none checked. */
  lemma RestoreRadioRoundTrip(saved: seq<Box>, g: seq<Box>)
    requires Values(g) == Values(saved)
    requires forall i :: 0 <= i < |g| ==> !g[i].checked
    ensures RadioValue(RestoreRadio(g, RadioValue(saved))) == RadioValue(saved)
  {
    var v := RadioValue(saved);
    if v == "" {
      NoneCheckedRadio(g);
    } else {
      var i :| 0 <= i < |saved| && saved[i].checked && saved[i].value == v;
      assert Values(g)[i] == v;
      RadioRestores(g, v);
    }
  }

  /** The base part of the form as the user sees it. */
  datatype BaseForm = BaseForm(
    fullName: string,
    dob: string,
    mobile: string,
    email: string,
    emergencyName: string,
    emergencyPhone: string,
    medicalConditions: string,
    district: string,
    emergencyRelation: string,
    gender: seq<Box>,
    consentAccuracy: bool,
    consentMedical: bool,
    consentRules: bool,
    consentData: bool)

  /** `collectBaseData`: the form's values, the gender from the checked radio. */
  function Collect(f: BaseForm): (d: BaseData)
    ensures d.gender == RadioValue(f.gender)
    ensures d.fullName == f.fullName && d.dob == f.dob && d.mobile == f.mobile && d.email == f.email
    ensures d.district == f.district && d.emergencyRelation == f.emergencyRelation
    ensures d.emergencyName == f.emergencyName && d.emergencyPhone == f.emergencyPhone
    ensures d.medicalConditions == f.medicalConditions
    ensures d.consentAccuracy == f.consentAccuracy && d.consentMedical == f.consentMedical
    ensures d.consentRules == f.consentRules && d.consentData == f.consentData
  {
    BaseData(f.fullName, f.dob, RadioValue(f.gender), f.mobile, f.email, f.district,
             f.emergencyName, f.emergencyPhone, f.emergencyRelation, f.medicalConditions,
             f.consentAccuracy, f.consentMedical, f.consentRules, f.consentData)
  }

  /** A form as the page first shows it: nothing selected or ticked. */
  predicate Blank(f: BaseForm) {
    && f.district == "" && f.emergencyRelation == ""
    && (forall i :: 0 <= i < |f.gender| ==> !f.gender[i].checked)
    && !f.consentAccuracy && !f.consentMedical && !f.consentRules && !f.consentData
  }

  /** `restoreDraft`, base part: the text fields take the draft's values;
      the two selects and the gender radio only when the draft has a value;
      a consent box is ticked when the draft's is, and never unticked. */
  function RestoreBase(f: BaseForm, d: BaseData): (r: BaseForm)
    ensures r.fullName == d.fullName && r.dob == d.dob && r.mobile == d.mobile && r.email == d.email
    ensures r.emergencyName == d.emergencyName && r.emergencyPhone == d.emergencyPhone
    ensures r.medicalConditions == d.medicalConditions
    ensures r.district == (if d.district != "" then d.district else f.district)
    ensures r.emergencyRelation == (if d.emergencyRelation != "" then d.emergencyRelation else f.emergencyRelation)
    ensures Values(r.gender) == Values(f.gender)
    ensures d.gender == "" ==> r.gender == f.gender
    ensures d.gender != "" ==> r.gender == RestoreRadio(f.gender, d.gender)
    ensures r.consentAccuracy == (f.consentAccuracy || d.consentAccuracy)
    ensures r.consentMedical == (f.consentMedical || d.consentMedical)
    ensures r.consentRules == (f.consentRules || d.consentRules)
    ensures r.consentData == (f.consentData || d.consentData)
  {
    BaseForm(
      d.fullName, d.dob, d.mobile, d.email, d.emergencyName, d.emergencyPhone, d.medicalConditions,
      Prefer(d.district, f.district),
      Prefer(d.emergencyRelation, f.emergencyRelation),
      RestoreRadio(f.gender, d.gender),
      f.consentAccuracy || d.consentAccuracy,
      f.consentMedical || d.consentMedical,
      f.consentRules || d.consentRules,
      f.consentData || d.consentData)
  }

  lemma {:induction false} NoneCheckedRadio(g: seq<Box>)
    requires forall i :: 0 <= i < |g| ==> !g[i].checked
    ensures RadioValue(g) == ""
  {
    if g != [] {
      NoneCheckedRadio(g[1..]);
    }
  }

  /** Restoring a draft into the blank form and collecting again gives the
      draft back, as long as its gender is one the form offers. */
  lemma RestoreThenCollect(f: BaseForm, d: BaseData)
    requires Blank(f)
    requires d.gender == "" || d.gender in Values(f.gender)
    ensures Collect(RestoreBase(f, d)) == d
  {
    if d.gender == "" {
      NoneCheckedRadio(f.gender);
    } else {
      RadioRestores(f.gender, d.gender);
    }
  }

  /** The draft banner appears only for a readable draft with a full name. */
  predicate OffersRestore<X>(draft: Option<FormData<X>>) {
    draft.Some? && draft.value.base.fullName != ""
  }
}

=== FILE: home.dfy ===
/**
 * The portal's home page: the hero carousel's slide index and the FAQ
 * accordion, in which at most one item is open.
 */
module Home {

  /* ------------------------------------------------------------- carousel */

  /** `changeSlide(direction)`: with no slides nothing changes; otherwise the
      index moves by `direction`, and an index past the end goes back to the
      first slide while one before the start goes to the last. */
  function ChangeSlide(current: int, total: nat, direction: int): (next: int)
    ensures total == 0 ==> next == current
    ensures total > 0 ==> 0 <= next < total
    ensures total > 0 && 0 <= current + direction < total ==> next == current + direction
    ensures total > 0 && current + direction >= total ==> next == 0
    ensures total > 0 && current + direction < 0 ==> next == total - 1
  {
    if total == 0 then current
    else
      var moved := current + direction;
      if moved >= total then 0
      else if moved < 0 then total - 1
      else moved
  }

  /** One step forward is addition modulo the number of slides. */
  lemma ForwardIsModular(current: int, total: nat)
    requires 0 <= current < total
    ensures ChangeSlide(current, total, 1) == (current + 1) % total
  {
    if current + 1 == total {
      assert (current + 1) % total == 0;
    } else {
      assert (current + 1) % total == current + 1;
    }
  }

  /** One step back is subtraction modulo the number of slides. */
  lemma BackwardIsModular(current: int, total: nat)
    requires 0 <= current < total
    ensures ChangeSlide(current, total, -1) == (current - 1) % total
  {
    if current == 0 {
      assert (current - 1) % total == total - 1;
    } else {
      assert (current - 1) % total == current - 1;
    }
  }

  /** The back button undoes the forward button, and the other way round. */
  lemma StepsUndo(current: int, total: nat)
    requires 0 <= current < total
    ensures ChangeSlide(ChangeSlide(current, total, 1), total, -1) == current
    ensures ChangeSlide(ChangeSlide(current, total, -1), total, 1) == current
  {
  }

  /** The slide shown after `k` automatic advances. */
  function Advance(current: int, total: nat, k: nat): (next: int)
    ensures total > 0 && 0 <= current < total ==> 0 <= next < total
  {
    if k == 0 then current else ChangeSlide(Advance(current, total, k - 1), total, 1)
  }

  /** After `k` advances the carousel shows slide `(current + k) mod total`;
      in particular, it is back where it started after one full round. */
  lemma {:induction false} AdvanceIsModular(current: int, total: nat, k: nat)
    requires 0 <= current < total
    ensures Advance(current, total, k) == (current + k) % total
  {
    if k > 0 {
      AdvanceIsModular(current, total, k - 1);
      var prev := Advance(current, total, k - 1);
      ForwardIsModular(prev, total);
      ModularStep(current + k - 1, total);
    }
  }

  lemma ModularStep(a: int, total: nat)
    requires total > 0
    ensures (a % total + 1) % total == (a + 1) % total
  {
    var q, r := a / total, a % total;
    assert a == q * total + r;
    if r + 1 < total {
      ModUnique(r + 1, 0, r + 1, total);
      ModUnique(a + 1, q, r + 1, total);
    } else {
      ModUnique(r + 1, 1, 0, total);
      assert a + 1 == (q + 1) * total;
      ModUnique(a + 1, q + 1, 0, total);
    }
  }

  /** The remainder is the only value in range that differs from `x` by a
      multiple of `total`. */
  lemma ModUnique(x: int, m: int, r: int, total: nat)
    requires total > 0 && 0 <= r < total && x == m * total + r
    ensures x % total == r
  {
    var q, s := x / total, x % total;
    assert x == q * total + s;
    var d := q - m;
    assert d * total == r - s;
    if d >= 1 {
      assert d * total == total + (d - 1) * total;
    }
  }

  lemma FullRound(current: int, total: nat)
    requires 0 <= current < total
    ensures Advance(current, total, total) == current
  {
    AdvanceIsModular(current, total, total);
    ModUnique(current + total, 1, current, total);
  }

  /* ------------------------------------------------------------ accordion */

  /** At most one header carries the `active` class. */
  predicate AtMostOneOpen(open: seq<bool>) {
    forall i, j :: 0 <= i < j < |open| ==> !(open[i] && open[j])
  }

  /** A header's click handler: every item is closed, then the clicked one is
      opened again unless it was the open one. */
  function Click(open: seq<bool>, k: nat): (after: seq<bool>)
    requires k < |open|
    ensures |after| == |open|
    ensures AtMostOneOpen(after)
    ensures after[k] == !open[k]
    ensures forall i :: 0 <= i < |open| && i != k ==> !after[i]
  {
    seq(|open|, i requires 0 <= i < |open| => i == k && !open[k])
  }

  /** Clicking the open item closes everything. */
  lemma ClickOpenClosesAll(open: seq<bool>, k: nat)
    requires k < |open| && open[k]
    ensures forall i :: 0 <= i < |open| ==> !Click(open, k)[i]
  {
  }

  /** Clicking the same header twice leaves every item closed if it was
      closed first, and leaves it open alone if it was open. */
  lemma ClickTwice(open: seq<bool>, k: nat)
    requires k < |open|
    ensures Click(Click(open, k), k)[k] == open[k]
    ensures forall i :: 0 <= i < |open| && i != k ==> !Click(Click(open, k), k)[i]
  {
  }
}

=== FILE: khel.dfy ===
/**
 * The Khel Mahakumbh page, which carries its own copy of the registration
 * lifecycle: ages 10 to 60 with a Junior/Senior category, one to three
 * sports, IDs `KMK-UT-2026-NNNNNN`, its own wording of the messages, a
 * fourteen-item progress bar and a CSV export that quotes only some columns.
 */
module Khel {
  import opened Wrappers
  import opened Text
  import opened Age
  import opened Validators
  import opened Csv
  import opened Store
  import opened Forms
  import Engine

  const Prefix := "KMK-UT-2026"
  const MaxSports: nat := 3

  /** What `collectData` reads: the base values, and the checked sports as
      the extra part. This is also what a draft holds. */
  type KhelData = FormData<seq<string>>

  /** The record's own fields besides the base ones. */
  datatype KhelExtra = KhelExtra(category: string, sports: seq<string>)

  type KhelRecord = Record<KhelExtra>
  type KhelBucket = Bucket<KhelData, KhelExtra>

  /** `computeAge(dob).age` on this page. */
  function AgeOfDob(dob: string, env: Engine.Env): (age: Option<int>)
    ensures age.None? <==> dob == "" || env.parse(dob).None?
    ensures age.Some? ==> age.value == AgeOn(env.parse(dob).value, env.today)
  {
    KhelComputeAge(dob, env.parse, env.today).age
  }

  /* ----------------------------------------------------------- validation */

  /** The date-of-birth validator with this page's wording. */
  function DobMessage(v: DobVerdict): (r: Option<string>)
    ensures r.None? <==> v == DobOk
    ensures v == DobTooYoung ==> r == Some("Participant must be at least " + IntToString(KhelMinAge) + " years old.")
    ensures v == DobTooOld ==> r == Some("Participant must be at most " + IntToString(KhelMaxAge) + " years old.")
  {
    match v
    case DobMissing => Some("Date of birth is required.")
    case DobInvalid => Some("Invalid date.")
    case DobTooYoung => Some("Participant must be at least " + IntToString(KhelMinAge) + " years old.")
    case DobTooOld => Some("Participant must be at most " + IntToString(KhelMaxAge) + " years old.")
    case DobOk => None
  }

  predicate SportsValid(sports: seq<string>) {
    1 <= |sports| <= MaxSports
  }

  /** The sport validator: at least one sport and at most three. */
  function SportMessage(sports: seq<string>): (r: Option<string>)
    ensures r.None? <==> SportsValid(sports)
    ensures |sports| == 0 ==> r == Some("Please select at least one sport.")
    ensures |sports| > MaxSports ==> r == Some("You can select up to " + IntToString(MaxSports) + " sports.")
  {
    if |sports| == 0 then Some("Please select at least one sport.")
    else if |sports| > MaxSports then Some("You can select up to " + IntToString(MaxSports) + " sports.")
    else None
  }

  /** The Khel wording for a mobile number that is not ten digits from 6 to 9. */
  const MobileInvalid := "Enter a valid 10-digit Indian mobile number (starting 6–9)."

  /** Verdicts for full name, date of birth and gender. */
  function IdentityVerdicts(d: BaseData, env: Engine.Env): (v: seq<Option<string>>)
    ensures |v| == 3
    ensures Engine.AllPass(v) <==> IdentityValid(d, env)
  {
    var v := [ ValidateName(d.fullName, "Full name is required."),
               DobMessage(CheckDob(d.dob, AgeOfDob(d.dob, env), KhelMinAge, KhelMaxAge)),
               Require(d.gender != "", "Please select a gender option.") ];
    Engine.AllPassThree(v);
    v
  }

  /** Verdicts for full name, date of birth, gender, mobile, email, district. */
  function PersonalVerdicts(d: BaseData, env: Engine.Env): (v: seq<Option<string>>)
    ensures |v| == 6
  {
    IdentityVerdicts(d, env) + Engine.ReachVerdicts(d, MobileInvalid) + DistrictVerdicts(d)
  }

  function DistrictVerdicts(d: BaseData): (v: seq<Option<string>>)
    ensures |v| == 1
    ensures Engine.AllPass(v) <==> d.district != ""
  {
    var v := [Require(d.district != "", "Please select your district.")];
    assert Engine.AllPass(v) ==> v[0].None?;
    v
  }

  /** Verdicts for the sports and the photo. */
  function SelectionVerdicts(sports: seq<string>, env: Engine.Env): (v: seq<Option<string>>)
    ensures |v| == 2
  {
    [ SportMessage(sports), Require(Engine.PhotoPresent(env), "Please upload a participant photo.") ]
  }

  /** Khel's wording for a missing emergency phone and the four consents. */
  const Wording := Engine.Wording(
    "Emergency phone is required.",
    "You must confirm the accuracy of your information.",
    "You must confirm your medical fitness.",
    "You must agree to the event rules.",
    "You must consent to data processing.")

  /** The fifteen keys of `validateAll`, in the order it checks them. */
  const Keys: seq<string> := [
    "fullName", "dob", "gender", "mobile", "email", "district", "sport", "photo",
    "emergencyName", "emergencyPhone", "emergencyRelation",
    "consentAccuracy", "consentMedical", "consentRules", "consentData"]

  function Verdicts(data: KhelData, env: Engine.Env): (v: seq<Option<string>>)
    ensures |v| == |Keys|
  {
    PersonalVerdicts(data.base, env) + SelectionVerdicts(data.extra, env)
    + Engine.EmergencyVerdicts(data.base, Wording) + Engine.ConsentVerdicts(data.base, Wording)
  }

  lemma KeysDistinct()
    ensures forall i, j :: 0 <= i < j < |Keys| ==> Keys[i] != Keys[j]
  {
  }

  /** Pairs each verdict with its key. */
  function ChecksOf(vs: seq<Option<string>>): (checks: seq<Check>)
    requires |vs| == |Keys|
    ensures |checks| == |Keys| && DistinctKeys(checks) && KeysOf(checks) == Keys
    ensures forall i :: 0 <= i < |Keys| ==> checks[i] == Check(Keys[i], vs[i])
  {
    KeysDistinct();
    var checks := seq(|Keys|, i requires 0 <= i < |Keys| => Check(Keys[i], vs[i]));
    assert KeysOf(checks) == Keys;
    checks
  }

  /** The checklist of `validateAll`: each key with its validator's verdict. */
  function Checks(data: KhelData, env: Engine.Env): seq<Check> {
    ChecksOf(Verdicts(data, env))
  }

  /** `validateAll`: one error per failing key, in key order. */
  function ValidateAll(data: KhelData, env: Engine.Env): (errors: seq<FieldError>)
    ensures |errors| <= |Keys|
    ensures errors == [] <==> Engine.AllPass(Verdicts(data, env))
    ensures forall e :: e in errors ==> e.key in Keys
  {
    var vs := Verdicts(data, env);
    PassIffNoFailures(vs);
    FailureKeysKnown(vs);
    Failures(ChecksOf(vs))
  }

  lemma PassIffNoFailures(vs: seq<Option<string>>)
    requires |vs| == |Keys|
    ensures Failures(ChecksOf(vs)) == [] <==> Engine.AllPass(vs)
  {
    var checks := ChecksOf(vs);
    NoFailuresIffAllPass(checks);
    assert forall i :: 0 <= i < |checks| ==> checks[i].verdict == vs[i];
  }

  lemma FailureKeysKnown(vs: seq<Option<string>>)
    requires |vs| == |Keys|
    ensures forall e :: e in Failures(ChecksOf(vs)) ==> e.key in Keys
  {
    var checks := ChecksOf(vs);
    forall e | e in Failures(checks) ensures e.key in Keys {
      FailuresMembership(checks, e);
      var i :| 0 <= i < |checks| && checks[i] == Check(e.key, Some(e.message));
      assert e.key == Keys[i];
    }
  }

  /** Line `k` of the checklist is reported, with its own message, exactly
      when its validator fails. */
  lemma Reported(data: KhelData, env: Engine.Env, k: nat, m: string)
    requires k < |Keys|
    ensures FieldError(Keys[k], m) in ValidateAll(data, env) <==> Verdicts(data, env)[k] == Some(m)
  {
    var checks := Checks(data, env);
    FailuresMembership(checks, FieldError(Keys[k], m));
    if FieldError(Keys[k], m) in ValidateAll(data, env) {
      var i :| 0 <= i < |checks| && checks[i] == Check(Keys[k], Some(m));
      KeysDistinct();
      assert i == k;
    }
  }

  /** No key is reported twice. */
  lemma NoKeyTwice(data: KhelData, env: Engine.Env, i: nat, j: nat)
    requires i < j < |ValidateAll(data, env)|
    ensures ValidateAll(data, env)[i].key != ValidateAll(data, env)[j].key
  {
    FailuresDistinctKeys(Checks(data, env));
  }

  /** The errors come in key order: cutting the key list anywhere, the
      errors for keys before the cut all precede those for keys after it. */
  lemma ErrorsInKeyOrder(data: KhelData, env: Engine.Env, m: nat)
    requires m <= |Keys|
    ensures var errors, p := ValidateAll(data, env), |Failures(Checks(data, env)[..m])|;
            && p <= |errors|
            && (forall t :: 0 <= t < p ==> errors[t].key in Keys[..m])
            && (forall t :: p <= t < |errors| ==> errors[t].key in Keys[m..])
  {
    FailuresCut(Checks(data, env), m);
  }

  /** Name, date of birth within 10 to 60 years, and gender. */
  ghost predicate IdentityValid(d: BaseData, env: Engine.Env) {
    && |Trim(d.fullName)| >= 3
    && d.dob != ""
    && AgeOfDob(d.dob, env).Some?
    && KhelMinAge <= AgeOfDob(d.dob, env).value <= KhelMaxAge
    && d.gender != ""
  }

  /** The personal details are acceptable, stated directly. */
  ghost predicate PersonalValid(d: BaseData, env: Engine.Env) {
    IdentityValid(d, env) && Engine.ReachValid(d) && d.district != ""
  }

  /** The whole form is acceptable, stated directly. */
  ghost predicate Valid(data: KhelData, env: Engine.Env) {
    && PersonalValid(data.base, env)
    && SportsValid(data.extra)
    && Engine.PhotoPresent(env)
    && Engine.EmergencyValid(data.base)
    && Engine.ConsentsGiven(data.base)
  }

  lemma PersonalPassIffValid(d: BaseData, env: Engine.Env)
    ensures Engine.AllPass(PersonalVerdicts(d, env)) <==> PersonalValid(d, env)
  {
    var a, b, c := IdentityVerdicts(d, env), Engine.ReachVerdicts(d, MobileInvalid), DistrictVerdicts(d);
    Engine.AllPassConcat(a, b);
    Engine.AllPassConcat(a + b, c);
  }

  lemma SelectionPassIffValid(sports: seq<string>, env: Engine.Env)
    ensures Engine.AllPass(SelectionVerdicts(sports, env)) <==> SportsValid(sports) && Engine.PhotoPresent(env)
  {
    var v := SelectionVerdicts(sports, env);
    if Engine.AllPass(v) {
      assert v[0].None? && v[1].None?;
    }
  }

  /** The form is accepted exactly when it is acceptable. */
  lemma ValidateAllPassesIffValid(data: KhelData, env: Engine.Env)
    ensures ValidateAll(data, env) == [] <==> Valid(data, env)
  {
    var p, s := PersonalVerdicts(data.base, env), SelectionVerdicts(data.extra, env);
    var e, c := Engine.EmergencyVerdicts(data.base, Wording), Engine.ConsentVerdicts(data.base, Wording);
    Engine.AllPassConcat(p, s);
    Engine.AllPassConcat(p + s, e);
    Engine.AllPassConcat(p + s + e, c);
    PersonalPassIffValid(data.base, env);
    SelectionPassIffValid(data.extra, env);
    Engine.EmergencyPassIffValid(data.base, Wording);
    Engine.ConsentPassIffGiven(data.base, Wording);
  }

  /** Apart from the sports, this page accepts exactly what the engine
      accepts when configured for ages 10 to 60. */
  lemma AgreesWithEngine<X, E>(cfg: Engine.Config<X, E>, data: KhelData, env: Engine.Env)
    requires cfg.minAge == KhelMinAge && cfg.maxAge == KhelMaxAge
    ensures Valid(data, env) <==> Engine.BaseValid(cfg, data.base, env) && SportsValid(data.extra)
  {
    assert Engine.AgeOf(cfg, data.base.dob, env) == AgeOfDob(data.base.dob, env);
  }

  /* ------------------------------------------------------------- progress */

  /** The fourteen items `updateProgress` counts. Unlike the validators, the
      name and phone lengths are taken before trimming, any non-empty date
      counts, and each consent is an item of its own. */
  function ProgressCount(data: KhelData, env: Engine.Env): (n: nat)
    ensures n <= 14
    ensures n == 14 <==> FullBar(data, env)
  {
    PersonalItems(data.base) + SelectionItems(data, env) + EmergencyItems(data.base) + ConsentItems(data.base)
  }

  /** Every one of the fourteen items counts. */
  predicate FullBar(data: KhelData, env: Engine.Env) {
    var d := data.base;
    && |d.fullName| >= 3 && d.dob != "" && d.gender != "" && |d.mobile| == 10 && d.district != ""
    && |data.extra| > 0 && Engine.PhotoPresent(env) && !env.photo.hidden
    && |d.emergencyName| >= 3 && |d.emergencyPhone| == 10 && d.emergencyRelation != ""
    && d.consentAccuracy && d.consentMedical && d.consentRules && d.consentData
  }

  /** Name, date of birth, gender, mobile and district. */
  function PersonalItems(d: BaseData): (n: nat)
    ensures n <= 5
  {
    Engine.Count(|d.fullName| >= 3) + Engine.Count(d.dob != "") + Engine.Count(d.gender != "")
    + Engine.Count(|d.mobile| == 10) + Engine.Count(d.district != "")
  }

  /** At least one sport, and a photo preview that is shown. */
  function SelectionItems(data: KhelData, env: Engine.Env): (n: nat)
    ensures n <= 2
  {
    Engine.Count(|data.extra| > 0) + Engine.Count(Engine.PhotoPresent(env) && !env.photo.hidden)
  }

  function EmergencyItems(d: BaseData): (n: nat)
    ensures n <= 3
  {
    Engine.Count(|d.emergencyName| >= 3) + Engine.Count(|d.emergencyPhone| == 10)
    + Engine.Count(d.emergencyRelation != "")
  }

  function ConsentItems(d: BaseData): (n: nat)
    ensures n <= 4
  {
    Engine.Count(d.consentAccuracy) + Engine.Count(d.consentMedical)
    + Engine.Count(d.consentRules) + Engine.Count(d.consentData)
  }

  /** `Math.round(n / 14 * 100)`; there is no cap, and none is needed. */
  function Progress(data: KhelData, env: Engine.Env): (pct: nat)
    ensures pct <= 100
    ensures pct == 100 <==> ProgressCount(data, env) == 14
  {
    var n := ProgressCount(data, env);
    Engine.RoundPercentFull(n, 14);
    Engine.RoundPercent(n, 14)
  }

  /** An acceptable form fills the bar once its phone fields carry no
      surrounding white space and the preview is visible. */
  lemma ValidFormFullBar(data: KhelData, env: Engine.Env)
    requires Valid(data, env)
    requires Trim(data.base.mobile) == data.base.mobile && Trim(data.base.emergencyPhone) == data.base.emergencyPhone
    requires !env.photo.hidden
    ensures Progress(data, env) == 100
  {
  }

  /** The bar counts any non-empty date of birth, whether or not it parses
      or gives an age from 10 to 60. */
  lemma ProgressIgnoresDobValidity(data: KhelData, env: Engine.Env, other: string)
    requires data.base.dob != "" && other != ""
    ensures Progress(data, env) == Progress(data.(base := data.base.(dob := other)), env)
  {
  }

  /** A name of three spaces counts on the bar like a real one, while the
      validator reports the name as missing. */
  lemma BlankNameCounts(data: KhelData, env: Engine.Env)
    requires |data.base.fullName| >= 3 && AllSpace(data.base.fullName)
    ensures Progress(data, env) == Progress(data.(base := data.base.(fullName := "Ram")), env)
    ensures FieldError("fullName", "Full name is required.") in ValidateAll(data, env)
  {
    NameLengthCounts(data, env, "Ram");
    FirstVerdictIsName(data, env);
    Reported(data, env, 0, "Full name is required.");
  }

  /** The bar sees only whether the name has three characters. */
  lemma NameLengthCounts(data: KhelData, env: Engine.Env, name: string)
    requires |data.base.fullName| >= 3 <==> |name| >= 3
    ensures Progress(data, env) == Progress(data.(base := data.base.(fullName := name)), env)
  {
    var d := data.base;
    assert PersonalItems(d) == PersonalItems(d.(fullName := name));
    assert EmergencyItems(d) == EmergencyItems(d.(fullName := name));
    assert ConsentItems(d) == ConsentItems(d.(fullName := name));
  }

  lemma FirstVerdictIsName(data: KhelData, env: Engine.Env)
    ensures Verdicts(data, env)[0] == ValidateName(data.base.fullName, "Full name is required.")
  {
    var p := PersonalVerdicts(data.base, env);
    assert p[0] == IdentityVerdicts(data.base, env)[0];
  }

  /* ----------------------------------------------------------- submission */

  /** `generateId`: the prefix and the counter's next number, zero-padded;
      the counter itself is only read. */
  function GenerateId(b: KhelBucket): (id: string)
    ensures |id| >= |Prefix| + 7 && id[..|Prefix| + 1] == Prefix + "-"
  {
    FormatId(Prefix, NextNumber(b.counter))
  }

  /** With the counter at `c`, the new ID carries `c + 1`, which its suffix
      reads back as. */
  lemma GenerateIdAt(b: KhelBucket, c: nat)
    requires CounterAt(b.counter, c)
    ensures GenerateId(b) == FormatId(Prefix, Some(c + 1))
    ensures ParseInt10(GenerateId(b)[|Prefix| + 1..]) == Some(c + 1)
  {
    NextNumberAt(b.counter, c);
    var id := GenerateId(b);
    assert id[|Prefix| + 1..] == PadStart(NatToString(c + 1), 6, '0');
    ParseIntOfPadded(c + 1, 6);
  }

  /** `saveRegistration`: the record goes after the stored ones, then the
      counter moves on by one. */
  function SaveRegistration(b: KhelBucket, r: KhelRecord): (b': KhelBucket)
    ensures GetReg(b') == GetReg(b) + [r]
    ensures b'.counter == Some(NumberText(NextNumber(b.counter)))
    ensures b'.draft == b.draft
  {
    BumpCounter(SaveReg(b, r))
  }

  lemma SaveRegistrationCounts(b: KhelBucket, r: KhelRecord, c: nat)
    requires CounterAt(b.counter, c)
    ensures CounterAt(SaveRegistration(b, r).counter, c + 1)
  {
    BumpCounterAt(SaveReg(b, r), c);
  }

  /** The record built on submission. */
  function BuildRecord(data: KhelData, id: string, env: Engine.Env): (r: KhelRecord)
    ensures r.Id() == id && r.base.status == "pending"
    ensures r.base.fullName == Trim(data.base.fullName) && r.base.mobile == Trim(data.base.mobile)
    ensures r.base.email == Trim(data.base.email) && r.base.medicalConditions == Trim(data.base.medicalConditions)
    ensures r.base.emergencyName == Trim(data.base.emergencyName)
    ensures r.base.emergencyPhone == Trim(data.base.emergencyPhone)
    ensures r.base.dob == data.base.dob && r.base.gender == data.base.gender && r.base.district == data.base.district
    ensures r.base.emergencyRelation == data.base.emergencyRelation
    ensures r.base.age == AgeOfDob(data.base.dob, env)
    ensures r.base.photoData == env.photo.src && r.base.registeredAt == env.now
    ensures r.extra.sports == data.extra
    ensures r.extra.category == KhelComputeAge(data.base.dob, env.parse, env.today).category.Label()
  {
    var d := data.base;
    var info := KhelComputeAge(d.dob, env.parse, env.today);
    Record(
      BaseRecord(id, Trim(d.fullName), d.dob, info.age, d.gender, Trim(d.mobile), Trim(d.email),
                 d.district, Trim(d.emergencyName), Trim(d.emergencyPhone), d.emergencyRelation,
                 Trim(d.medicalConditions), env.photo.src, env.now, "pending"),
      KhelExtra(info.category.Label(), data.extra))
  }

  /** `handleSubmit`: with errors nothing is stored; otherwise the record is
      built under the generated ID, saved, and the draft discarded. */
  function Submit(b: KhelBucket, data: KhelData, env: Engine.Env)
    : (r: (Engine.Submission<KhelExtra>, KhelBucket))
    ensures ValidateAll(data, env) != [] ==> r == (Engine.Rejected(ValidateAll(data, env)), b)
    ensures ValidateAll(data, env) == [] ==>
      && r.0.Accepted?
      && r.0.record.Id() == FormatId(Prefix, NextNumber(b.counter))
      && r.0.record.base.status == "pending"
      && r.0.record.extra.sports == data.extra
      && r.1.counter == Some(NumberText(NextNumber(b.counter)))
      && GetReg(r.1) == GetReg(b) + [r.0.record]
      && r.1.draft.Missing?
  {
    var errors := ValidateAll(data, env);
    if errors != [] then (Engine.Rejected(errors), b) else Accept(b, data, env)
  }

  /** The accepting branch of the submit handler. */
  function Accept(b: KhelBucket, data: KhelData, env: Engine.Env): (r: (Engine.Submission<KhelExtra>, KhelBucket))
    ensures r.0 == Engine.Accepted(BuildRecord(data, GenerateId(b), env))
    ensures r.1 == SaveReg(BumpCounter(b), r.0.record).(draft := Missing)
    ensures r.1.counter == Some(NumberText(NextNumber(b.counter)))
    ensures GetReg(r.1) == GetReg(b) + [r.0.record]
    ensures r.1.draft.Missing?
  {
    var record := BuildRecord(data, GenerateId(b), env);
    var saved := SaveRegistration(b, record);
    assert GetReg(Engine.DiscardDraft(saved)) == GetReg(saved);
    (Engine.Accepted(record), Engine.DiscardDraft(saved))
  }

  /** Every accepted record has an age from 10 to 60, the category that age
      names (Junior up to 18, Senior above), one to three sports and
      well-formed phone numbers. */
  lemma AcceptedRecord(b: KhelBucket, data: KhelData, env: Engine.Env)
    requires ValidateAll(data, env) == []
    ensures var r := Submit(b, data, env).0.record;
            && r.base.age.Some? && KhelMinAge <= r.base.age.value <= KhelMaxAge
            && (r.extra.category == "Junior" <==> r.base.age.value <= 18)
            && (r.extra.category == "Senior" <==> r.base.age.value > 18)
            && 1 <= |r.extra.sports| <= MaxSports
            && IsMobileNumber(r.base.mobile) && IsMobileNumber(r.base.emergencyPhone)
  {
    ValidateAllPassesIffValid(data, env);
  }

  /** Submission keeps the storage invariant, with the counter one higher
      after an accepted registration. */
  lemma SubmitKeepsConsistency(b: KhelBucket, c: nat, data: KhelData, env: Engine.Env)
    requires Consistent(Prefix, b, c)
    ensures ValidateAll(data, env) != [] ==> Consistent(Prefix, Submit(b, data, env).1, c)
    ensures ValidateAll(data, env) == [] ==> Consistent(Prefix, Submit(b, data, env).1, c + 1)
  {
    if ValidateAll(data, env) == [] {
      SavePreservesConsistency(Prefix, b, c, Accept(b, data, env).0.record);
    }
  }

  /** The first registration on a fresh page gets the ID ending -000001. */
  lemma FirstSubmission(data: KhelData, env: Engine.Env)
    requires ValidateAll(data, env) == []
    ensures Submit(Fresh(), data, env).0.record.Id() == Prefix + "-00000" + "1"
    ensures CounterAt(Submit(Fresh(), data, env).1.counter, 1)
  {
    FirstAccept(data, env);
  }

  lemma FirstAccept(data: KhelData, env: Engine.Env)
    ensures Accept(Fresh(), data, env).0.record.Id() == Prefix + "-00000" + "1"
    ensures CounterAt(Accept(Fresh(), data, env).1.counter, 1)
  {
    var b: KhelBucket := Fresh();
    GenerateIdAt(b, 0);
    Engine.OneDigitId(Prefix, 1);
    SaveRegistrationCounts(b, Accept(b, data, env).0.record, 0);
  }

  /* ---------------------------------------------------------------- draft */

  /** The page's form: the base part and the sport checkboxes. */
  datatype KhelForm = KhelForm(base: BaseForm, sports: seq<Box>)

  /** `collectData`. */
  function CollectData(f: KhelForm): (d: KhelData)
    ensures d.base == Collect(f.base) && d.extra == CheckedValues(f.sports)
  {
    FormData(Collect(f.base), CheckedValues(f.sports))
  }

  /** `restoreDraft`: the base part as in the engine; the sport boxes are
      ticked from the draft's list only when that list is non-empty. */
  function RestoreDraft(f: KhelForm, d: KhelData): (r: KhelForm)
    ensures Values(r.sports) == Values(f.sports)
    ensures d.extra == [] ==> r.sports == f.sports
    ensures d.extra != [] ==> forall i :: 0 <= i < |f.sports| ==> r.sports[i].checked == (f.sports[i].value in d.extra)
  {
    var sports := if d.extra != [] then CheckListed(f.sports, d.extra) else f.sports;
    assert Values(sports) == Values(f.sports);
    KhelForm(RestoreBase(f.base, d.base), sports)
  }

  /** A draft saved from the form restores, on a freshly loaded page with
      the same (distinct) options, to a form that collects the same data. */
  lemma RestoreRoundTrip(saved: KhelForm, f: KhelForm)
    requires Forms.Blank(f.base) && Values(f.base.gender) == Values(saved.base.gender)
    requires forall i :: 0 <= i < |f.sports| ==> !f.sports[i].checked
    requires Values(f.sports) == Values(saved.sports) && Distinct(Values(f.sports))
    ensures CollectData(RestoreDraft(f, CollectData(saved))) == CollectData(saved)
  {
    var d := CollectData(saved);
    var g := RadioValue(saved.base.gender);
    if g != "" {
      var i :| 0 <= i < |saved.base.gender| && saved.base.gender[i].checked && saved.base.gender[i].value == g;
      assert Values(f.base.gender)[i] == g;
    }
    RestoreThenCollect(f.base, d.base);
    CheckListedRestores(f.sports, saved.sports);
    if d.extra == [] {
      assert CheckListed(f.sports, []) == f.sports;
    }
  }

  /** With the sport handler in place, the collected sports never exceed
      three. */
  lemma ToggleKeepsLimit(f: KhelForm, i: nat, checked: bool)
    requires i < |f.sports| && CountChecked(f.sports) <= MaxSports
    ensures |CollectData(f.(sports := ToggleLimited(f.sports, i, checked, MaxSports))).extra| <= MaxSports
  {
  }

  /* ------------------------------------------------------------ CSV export */

  /** The export's header line. */
  const Headers: seq<string> := [
    "Registration ID", "Full Name", "DOB", "Age", "Category", "Gender", "Mobile", "Email",
    "District", "Sports", "Emergency Name", "Emergency Phone", "Emergency Relation",
    "Medical Conditions", "Registered At", "Status"]

  /** `q(v)`: the empty value is written as nothing; anything else quoted. */
  function Q(v: string): (c: Cell)
    ensures c.text == v && Encodable(c)
    ensures v == "" ==> c == Bare("")
    ensures v != "" ==> c.Quoted?
  {
    if v == "" then Bare("") else Quoted(v)
  }

  /** The age as `[...].join(",")` writes it: nothing for `null`, the
      number otherwise (zero included). */
  function AgeText(age: Option<int>): (t: string)
    ensures t == "" <==> age.None?
    ensures age.Some? ==> ParseInt10(t) == age
    ensures SafeBare(t)
  {
    match age
    case None => ""
    case Some(a) =>
      ParseIntOfIntToString(a);
      IntTextSafe(a);
      IntToString(a)
  }

  /** A number's decimal text holds only digits and a minus sign. */
  lemma IntTextSafe(a: int)
    ensures SafeBare(IntToString(a))
  {
    var t := IntToString(a);
    var sign: string := if a < 0 then "-" else "";
    var digits := NatToString(if a < 0 then -a else a);
    assert t == sign + digits;
    forall i | 0 <= i < |t| ensures t[i] != ',' && t[i] != '\n' && t[i] != '"' {
      if i >= |sign| {
        assert t[i] == digits[i - |sign|];
        assert IsDigit(digits[i - |sign|]);
      }
    }
  }

  /** The values of a record's line, in header order. */
  function RowValues(r: KhelRecord): (vs: seq<string>)
    ensures |vs| == |Headers|
  {
    var b := r.base;
    [ b.registrationId, b.fullName, b.dob, AgeText(b.age), r.extra.category, b.gender, b.mobile,
      b.email, b.district, Join(r.extra.sports, "|"), b.emergencyName, b.emergencyPhone,
      b.emergencyRelation, b.medicalConditions, b.registeredAt, b.status ]
  }

  /** The columns that go through `q`: full name, email, sports, emergency
      name and medical conditions. Every other value is written bare. */
  const ThroughQ: seq<bool> := [
    false, true, false, false, false, false, false, true,
    false, true, true, false, false, true, false, false]

  /** A record's line. */
  function RowCells(r: KhelRecord): (cells: seq<Cell>)
    ensures |cells| == |Headers|
    ensures forall i :: 0 <= i < |Headers| ==> cells[i].text == RowValues(r)[i]
    ensures forall i :: 0 <= i < |Headers| && !ThroughQ[i] ==> cells[i] == Bare(RowValues(r)[i])
  {
    var vs := RowValues(r);
    seq(|Headers|, i requires 0 <= i < |Headers| => if ThroughQ[i] then Q(vs[i]) else Bare(vs[i]))
  }

  /** The values written bare contain no separator, line feed or quote. */
  predicate BareFieldsPlain(r: KhelRecord) {
    forall i :: 0 <= i < |Headers| && !ThroughQ[i] ==> SafeBare(RowValues(r)[i])
  }

  function Rows(recs: seq<KhelRecord>): (rows: seq<seq<Cell>>)
    ensures |rows| == |recs| && forall i :: 0 <= i < |recs| ==> rows[i] == RowCells(recs[i])
  {
    if recs == [] then [] else [RowCells(recs[0])] + Rows(recs[1..])
  }

  /** `exportCSV`: nothing without records; otherwise the header and one line
      per stored record. */
  function ExportCsv(b: KhelBucket): (r: Option<string>)
    ensures r.None? <==> GetReg(b) == []
  {
    var recs := GetReg(b);
    if recs == [] then None
    else Some(EncodeDocument([Engine.BareCells(Headers)] + Rows(recs)))
  }

  lemma RowReadable(r: KhelRecord)
    requires BareFieldsPlain(r)
    ensures EncodableRow(RowCells(r))
    ensures Texts(RowCells(r)) == RowValues(r)
  {
  }

  lemma HeadersPlain()
    ensures forall i :: 0 <= i < |Headers| ==> SafeBare(Headers[i])
  {
    HeadersPlainFrom0();
    HeadersPlainFrom4();
    HeadersPlainFrom8();
    HeadersPlainFrom12();
  }

  lemma HeadersPlainFrom0()
    ensures forall i :: 0 <= i < 4 ==> SafeBare(Headers[i])
  {
  }

  lemma HeadersPlainFrom4()
    ensures forall i :: 4 <= i < 8 ==> SafeBare(Headers[i])
  {
  }

  lemma HeadersPlainFrom8()
    ensures forall i :: 8 <= i < 12 ==> SafeBare(Headers[i])
  {
  }

  lemma HeadersPlainFrom12()
    ensures forall i :: 12 <= i < 16 ==> SafeBare(Headers[i])
  {
  }

  /** Plain values written bare read back as themselves. */
  lemma BareRowReadable(vs: seq<string>)
    requires vs != [] && forall i :: 0 <= i < |vs| ==> SafeBare(vs[i])
    ensures EncodableRow(Engine.BareCells(vs)) && Texts(Engine.BareCells(vs)) == vs
  {
    var cells := Engine.BareCells(vs);
    var ts := Texts(cells);
    forall i | 0 <= i < |cells| ensures Encodable(cells[i]) && ts[i] == vs[i] {
      assert cells[i] == Bare(vs[i]);
    }
  }

  lemma HeaderReadable()
    ensures EncodableRow(Engine.BareCells(Headers)) && Texts(Engine.BareCells(Headers)) == Headers
  {
    HeadersPlain();
    BareRowReadable(Headers);
  }

  lemma ExportReadsBack(b: KhelBucket)
    requires GetReg(b) != []
    requires forall i :: 0 <= i < |GetReg(b)| ==> BareFieldsPlain(GetReg(b)[i])
    ensures ReadDocument(ExportCsv(b).value).Some?
    ensures var rows := ReadDocument(ExportCsv(b).value).value;
            && |rows| == |GetReg(b)| + 1
            && rows[0] == Headers
            && forall i :: 0 <= i < |GetReg(b)| ==> rows[i + 1] == RowValues(GetReg(b)[i])
  {
    var recs := GetReg(b);
    var doc := [Engine.BareCells(Headers)] + Rows(recs);
    HeaderReadable();
    forall i | 0 <= i < |doc| ensures EncodableRow(doc[i]) {
      if i > 0 {
        assert doc[i] == RowCells(recs[i - 1]);
        RowReadable(recs[i - 1]);
      } else {
        assert doc[i] == Engine.BareCells(Headers);
      }
    }
    ReadDocumentOf(doc);
    forall i | 0 <= i < |recs| ensures TextRows(doc)[i + 1] == RowValues(recs[i]) {
      RowReadable(recs[i]);
    }
  }

  /** A value with a comma, written bare, splits its line: a district
      containing a comma moves every later value one column to the right. */
  lemma BareCommaShiftsColumns(r: KhelRecord)
    requires r.base.district == "Dehradun, Uttarakhand"
    ensures !BareFieldsPlain(r)
    ensures !EncodableRow(RowCells(r))
  {
    assert r.base.district[8] == ',';
    assert RowValues(r)[8] == r.base.district;
    assert RowCells(r)[8] == Bare(r.base.district);
  }
}

=== FILE: store.dfy ===
/**
 * One scheme's storage: the list of registrations, the ID counter and the
 * form draft, each under its own storage key. A key holds nothing, text the
 * JSON reader rejects, or a stored value. Both scripts read a missing or
 * unreadable list as empty, append on save, filter on delete, and number
 * registrations from a counter kept as decimal text.
 */
module Store {
  import opened Wrappers
  import opened Text

  /** The fields every registration record carries. `age` is `None` when the
      record was stored with `age: null`. */
  datatype BaseRecord = BaseRecord(
    registrationId: string,
    fullName: string,
    dob: string,
    age: Option<int>,
    gender: string,
    mobile: string,
    email: string,
    district: string,
    emergencyName: string,
    emergencyPhone: string,
    emergencyRelation: string,
    medicalConditions: string,
    photoData: string,
    registeredAt: string,
    status: string)

  /** A record: the base fields and the scheme's own fields. */
  datatype Record<E> = Record(base: BaseRecord, extra: E) {
    function Id(): string { base.registrationId }
  }

  /** What a storage key holds. */
  datatype Slot<T> = Missing | Corrupt | Saved(value: T)

  /** The three keys of one scheme: registrations, counter, draft. */
  datatype Bucket<D, E> = Bucket(records: Slot<seq<Record<E>>>, counter: Option<string>, draft: Slot<D>)

  /** The bucket of a page that has never stored anything. */
  function Fresh<D, E>(): (b: Bucket<D, E>)
    ensures b.records.Missing? && b.counter.None? && b.draft.Missing?
  {
    Bucket(Missing, None, Missing)
  }

  /* -------------------------------------------------------------- records */

  /** `getReg` / `getRegistrations`: the stored list, or the empty list when
      the key is missing or does not parse. */
  function GetReg<D, E>(b: Bucket<D, E>): (r: seq<Record<E>>)
    ensures b.records.Saved? ==> r == b.records.value
    ensures !b.records.Saved? ==> r == []
  {
    match b.records
    case Saved(list) => list
    case _ => []
  }

  /** `saveReg` / the list part of `saveRegistration`: the list read back,
      with the record appended at the end. */
  function SaveReg<D, E>(b: Bucket<D, E>, r: Record<E>): (b': Bucket<D, E>)
    ensures GetReg(b') == GetReg(b) + [r]
    ensures b'.counter == b.counter && b'.draft == b.draft
  {
    b.(records := Saved(GetReg(b) + [r]))
  }

  /** The records whose ID differs from `id`, in their original order. */
  function RemoveId<E>(recs: seq<Record<E>>, id: string): (r: seq<Record<E>>)
    ensures |r| <= |recs|
    ensures forall i :: 0 <= i < |r| ==> r[i].Id() != id && r[i] in recs
  {
    if recs == [] then []
    else (if recs[0].Id() == id then [] else [recs[0]]) + RemoveId(recs[1..], id)
  }

  /** `deleteReg` / `deleteRegistration`: the filtered list is written back. */
  function DeleteReg<D, E>(b: Bucket<D, E>, id: string): (b': Bucket<D, E>)
    ensures GetReg(b') == RemoveId(GetReg(b), id)
    ensures b'.counter == b.counter && b'.draft == b.draft
  {
    b.(records := Saved(RemoveId(GetReg(b), id)))
  }

  /** Filtering distributes over concatenation; with the one-record case this
      pins the result down to "the other records, in order". */
  lemma {:induction false} RemoveIdConcat<E>(a: seq<Record<E>>, c: seq<Record<E>>, id: string)
    ensures RemoveId(a + c, id) == RemoveId(a, id) + RemoveId(c, id)
  {
    if a == [] {
      assert a + c == c;
    } else {
      assert (a + c)[1..] == a[1..] + c;
      RemoveIdConcat(a[1..], c, id);
    }
  }

  /** A record is kept exactly when its ID differs from the deleted one. */
  lemma {:induction false} RemoveIdMembership<E>(recs: seq<Record<E>>, id: string, x: Record<E>)
    ensures x in RemoveId(recs, id) <==> x in recs && x.Id() != id
  {
    if recs != [] {
      RemoveIdMembership(recs[1..], id, x);
      assert recs == [recs[0]] + recs[1..];
    }
  }

  /** Deleting an ID no record carries changes nothing. */
  lemma {:induction false} RemoveAbsentId<E>(recs: seq<Record<E>>, id: string)
    requires forall i :: 0 <= i < |recs| ==> recs[i].Id() != id
    ensures RemoveId(recs, id) == recs
  {
    if recs != [] {
      RemoveAbsentId(recs[1..], id);
      assert recs == [recs[0]] + recs[1..];
    }
  }

  /** Deleting twice is deleting once. */
  lemma RemoveIdIdempotent<E>(recs: seq<Record<E>>, id: string)
    ensures RemoveId(RemoveId(recs, id), id) == RemoveId(recs, id)
  {
    RemoveAbsentId(RemoveId(recs, id), id);
  }

  /** With unique IDs, deleting one that is present removes exactly one record. */
  lemma {:induction false} RemoveUniqueId<E>(recs: seq<Record<E>>, k: nat)
    requires k < |recs|
    requires UniqueIds(recs)
    ensures RemoveId(recs, recs[k].Id()) == recs[..k] + recs[k + 1..]
  {
    var id := recs[k].Id();
    var pre, mid, post := recs[..k], [recs[k]], recs[k + 1..];
    assert recs == pre + (mid + post);
    RemoveIdConcat(pre, mid + post, id);
    RemoveIdConcat(mid, post, id);
    forall i | 0 <= i < |pre| ensures pre[i].Id() != id {
      assert pre[i] == recs[i];
    }
    RemoveAbsentId(pre, id);
    forall i | 0 <= i < |post| ensures post[i].Id() != id {
      assert post[i] == recs[k + 1 + i];
    }
    RemoveAbsentId(post, id);
    assert RemoveId(mid, id) == [] by {
      assert mid[1..] == [];
    }
    assert RemoveId(mid + post, id) == post;
    assert RemoveId(recs, id) == pre + post;
  }

  /* -------------------------------------------------------------- counter */

  /** `parseInt(counter || "0", 10) + 1`: a missing or empty counter reads as
      zero; `None` is `NaN`, which stays `NaN` after adding one. */
  function NextNumber(counter: Option<string>): (n: Option<int>)
    ensures counter.None? || counter == Some("") ==> n == Some(1)
  {
    var text := if counter.None? || counter.value == "" then "0" else counter.value;
    assert text == "0" ==> ParseInt10(text) == Some(0) by {
      ParseIntOfIntToString(0);
      assert IntToString(0) == "0";
    }
    match ParseInt10(text)
    case None => None
    case Some(k) => Some(k + 1)
  }

  /** `String(n)` for a number that may be `NaN`. */
  function NumberText(n: Option<int>): (s: string)
    ensures n.None? ==> s == "NaN"
    ensures n.Some? ==> ParseInt10(s) == n
  {
    match n
    case None => "NaN"
    case Some(k) =>
      ParseIntOfIntToString(k);
      IntToString(k)
  }

  /** A registration ID: the prefix, a dash, and the number zero-padded to
      six characters. */
  function FormatId(prefix: string, n: Option<int>): (id: string)
    ensures |id| >= |prefix| + 7 && id[..|prefix| + 1] == prefix + "-"
  {
    prefix + "-" + PadStart(NumberText(n), 6, '0')
  }

  /** The counter holds the text of `c`, or nothing when `c` is zero. */
  predicate CounterAt(counter: Option<string>, c: nat) {
    (c == 0 && counter.None?) || counter == Some(IntToString(c))
  }

  /** The counter read back gives the next number. */
  lemma NextNumberAt(counter: Option<string>, c: nat)
    requires CounterAt(counter, c)
    ensures NextNumber(counter) == Some(c + 1)
  {
    if counter.Some? {
      ParseIntOfIntToString(c);
    }
  }

  /** Bumping the counter moves it from `c` to `c + 1`. */
  function BumpCounter<D, E>(b: Bucket<D, E>): (b': Bucket<D, E>)
    ensures b'.counter == Some(NumberText(NextNumber(b.counter)))
    ensures b'.records == b.records && b'.draft == b.draft
  {
    b.(counter := Some(NumberText(NextNumber(b.counter))))
  }

  lemma BumpCounterAt<D, E>(b: Bucket<D, E>, c: nat)
    requires CounterAt(b.counter, c)
    ensures CounterAt(BumpCounter(b).counter, c + 1)
  {
    NextNumberAt(b.counter, c);
  }

  /** Distinct numbers give distinct IDs: the padded number reads back as
      the number it pads. */
  lemma {:induction false} FormatIdInjective(prefix: string, j: nat, k: nat)
    requires FormatId(prefix, Some(j)) == FormatId(prefix, Some(k))
    ensures j == k
  {
    var pj := PadStart(NumberText(Some(j)), 6, '0');
    var pk := PadStart(NumberText(Some(k)), 6, '0');
    var h := prefix + "-";
    assert FormatId(prefix, Some(j)) == h + pj && FormatId(prefix, Some(k)) == h + pk;
    assert pj == (h + pj)[|h|..] && pk == (h + pk)[|h|..];
    ParseIntOfPadded(j, 6);
    ParseIntOfPadded(k, 6);
  }

  /** A counter that does not read as a number stays `NaN`, so every later ID
      is the same `PREFIX-000NaN`. */
  lemma NaNReadsAsNaN()
    ensures ParseInt10("NaN").None?
  {
    TrimStartOfUnspaced("NaN");
    assert DigitPrefix("NaN") == [];
  }

  lemma NaNCounterRepeats(prefix: string, counter: string)
    requires counter != "" && ParseInt10(counter).None?
    ensures NextNumber(Some(counter)).None?
    ensures NextNumber(Some(NumberText(NextNumber(Some(counter))))).None?
    ensures FormatId(prefix, NextNumber(Some(counter))) == prefix + "-000NaN"
  {
    NaNReadsAsNaN();
    NaNId(prefix);
  }

  lemma NaNId(prefix: string)
    ensures FormatId(prefix, None) == prefix + "-000NaN"
  {
    assert PadStart("NaN", 6, '0') == "000NaN" by {
      assert Repeat('0', 3) == "000";
    }
    assert prefix + "-" + "000NaN" == prefix + "-000NaN";
  }

  /* ---------------------------------------------------------- consistency */

  predicate UniqueIds<E>(recs: seq<Record<E>>) {
    forall i, j :: 0 <= i < j < |recs| ==> recs[i].Id() != recs[j].Id()
  }

  /** Every stored record carries the ID of a number the counter has reached. */
  ghost predicate Numbered<E>(prefix: string, recs: seq<Record<E>>, c: nat) {
    forall i :: 0 <= i < |recs| ==> Issued(prefix, recs[i], c)
  }

  /** The record's ID is that of some number from 1 to `c`. */
  ghost predicate Issued<E>(prefix: string, r: Record<E>, c: nat) {
    exists k :: 1 <= k <= c && r.Id() == FormatId(prefix, Some(k))
  }

  /** The storage invariant: the counter stands at `c`, every record carries
      the ID of a number up to `c`, and no two records share an ID. */
  ghost predicate Consistent<D, E>(prefix: string, b: Bucket<D, E>, c: nat) {
    CounterAt(b.counter, c) && Numbered(prefix, GetReg(b), c) && UniqueIds(GetReg(b))
  }

  lemma FreshIsConsistent<D, E>(prefix: string)
    ensures Consistent(prefix, Fresh<D, E>(), 0)
  {
  }

  /** A record numbered `c + 1` clashes with no record numbered up to `c`. */
  lemma NewIdIsFresh<E>(prefix: string, recs: seq<Record<E>>, c: nat, id: string)
    requires Numbered(prefix, recs, c)
    requires id == FormatId(prefix, Some(c + 1))
    ensures forall i :: 0 <= i < |recs| ==> recs[i].Id() != id
  {
    forall i | 0 <= i < |recs|
      ensures recs[i].Id() != id
    {
      var k :| 1 <= k <= c && recs[i].Id() == FormatId(prefix, Some(k));
      if recs[i].Id() == id {
        FormatIdInjective(prefix, k, c + 1);
      }
    }
  }

  lemma AppendKeepsUnique<E>(recs: seq<Record<E>>, r: Record<E>)
    requires UniqueIds(recs)
    requires forall i :: 0 <= i < |recs| ==> recs[i].Id() != r.Id()
    ensures UniqueIds(recs + [r])
  {
  }

  lemma AppendKeepsNumbered<E>(prefix: string, recs: seq<Record<E>>, c: nat, r: Record<E>)
    requires Numbered(prefix, recs, c)
    requires r.Id() == FormatId(prefix, Some(c + 1))
    ensures Numbered(prefix, recs + [r], c + 1)
  {
    var all := recs + [r];
    forall i | 0 <= i < |all| ensures Issued(prefix, all[i], c + 1) {
      if i < |recs| {
        assert all[i] == recs[i];
        IssuedLater(prefix, recs[i], c);
      } else {
        assert all[i] == r;
      }
    }
  }

  lemma IssuedLater<E>(prefix: string, r: Record<E>, c: nat)
    requires Issued(prefix, r, c)
    ensures Issued(prefix, r, c + 1)
  {
    var k :| 1 <= k <= c && r.Id() == FormatId(prefix, Some(k));
    assert 1 <= k <= c + 1;
  }

  /** Saving a record under the next ID and bumping the counter keeps the
      storage consistent, with the counter one higher. */
  lemma SavePreservesConsistency<D, E>(prefix: string, b: Bucket<D, E>, c: nat, r: Record<E>)
    requires Consistent(prefix, b, c)
    requires r.Id() == FormatId(prefix, NextNumber(b.counter))
    ensures Consistent(prefix, SaveReg(BumpCounter(b), r), c + 1)
    ensures Consistent(prefix, SaveReg(BumpCounter(b), r).(draft := Missing), c + 1)
  {
    SaveKeepsConsistency(prefix, b, c, r);
    DraftIrrelevant(prefix, SaveReg(BumpCounter(b), r), c + 1);
  }

  /** The draft plays no part in the storage invariant. */
  lemma DraftIrrelevant<D, E>(prefix: string, b: Bucket<D, E>, c: nat)
    ensures Consistent(prefix, b.(draft := Missing), c) <==> Consistent(prefix, b, c)
  {
    assert GetReg(b.(draft := Missing)) == GetReg(b);
  }

  lemma SaveKeepsConsistency<D, E>(prefix: string, b: Bucket<D, E>, c: nat, r: Record<E>)
    requires Consistent(prefix, b, c)
    requires r.Id() == FormatId(prefix, NextNumber(b.counter))
    ensures Consistent(prefix, SaveReg(BumpCounter(b), r), c + 1)
  {
    NextNumberAt(b.counter, c);
    BumpCounterAt(b, c);
    NewIdIsFresh(prefix, GetReg(b), c, r.Id());
    AppendKeepsUnique(GetReg(b), r);
    AppendKeepsNumbered(prefix, GetReg(b), c, r);
  }

  /** Deleting a record keeps the storage consistent. */
  lemma DeletePreservesConsistency<D, E>(prefix: string, b: Bucket<D, E>, c: nat, id: string)
    requires Consistent(prefix, b, c)
    ensures Consistent(prefix, DeleteReg(b, id), c)
  {
    RemoveIdKeepsNumbered(prefix, GetReg(b), c, id);
    RemoveIdKeepsUnique(GetReg(b), id);
  }

  lemma RemoveIdKeepsNumbered<E>(prefix: string, recs: seq<Record<E>>, c: nat, id: string)
    requires Numbered(prefix, recs, c)
    ensures Numbered(prefix, RemoveId(recs, id), c)
  {
    var after := RemoveId(recs, id);
    forall i | 0 <= i < |after| ensures Issued(prefix, after[i], c) {
      assert after[i] in recs;
      var j :| 0 <= j < |recs| && recs[j] == after[i];
      assert Issued(prefix, recs[j], c);
    }
  }

  lemma {:induction false} RemoveIdKeepsUnique<E>(recs: seq<Record<E>>, id: string)
    requires UniqueIds(recs)
    ensures UniqueIds(RemoveId(recs, id))
  {
    if recs != [] {
      var rest := RemoveId(recs[1..], id);
      assert UniqueIds(recs[1..]) by {
        forall i, j | 0 <= i < j < |recs[1..]| ensures recs[1..][i].Id() != recs[1..][j].Id() {
          assert recs[1..][i] == recs[i + 1] && recs[1..][j] == recs[j + 1];
        }
      }
      RemoveIdKeepsUnique(recs[1..], id);
      if recs[0].Id() != id {
        forall j | 0 <= j < |rest| ensures rest[j].Id() != recs[0].Id() {
          var m :| 0 <= m < |recs[1..]| && recs[1..][m] == rest[j];
          assert recs[m + 1] == rest[j];
        }
        var r := [recs[0]] + rest;
        forall i, j | 0 <= i < j < |r| ensures r[i].Id() != r[j].Id() {
          if i > 0 {
            assert r[i] == rest[i - 1] && r[j] == rest[j - 1];
          } else {
            assert r[j] == rest[j - 1];
          }
        }
      }
    }
  }

  /* ------------------------------------------------------------ clear all */

  /** `regClearAll` / `clearAll`: with no records nothing happens; otherwise,
      once the user confirms, the list and the counter keys are removed and
      the draft is left alone. */
  function ClearAll<D, E>(b: Bucket<D, E>, confirmed: bool): (b': Bucket<D, E>)
    ensures GetReg(b) == [] || !confirmed ==> b' == b
    ensures GetReg(b) != [] && confirmed ==> b'.records.Missing? && b'.counter.None?
    ensures b'.draft == b.draft
    ensures GetReg(b') == [] || b' == b
  {
    if GetReg(b) == [] then b
    else if confirmed then b.(records := Missing, counter := None)
    else b
  }

  /** Clearing restarts the numbering: the next ID is number 1 again, and
      clearing keeps the storage consistent. */
  lemma ClearAllRestarts<D, E>(prefix: string, b: Bucket<D, E>, c: nat)
    requires Consistent(prefix, b, c)
    requires GetReg(b) != []
    ensures NextNumber(ClearAll(b, true).counter) == Some(1)
    ensures Consistent(prefix, ClearAll(b, true), 0)
  {
  }
}

=== FILE: text.dfy ===
/**
 * The JavaScript string built-ins the registration scripts lean on:
 * `trim`, `String(n)`, `parseInt(s, 10)`, `padStart`, a global one-character
 * `replace`, and `Array.prototype.join`. Strings are sequences of code points.
 */
module Text {
  import opened Wrappers

  /** The code points JavaScript counts as white space or line terminators:
      what `trim` strips, what `\s` matches and what `parseInt` skips. */
  predicate IsSpace(c: char) {
    var n := c as int;
    || 9 <= n <= 13 || n == 32 || n == 0xA0 || n == 0x1680
    || 0x2000 <= n <= 0x200A || n == 0x2028 || n == 0x2029
    || n == 0x202F || n == 0x205F || n == 0x3000 || n == 0xFEFF
  }

  predicate IsDigit(c: char) {
    '0' <= c <= '9'
  }

  predicate AllSpace(s: string) {
    forall i :: 0 <= i < |s| ==> IsSpace(s[i])
  }

  lemma AllSpaceCons(c: char, t: string)
    requires IsSpace(c) && AllSpace(t)
    ensures AllSpace([c] + t)
  {
    assert forall i :: 0 < i < |[c] + t| ==> ([c] + t)[i] == t[i - 1];
  }

  predicate AllDigits(s: string) {
    forall i :: 0 <= i < |s| ==> IsDigit(s[i])
  }

  /* ---------------------------------------------------------------- trim */

  /** `s` without its leading white space. */
  function TrimStart(s: string): (r: string)
    ensures |r| <= |s| && r == s[|s| - |r|..]
    ensures AllSpace(s[..|s| - |r|])
    ensures r != [] ==> !IsSpace(r[0])
  {
    if s != [] && IsSpace(s[0]) then
      var r := TrimStart(s[1..]);
      assert s[..|s| - |r|] == [s[0]] + s[1..][..|s| - 1 - |r|];
      AllSpaceCons(s[0], s[1..][..|s| - 1 - |r|]);
      r
    else
      s
  }

  /** `s` without its trailing white space. */
  function TrimEnd(s: string): (r: string)
    ensures |r| <= |s| && r == s[..|r|]
    ensures AllSpace(s[|r|..])
    ensures r != [] ==> !IsSpace(r[|r| - 1])
  {
    if s != [] && IsSpace(s[|s| - 1]) then
      var r := TrimEnd(s[..|s| - 1]);
      assert s[|r|..] == s[..|s| - 1][|r|..] + [s[|s| - 1]];
      r
    else
      s
  }

  /** Stripping the leading and then the trailing white space leaves no
      white space at either end. */
  lemma StrippedEnds(s: string)
    ensures var r := TrimEnd(TrimStart(s));
            |r| <= |s| && (r != [] ==> !IsSpace(r[0]) && !IsSpace(r[|r| - 1]))
  {
    var t := TrimStart(s);
    var r := TrimEnd(t);
    if r != [] {
      assert r[0] == t[0];
    }
  }

  /** ... and leaves nothing exactly when `s` is all white space. */
  lemma StrippedEmpty(s: string)
    ensures TrimEnd(TrimStart(s)) == [] <==> AllSpace(s)
  {
    var t := TrimStart(s);
    var k := |s| - |t|;
    if t != [] {
      assert !IsSpace(s[k]) by { assert t[0] == s[k]; }
      assert TrimEnd(t) != [] by { assert t[0..][0] == t[0]; }
    } else {
      assert s == s[..k];
    }
  }

  /** `String.prototype.trim`: the slice of `s` between its leading and its
      trailing white space. */
  function Trim(s: string): (r: string)
    ensures |r| <= |s|
    ensures r != [] ==> !IsSpace(r[0]) && !IsSpace(r[|r| - 1])
    ensures r == [] <==> AllSpace(s)
  {
    StrippedEnds(s);
    StrippedEmpty(s);
    TrimEnd(TrimStart(s))
  }

  /** `r` is a slice of `s` with only white space before and after it. */
  ghost predicate SpaceBounded(s: string, r: string) {
    exists i :: 0 <= i && i + |r| <= |s| && r == s[i..i + |r|]
                && AllSpace(s[..i]) && AllSpace(s[i + |r|..])
  }

  /** Dropping white space from the front of `s` (giving `t`) and then from
      the back of `t` (giving `r`) keeps a slice of `s`. */
  lemma KeptSlice(s: string, t: string, r: string)
    requires |t| <= |s| && t == s[|s| - |t|..] && AllSpace(s[..|s| - |t|])
    requires |r| <= |t| && r == t[..|r|] && AllSpace(t[|r|..])
    ensures SpaceBounded(s, r)
  {
    var i := |s| - |t|;
    assert r == s[i..i + |r|];
    assert s[i + |r|..] == t[|r|..];
  }

  /** What `trim` keeps is a slice of `s`, and what it drops on either side
      is white space. */
  lemma TrimIsSlice(s: string)
    ensures SpaceBounded(s, Trim(s))
  {
    var t := TrimStart(s);
    KeptSlice(s, t, TrimEnd(t));
  }

  /** A string without white space at either end is its own trim. */
  lemma TrimOfTrimmed(s: string)
    requires s != [] ==> !IsSpace(s[0]) && !IsSpace(s[|s| - 1])
    ensures Trim(s) == s
  {
  }

  /* ------------------------------------------------------------- decimal */

  function DigitValue(c: char): nat
    requires IsDigit(c)
  {
    c as int - '0' as int
  }

  function DigitChar(d: nat): (c: char)
    requires d < 10
    ensures IsDigit(c) && DigitValue(c) == d
  {
    (48 + d) as char
  }

  /** The number a string of decimal digits denotes (leading zeros allowed). */
  function DigitsValue(s: string): nat
    requires AllDigits(s)
  {
    if s == [] then 0 else DigitsValue(s[..|s| - 1]) * 10 + DigitValue(s[|s| - 1])
  }

  /** `String(n)` for a non-negative integer: its decimal digits, with a
      leading zero only for zero itself. */
  function NatToString(n: nat): (r: string)
    ensures 1 <= |r| && AllDigits(r)
    ensures r[0] == '0' <==> n == 0
    ensures DigitsValue(r) == n
  {
    if n < 10 then
      [DigitChar(n)]
    else
      var r := NatToString(n / 10) + [DigitChar(n % 10)];
      assert r[..|r| - 1] == NatToString(n / 10);
      r
  }

  /** `String(n)` for any integer. */
  function IntToString(n: int): (r: string)
    ensures r != []
    ensures r[0] == '-' <==> n < 0
    ensures n >= 0 ==> AllDigits(r) && DigitsValue(r) == n
  {
    if n < 0 then "-" + NatToString(-n) else NatToString(n)
  }

  /** The longest prefix of `s` made of decimal digits. */
  function DigitPrefix(s: string): (r: string)
    ensures |r| <= |s| && r == s[..|r|] && AllDigits(r)
    ensures |r| == |s| || !IsDigit(s[|r|])
  {
    if s != [] && IsDigit(s[0]) then [s[0]] + DigitPrefix(s[1..]) else []
  }

  /** `parseInt(s, 10)`: skip leading white space, read an optional sign and
      the longest run of digits after it; `None` stands for `NaN` (no digit). */
  function ParseInt10(s: string): (r: Option<int>)
    ensures var t := TrimStart(s);
            var u := if t != [] && (t[0] == '-' || t[0] == '+') then t[1..] else t;
            && (r.Some? <==> u != [] && IsDigit(u[0]))
            && (r.Some? && r.value < 0 ==> t[0] == '-')
  {
    ParseSigned(TrimStart(s))
  }

  function ParseSigned(t: string): Option<int> {
    if t != [] && t[0] == '-' then Negate(ParseDigits(t[1..]))
    else if t != [] && t[0] == '+' then ParseDigits(t[1..])
    else ParseDigits(t)
  }

  function Negate(o: Option<int>): Option<int> {
    if o.Some? then Some(-o.value) else None
  }

  function ParseDigits(u: string): Option<int> {
    var d := DigitPrefix(u);
    if d == [] then None else Some(DigitsValue(d))
  }

  lemma {:induction false} DigitPrefixOfDigits(s: string)
    requires AllDigits(s)
    ensures DigitPrefix(s) == s
  {
    if s != [] {
      DigitPrefixOfDigits(s[1..]);
    }
  }

  /** Leading zeros do not change the value of a digit string. */
  lemma {:induction false} DigitsValueLeadingZeros(z: string, s: string)
    requires forall i :: 0 <= i < |z| ==> z[i] == '0'
    requires AllDigits(s)
    ensures AllDigits(z + s) && DigitsValue(z + s) == DigitsValue(s)
    decreases |z| + |s|
  {
    if s == [] {
      assert z + s == z;
      if z != [] {
        DigitsValueLeadingZeros(z[..|z| - 1], []);
        assert z[..|z| - 1] + [] == z[..|z| - 1];
      }
    } else {
      DigitsValueLeadingZeros(z, s[..|s| - 1]);
      assert (z + s)[..|z + s| - 1] == z + s[..|s| - 1];
    }
  }

  lemma SignOrDigitIsNotSpace(c: char)
    requires IsDigit(c) || c == '-'
    ensures !IsSpace(c)
  {
  }

  lemma TrimStartOfUnspaced(s: string)
    requires s != [] && !IsSpace(s[0])
    ensures TrimStart(s) == s
  {
  }

  /** `parseInt` reads a digit string, optionally after a minus sign, as
      its value. */
  lemma ParseSignedOfDigits(d: string)
    requires d != [] && AllDigits(d)
    ensures ParseSigned(d) == Some(DigitsValue(d) as int)
    ensures ParseSigned("-" + d) == Some(-(DigitsValue(d) as int))
  {
    ParseDigitsOfDigits(d);
    ParseSignedUnsigned(d);
    ParseSignedNegative(d);
  }

  lemma ParseDigitsOfDigits(d: string)
    requires d != [] && AllDigits(d)
    ensures ParseDigits(d) == Some(DigitsValue(d) as int)
    ensures d[0] != '-' && d[0] != '+'
  {
    DigitPrefixOfDigits(d);
    assert IsDigit(d[0]);
  }

  lemma ParseSignedUnsigned(t: string)
    requires t != [] && t[0] != '-' && t[0] != '+'
    ensures ParseSigned(t) == ParseDigits(t)
  {
  }

  lemma ParseSignedNegative(d: string)
    requires ParseDigits(d).Some?
    ensures ParseSigned("-" + d) == Some(-ParseDigits(d).value)
  {
    var s := "-" + d;
    assert s[0] == '-' && s[1..] == d;
  }

  lemma ParseIntOfDigits(d: string, negative: bool)
    requires d != [] && AllDigits(d)
    ensures ParseInt10(if negative then "-" + d else d)
         == Some(if negative then -(DigitsValue(d) as int) else DigitsValue(d) as int)
  {
    var s := if negative then "-" + d else d;
    assert s[0] == '-' || s[0] == d[0];
    SignOrDigitIsNotSpace(s[0]);
    TrimStartOfUnspaced(s);
    ParseSignedOfDigits(d);
  }

  /** `parseInt` reads back what `String` wrote. */
  lemma ParseIntOfIntToString(n: int)
    ensures ParseInt10(IntToString(n)) == Some(n)
  {
    if n < 0 {
      ParseIntOfDigits(NatToString(-n), true);
    } else {
      ParseIntOfDigits(NatToString(n), false);
    }
  }

  /* ----------------------------------------------------------- padStart */

  function Repeat(c: char, n: nat): (r: string)
    ensures |r| == n && forall i :: 0 <= i < n ==> r[i] == c
  {
    if n == 0 then [] else [c] + Repeat(c, n - 1)
  }

  /** `s.padStart(width, [c])`: `s` prefixed with copies of `c` up to `width`. */
  function PadStart(s: string, width: nat, c: char): (r: string)
    ensures |r| == if |s| < width then width else |s|
    ensures r[|r| - |s|..] == s
    ensures forall i :: 0 <= i < |r| - |s| ==> r[i] == c
  {
    if |s| < width then Repeat(c, width - |s|) + s else s
  }

  /** A zero-padded decimal still reads back as the number it pads. */
  lemma ParseIntOfPadded(n: nat, width: nat)
    ensures ParseInt10(PadStart(NatToString(n), width, '0')) == Some(n)
  {
    var s := NatToString(n);
    var p := PadStart(s, width, '0');
    var z := p[..|p| - |s|];
    assert p == z + s;
    DigitsValueLeadingZeros(z, s);
    ParseIntOfDigits(p, false);
  }

  /* ------------------------------------------------------ replace, join */

  /** `s.replace(/c/g, rep)`. */
  function ReplaceAll(s: string, c: char, rep: string): (r: string)
  {
    if s == [] then [] else (if s[0] == c then rep else [s[0]]) + ReplaceAll(s[1..], c, rep)
  }

  /** Replacing `c` by a text without `c` leaves no `c` behind. */
  lemma {:induction false} ReplaceAllRemoves(s: string, c: char, rep: string)
    requires c !in rep
    ensures c !in ReplaceAll(s, c, rep)
  {
    if s != [] {
      ReplaceAllRemoves(s[1..], c, rep);
    }
  }

  /** A text without `c` is left as it is. */
  lemma {:induction false} ReplaceAllAbsent(s: string, c: char, rep: string)
    requires c !in s
    ensures ReplaceAll(s, c, rep) == s
  {
    if s != [] {
      assert c !in s[1..] by {
        assert forall i :: 0 <= i < |s[1..]| ==> s[1..][i] == s[i + 1];
      }
      ReplaceAllAbsent(s[1..], c, rep);
      assert s == [s[0]] + s[1..];
    }
  }

  /** A non-empty replacement never shortens the text. */
  lemma {:induction false} ReplaceAllLonger(s: string, c: char, rep: string)
    requires rep != []
    ensures |ReplaceAll(s, c, rep)| >= |s|
  {
    if s != [] {
      ReplaceAllLonger(s[1..], c, rep);
    }
  }

  lemma {:induction false} ReplaceAllConcat(a: string, b: string, c: char, rep: string)
    ensures ReplaceAll(a + b, c, rep) == ReplaceAll(a, c, rep) + ReplaceAll(b, c, rep)
  {
    if a != [] {
      assert (a + b)[1..] == a[1..] + b;
      ReplaceAllConcat(a[1..], b, c, rep);
    } else {
      assert a + b == b;
    }
  }

  /** The total length of some strings. */
  function TotalLength(xs: seq<string>): nat {
    if xs == [] then 0 else |xs[0]| + TotalLength(xs[1..])
  }

  /** `xs.join(sep)`: the items in order with `sep` between neighbours, so
      nothing is added but the separators. */
  function Join(xs: seq<string>, sep: string): (r: string)
    ensures xs != [] ==> |r| == TotalLength(xs) + (|xs| - 1) * |sep|
    ensures xs != [] ==> |xs[0]| <= |r| && r[..|xs[0]|] == xs[0]
    ensures xs == [] ==> r == ""
  {
    if xs == [] then "" else if |xs| == 1 then xs[0] else xs[0] + sep + Join(xs[1..], sep)
  }

  /** One item is joined to itself. */
  lemma JoinSingle(x: string, sep: string)
    ensures Join([x], sep) == x
  {
  }

  /** Joining two non-empty lists is joining each and putting one separator
      between them, so every item and separator appears in order. */
  lemma {:induction false} JoinConcat(xs: seq<string>, ys: seq<string>, sep: string)
    requires xs != [] && ys != []
    ensures Join(xs + ys, sep) == Join(xs, sep) + sep + Join(ys, sep)
  {
    if |xs| == 1 {
      assert xs + ys == [xs[0]] + ys;
      assert (xs + ys)[1..] == ys;
    } else {
      assert (xs + ys)[0] == xs[0];
      assert (xs + ys)[1..] == xs[1..] + ys;
      JoinConcat(xs[1..], ys, sep);
    }
  }

  /** `s.split(c)` for a single character: the pieces between occurrences of
      `c`, one more than there are occurrences. */
  function Split(s: string, c: char): (parts: seq<string>)
    ensures |parts| >= 1
  {
    if s == [] then [""]
    else
      var rest := Split(s[1..], c);
      if s[0] == c then [""] + rest else [[s[0]] + rest[0]] + rest[1..]
  }

  /** A text without `c` is a single piece. */
  lemma {:induction false} SplitPlain(x: string, c: char)
    requires c !in x
    ensures Split(x, c) == [x]
  {
    if x != [] {
      assert c !in x[1..] by {
        assert forall i :: 0 <= i < |x[1..]| ==> x[1..][i] == x[i + 1];
      }
      SplitPlain(x[1..], c);
      assert [x[0]] + x[1..] == x;
    }
  }

  /** A piece without `c`, then `c`, then anything: the piece comes off first. */
  lemma {:induction false} SplitAfterPiece(x: string, c: char, t: string)
    requires c !in x
    ensures Split(x + [c] + t, c) == [x] + Split(t, c)
  {
    var s := x + [c] + t;
    if x == [] {
      assert s == [c] + t && s[1..] == t;
    } else {
      assert s[0] == x[0];
      assert s[1..] == x[1..] + [c] + t;
      assert c !in x[1..] by {
        assert forall i :: 0 <= i < |x[1..]| ==> x[1..][i] == x[i + 1];
      }
      SplitAfterPiece(x[1..], c, t);
      assert [x[0]] + x[1..] == x;
    }
  }

  /** Splitting a join on a one-character separator that no item contains
      gives the items back. */
  lemma {:induction false} SplitJoin(xs: seq<string>, c: char)
    requires xs != []
    requires forall i :: 0 <= i < |xs| ==> c !in xs[i]
    ensures Split(Join(xs, [c]), c) == xs
  {
    if |xs| == 1 {
      SplitPlain(xs[0], c);
    } else {
      SplitJoin(xs[1..], c);
      SplitAfterPiece(xs[0], c, Join(xs[1..], [c]));
      assert xs == [xs[0]] + xs[1..];
    }
  }
}

=== FILE: validators.dfy ===
/**
 * The field validators both scripts share, with the messages left to each
 * page, and the checklist that turns validator outcomes into an ordered error
 * list. A validator yields `None` (the script's `null`) when the value is
 * valid and `Some(message)` otherwise.
 */
module Validators {
  import opened Wrappers
  import opened Text

  /** One entry of an error list: the field key and the message shown. */
  datatype FieldError = FieldError(key: string, message: string)

  /** One line of a checklist: a field key and its validator's outcome. */
  datatype Check = Check(key: string, verdict: Option<string>)

  function ErrorOf(c: Check): FieldError
    requires c.verdict.Some?
  {
    FieldError(c.key, c.verdict.value)
  }

  /** The errors of a checklist: one entry per failing line, in checklist order. */
  function Failures(checks: seq<Check>): (r: seq<FieldError>)
    ensures |r| <= |checks|
  {
    if checks == [] then []
    else (if checks[0].verdict.Some? then [ErrorOf(checks[0])] else []) + Failures(checks[1..])
  }

  /** A checklist reports nothing exactly when every line passes. */
  lemma {:induction false} NoFailuresIffAllPass(checks: seq<Check>)
    ensures Failures(checks) == [] <==> forall i :: 0 <= i < |checks| ==> checks[i].verdict.None?
  {
    if checks != [] {
      NoFailuresIffAllPass(checks[1..]);
      if forall i :: 0 <= i < |checks[1..]| ==> checks[1..][i].verdict.None? {
        if checks[0].verdict.None? {
          forall i | 0 <= i < |checks| ensures checks[i].verdict.None? {
            if i > 0 { assert checks[i] == checks[1..][i - 1]; }
          }
        }
      } else {
        var i :| 0 <= i < |checks[1..]| && checks[1..][i].verdict.Some?;
        assert checks[i + 1].verdict.Some?;
      }
    }
  }

  /** Failures keep checklist order: the errors of a longer checklist are the
      errors of its first part followed by those of the rest. */
  lemma {:induction false} FailuresConcat(a: seq<Check>, b: seq<Check>)
    ensures Failures(a + b) == Failures(a) + Failures(b)
  {
    if a == [] {
      assert a + b == b;
    } else {
      var h := if a[0].verdict.Some? then [ErrorOf(a[0])] else [];
      assert (a + b)[0] == a[0] && (a + b)[1..] == a[1..] + b;
      assert Failures(a + b) == h + Failures(a[1..] + b);
      FailuresConcat(a[1..], b);
      assert h + (Failures(a[1..]) + Failures(b)) == (h + Failures(a[1..])) + Failures(b);
    }
  }

  /** An error is listed exactly when some checklist line produced it. */
  lemma {:induction false} FailuresMembership(checks: seq<Check>, e: FieldError)
    ensures e in Failures(checks)
        <==> exists i :: 0 <= i < |checks| && checks[i] == Check(e.key, Some(e.message))
  {
    if checks != [] {
      FailuresMembership(checks[1..], e);
      if e in Failures(checks[1..]) {
        var i :| 0 <= i < |checks[1..]| && checks[1..][i] == Check(e.key, Some(e.message));
        assert checks[i + 1] == Check(e.key, Some(e.message));
      }
      if exists i :: 0 <= i < |checks| && checks[i] == Check(e.key, Some(e.message)) {
        var i :| 0 <= i < |checks| && checks[i] == Check(e.key, Some(e.message));
        if i > 0 {
          assert checks[1..][i - 1] == checks[i];
        }
      }
    }
  }

  /** A checklist line for something the form must have: it fails with the
      error `e` when it is absent. */
  function Required(e: FieldError, present: bool): (c: Check)
    ensures c.key == e.key
    ensures c.verdict.Some? <==> !present
    ensures c.verdict.Some? ==> c.verdict.value == e.message
  {
    Check(e.key, if present then None else Some(e.message))
  }

  /** The error `e` when its value is absent, otherwise nothing: what a
      scheme's `if (!value) errors.push(e)` contributes. */
  function ErrorIf(absent: bool, e: FieldError): seq<FieldError> {
    if absent then [e] else []
  }

  /** A required-selection line on its own reports `e` exactly when the value
      is absent. */
  lemma RequiredAlone(e: FieldError, present: bool)
    ensures Failures([Required(e, present)]) == ErrorIf(!present, e)
  {
    assert [Required(e, present)][1..] == [];
  }

  /** A checklist of required selections reports, in order, the error of each
      absent one. */
  lemma {:induction false} RequiredList(a: seq<Check>, e: FieldError, present: bool)
    ensures Failures(a + [Required(e, present)]) == Failures(a) + ErrorIf(!present, e)
  {
    FailuresConcat(a, [Required(e, present)]);
    RequiredAlone(e, present);
  }

  /** Three required selections report the errors of the absent ones, in order. */
  lemma RequiredThree(e0: FieldError, p0: bool, e1: FieldError, p1: bool, e2: FieldError, p2: bool)
    ensures Failures([Required(e0, p0), Required(e1, p1), Required(e2, p2)])
         == ErrorIf(!p0, e0) + ErrorIf(!p1, e1) + ErrorIf(!p2, e2)
  {
    var c0, c1, c2 := Required(e0, p0), Required(e1, p1), Required(e2, p2);
    RequiredAlone(e0, p0);
    assert [c0] + [c1] == [c0, c1];
    RequiredList([c0], e1, p1);
    assert [c0, c1] + [c2] == [c0, c1, c2];
    RequiredList([c0, c1], e2, p2);
  }

  /** Four required selections report the errors of the absent ones, in order. */
  lemma RequiredFour(e0: FieldError, p0: bool, e1: FieldError, p1: bool, e2: FieldError, p2: bool,
                     e3: FieldError, p3: bool)
    ensures Failures([Required(e0, p0), Required(e1, p1), Required(e2, p2), Required(e3, p3)])
         == ErrorIf(!p0, e0) + ErrorIf(!p1, e1) + ErrorIf(!p2, e2) + ErrorIf(!p3, e3)
  {
    var c0, c1, c2, c3 := Required(e0, p0), Required(e1, p1), Required(e2, p2), Required(e3, p3);
    RequiredThree(e0, p0, e1, p1, e2, p2);
    assert [c0, c1, c2] + [c3] == [c0, c1, c2, c3];
    RequiredList([c0, c1, c2], e3, p3);
  }

  /** Six required selections report the errors of the absent ones, in order. */
  lemma RequiredSix(e0: FieldError, p0: bool, e1: FieldError, p1: bool, e2: FieldError, p2: bool,
                    e3: FieldError, p3: bool, e4: FieldError, p4: bool, e5: FieldError, p5: bool)
    ensures Failures([Required(e0, p0), Required(e1, p1), Required(e2, p2),
                      Required(e3, p3), Required(e4, p4), Required(e5, p5)])
         == ErrorIf(!p0, e0) + ErrorIf(!p1, e1) + ErrorIf(!p2, e2)
          + ErrorIf(!p3, e3) + ErrorIf(!p4, e4) + ErrorIf(!p5, e5)
  {
    var c0, c1, c2, c3 := Required(e0, p0), Required(e1, p1), Required(e2, p2), Required(e3, p3);
    var c4, c5 := Required(e4, p4), Required(e5, p5);
    RequiredFour(e0, p0, e1, p1, e2, p2, e3, p3);
    assert [c0, c1, c2, c3] + [c4] == [c0, c1, c2, c3, c4];
    RequiredList([c0, c1, c2, c3], e4, p4);
    assert [c0, c1, c2, c3, c4] + [c5] == [c0, c1, c2, c3, c4, c5];
    RequiredList([c0, c1, c2, c3, c4], e5, p5);
  }

  /** Four required selections under distinct keys: each error is reported
      exactly when its value is absent, and nothing is reported exactly when
      all four are present. */
  lemma ReportedFour(e0: FieldError, p0: bool, e1: FieldError, p1: bool,
                     e2: FieldError, p2: bool, e3: FieldError, p3: bool)
    requires DistinctKeys([Required(e0, p0), Required(e1, p1), Required(e2, p2), Required(e3, p3)])
    ensures var r := Failures([Required(e0, p0), Required(e1, p1), Required(e2, p2), Required(e3, p3)]);
            && (e0 in r <==> !p0) && (e1 in r <==> !p1) && (e2 in r <==> !p2) && (e3 in r <==> !p3)
            && (r == [] <==> p0 && p1 && p2 && p3)
  {
    var cs := [Required(e0, p0), Required(e1, p1), Required(e2, p2), Required(e3, p3)];
    ReportedIffFails(cs, 0, e0);
    ReportedIffFails(cs, 1, e1);
    ReportedIffFails(cs, 2, e2);
    ReportedIffFails(cs, 3, e3);
    NoFailuresIffAllPass(cs);
    if !(p0 && p1 && p2 && p3) {
      assert cs[0].verdict.Some? || cs[1].verdict.Some? || cs[2].verdict.Some? || cs[3].verdict.Some?;
    }
  }

  /** Six required selections under distinct keys: each error is reported
      exactly when its value is absent, and nothing is reported exactly when
      all six are present. */
  lemma ReportedSix(e0: FieldError, p0: bool, e1: FieldError, p1: bool, e2: FieldError, p2: bool,
                    e3: FieldError, p3: bool, e4: FieldError, p4: bool, e5: FieldError, p5: bool)
    requires DistinctKeys([Required(e0, p0), Required(e1, p1), Required(e2, p2),
                           Required(e3, p3), Required(e4, p4), Required(e5, p5)])
    ensures var r := Failures([Required(e0, p0), Required(e1, p1), Required(e2, p2),
                               Required(e3, p3), Required(e4, p4), Required(e5, p5)]);
            && (e0 in r <==> !p0) && (e1 in r <==> !p1) && (e2 in r <==> !p2)
            && (e3 in r <==> !p3) && (e4 in r <==> !p4) && (e5 in r <==> !p5)
            && (r == [] <==> p0 && p1 && p2 && p3 && p4 && p5)
  {
    var cs := [Required(e0, p0), Required(e1, p1), Required(e2, p2),
               Required(e3, p3), Required(e4, p4), Required(e5, p5)];
    ReportedIffFails(cs, 0, e0);
    ReportedIffFails(cs, 1, e1);
    ReportedIffFails(cs, 2, e2);
    ReportedIffFails(cs, 3, e3);
    ReportedIffFails(cs, 4, e4);
    ReportedIffFails(cs, 5, e5);
    NoFailuresIffAllPass(cs);
    if !(p0 && p1 && p2 && p3 && p4 && p5) {
      assert || cs[0].verdict.Some? || cs[1].verdict.Some? || cs[2].verdict.Some?
             || cs[3].verdict.Some? || cs[4].verdict.Some? || cs[5].verdict.Some?;
    }
  }

  /** No two lines of a checklist share a key. */
  predicate DistinctKeys(checks: seq<Check>) {
    forall i, j :: 0 <= i < j < |checks| ==> checks[i].key != checks[j].key
  }

  /** With distinct keys, the error for line `k` is reported exactly when
      that line fails. */
  lemma ReportedIffFails(checks: seq<Check>, k: nat, e: FieldError)
    requires DistinctKeys(checks)
    requires k < |checks| && checks[k].key == e.key
    requires checks[k].verdict.Some? ==> checks[k].verdict.value == e.message
    ensures e in Failures(checks) <==> checks[k].verdict.Some?
  {
    FailuresMembership(checks, e);
    if e in Failures(checks) {
      var i :| 0 <= i < |checks| && checks[i] == Check(e.key, Some(e.message));
      assert i == k;
    }
  }

  /** The first line's error, if any, followed by the rest's errors. */
  lemma FailuresStep(checks: seq<Check>)
    requires checks != []
    ensures checks[0].verdict.Some? ==> Failures(checks) == [ErrorOf(checks[0])] + Failures(checks[1..])
    ensures checks[0].verdict.None? ==> Failures(checks) == Failures(checks[1..])
  {
  }

  /** Failures keep checklist order: for every cut of the checklist, the
      errors of the lines before the cut come first, then those after it. */
  lemma FailuresSplit(checks: seq<Check>, m: nat)
    requires m <= |checks|
    ensures Failures(checks) == Failures(checks[..m]) + Failures(checks[m..])
  {
    assert checks == checks[..m] + checks[m..];
    FailuresConcat(checks[..m], checks[m..]);
  }

  /** The keys of a checklist, line by line. */
  function KeysOf(checks: seq<Check>): (ks: seq<string>)
    ensures |ks| == |checks| && forall i :: 0 <= i < |checks| ==> ks[i] == checks[i].key
  {
    seq(|checks|, i requires 0 <= i < |checks| => checks[i].key)
  }

  /** An error the lines before a cut report carries the key of one of them. */
  lemma FailureKeyBefore(checks: seq<Check>, m: nat, e: FieldError)
    requires m <= |checks| && e in Failures(checks[..m])
    ensures e.key in KeysOf(checks)[..m]
  {
    FailuresMembership(checks[..m], e);
    var i :| 0 <= i < m && checks[..m][i] == Check(e.key, Some(e.message));
    assert checks[i] == checks[..m][i];
    assert KeysOf(checks)[..m][i] == KeysOf(checks)[i];
  }

  /** An error the lines after a cut report carries the key of one of them. */
  lemma FailureKeyAfter(checks: seq<Check>, m: nat, e: FieldError)
    requires m <= |checks| && e in Failures(checks[m..])
    ensures e.key in KeysOf(checks)[m..]
  {
    FailuresMembership(checks[m..], e);
    var i :| 0 <= i < |checks| - m && checks[m..][i] == Check(e.key, Some(e.message));
    assert checks[m + i] == checks[m..][i];
    assert KeysOf(checks)[m..][i] == KeysOf(checks)[m + i];
  }

  lemma FrontKeys(checks: seq<Check>, m: nat)
    requires m <= |checks|
    ensures var r, p := Failures(checks), |Failures(checks[..m])|;
            p <= |r| && forall t :: 0 <= t < p ==> r[t].key in KeysOf(checks)[..m]
  {
    var r, front := Failures(checks), Failures(checks[..m]);
    FailuresSplit(checks, m);
    forall t | 0 <= t < |front| ensures r[t].key in KeysOf(checks)[..m] {
      assert r[t] == front[t];
      FailureKeyBefore(checks, m, front[t]);
    }
  }

  lemma BackKeys(checks: seq<Check>, m: nat)
    requires m <= |checks|
    ensures var r, p := Failures(checks), |Failures(checks[..m])|;
            forall t :: p <= t < |r| ==> r[t].key in KeysOf(checks)[m..]
  {
    var r, front, back := Failures(checks), Failures(checks[..m]), Failures(checks[m..]);
    FailuresSplit(checks, m);
    forall t | |front| <= t < |r| ensures r[t].key in KeysOf(checks)[m..] {
      assert r[t] == back[t - |front|];
      FailureKeyAfter(checks, m, back[t - |front|]);
    }
  }

  /** Cutting a checklist anywhere, the errors of the lines before the cut
      come first and carry their keys, then those of the lines after it. */
  lemma FailuresCut(checks: seq<Check>, m: nat)
    requires m <= |checks|
    ensures var r, p := Failures(checks), |Failures(checks[..m])|;
            && p <= |r|
            && (forall t :: 0 <= t < p ==> r[t].key in KeysOf(checks)[..m])
            && (forall t :: p <= t < |r| ==> r[t].key in KeysOf(checks)[m..])
  {
    FrontKeys(checks, m);
    BackKeys(checks, m);
  }

  lemma DistinctKeysTail(checks: seq<Check>)
    requires checks != [] && DistinctKeys(checks)
    ensures DistinctKeys(checks[1..])
    ensures forall k :: 0 <= k < |checks[1..]| ==> checks[1..][k].key != checks[0].key
  {
    var rest := checks[1..];
    forall i, j | 0 <= i < j < |rest| ensures rest[i].key != rest[j].key {
      assert rest[i] == checks[i + 1] && rest[j] == checks[j + 1];
    }
    forall k | 0 <= k < |rest| ensures rest[k].key != checks[0].key {
      assert rest[k] == checks[k + 1];
    }
  }

  /** The first line's key is not among the keys the later lines report. */
  lemma FirstKeyNotLater(checks: seq<Check>, e: FieldError)
    requires checks != [] && DistinctKeys(checks)
    requires e in Failures(checks[1..])
    ensures e.key != checks[0].key
  {
    DistinctKeysTail(checks);
    FailuresMembership(checks[1..], e);
  }

  /** With distinct keys, no key is reported twice. */
  lemma {:induction false} FailuresDistinctKeys(checks: seq<Check>)
    requires DistinctKeys(checks)
    ensures forall i, j :: 0 <= i < j < |Failures(checks)| ==> Failures(checks)[i].key != Failures(checks)[j].key
  {
    if checks != [] {
      var r, rest := Failures(checks), Failures(checks[1..]);
      DistinctKeysTail(checks);
      FailuresDistinctKeys(checks[1..]);
      FailuresStep(checks);
      if checks[0].verdict.Some? {
        forall i, j | 0 <= i < j < |r| ensures r[i].key != r[j].key {
          if i == 0 {
            assert r[j] == rest[j - 1];
            FirstKeyNotLater(checks, rest[j - 1]);
          } else {
            assert r[i] == rest[i - 1] && r[j] == rest[j - 1];
          }
        }
      }
    }
  }

  /* ------------------------------------------------------------ validators */

  /** A select, radio group, consent box or photo that must be present:
      the script's `v ? null : message`. */
  function Require(present: bool, message: string): (r: Option<string>)
    ensures r.None? <==> present
    ensures r.Some? ==> r.value == message
  {
    if present then None else Some(message)
  }

  const NameTooShort := "Name must be at least 3 characters."

  /** The full-name and emergency-name validators: the trimmed value must
      have at least three characters; a blank value gets the page's
      "required" message. */
  function ValidateName(v: string, requiredMessage: string): (r: Option<string>)
    ensures r.None? <==> |Trim(v)| >= 3
    ensures AllSpace(v) ==> r == Some(requiredMessage)
    ensures !AllSpace(v) && |Trim(v)| < 3 ==> r == Some(NameTooShort)
  {
    var t := Trim(v);
    if t == "" then Some(requiredMessage)
    else if |t| < 3 then Some(NameTooShort)
    else None
  }

  /** The pattern `^[6-9][0-9]{9}$`: ten digits, the first one from 6 to 9. */
  predicate IsMobileNumber(s: string) {
    |s| == 10 && '6' <= s[0] <= '9' && AllDigits(s)
  }

  /** The mobile and emergency-phone validators: the trimmed value must be a
      ten-digit number starting with 6 to 9. */
  function ValidatePhone(v: string, requiredMessage: string, invalidMessage: string): (r: Option<string>)
    ensures r.None? <==> IsMobileNumber(Trim(v))
    ensures AllSpace(v) ==> r == Some(requiredMessage)
    ensures !AllSpace(v) && !IsMobileNumber(Trim(v)) ==> r == Some(invalidMessage)
  {
    var t := Trim(v);
    if t == "" then Some(requiredMessage)
    else if !IsMobileNumber(t) then Some(invalidMessage)
    else None
  }

  /* ----------------------------------------------------------------- email */

  /** No white space and no `@`: the character class `[^\s@]`. */
  predicate PlainChars(t: string) {
    forall i :: 0 <= i < |t| ==> t[i] != '@' && !IsSpace(t[i])
  }

  /** The pattern `^[^\s@]+@[^\s@]+\.[^\s@]+$`, read as the regular expression
      reads it: a non-empty run of plain characters, `@`, a non-empty run, a
      dot, a non-empty run. */
  ghost predicate EmailPattern(s: string) {
    exists a, b :: SplitsAt(s, a, b)
  }

  /** `s` matches the pattern with its `@` at `a` and its dot at `b`. */
  predicate SplitsAt(s: string, a: int, b: int) {
    && 0 < a && a + 1 < b && b + 1 < |s|
    && s[a] == '@' && s[b] == '.'
    && PlainChars(s[..a]) && PlainChars(s[a + 1..b]) && PlainChars(s[b + 1..])
  }

  /** The first position of `c` in `s`. */
  function IndexOf(s: string, c: char): (r: Option<nat>)
    ensures r.Some? ==> r.value < |s| && s[r.value] == c && c !in s[..r.value]
    ensures r.None? ==> c !in s
  {
    if s == [] then None
    else if s[0] == c then Some(0)
    else
      match IndexOf(s[1..], c)
      case None => None
      case Some(i) =>
        assert s[..i + 1] == [s[0]] + s[1..][..i];
        Some(i + 1)
  }

  /** A direct test of the email pattern: no white space, a single `@` that is
      not first, and a dot strictly inside the part after it. */
  predicate HasEmailShape(s: string) {
    && (forall i :: 0 <= i < |s| ==> !IsSpace(s[i]))
    && match IndexOf(s, '@')
       case None => false
       case Some(a) => 0 < a && '@' !in s[a + 1..] && a + 3 <= |s| && '.' in s[a + 2..|s| - 1]
  }

  /** A character is absent from a slice exactly when no position of the
      slice holds it. */
  lemma AbsentFromSlice(s: string, lo: nat, hi: nat, c: char)
    requires lo <= hi <= |s|
    ensures c !in s[lo..hi] <==> forall i :: lo <= i < hi ==> s[i] != c
  {
    if c in s[lo..hi] {
      var k :| 0 <= k < hi - lo && s[lo..hi][k] == c;
      assert s[lo + k] == c;
    }
  }

  lemma PlainSlice(s: string, lo: nat, hi: nat)
    requires lo <= hi <= |s|
    ensures PlainChars(s[lo..hi]) <==> forall i :: lo <= i < hi ==> s[i] != '@' && !IsSpace(s[i])
  {
    if PlainChars(s[lo..hi]) {
      forall i | lo <= i < hi ensures s[i] != '@' && !IsSpace(s[i]) {
        assert s[i] == s[lo..hi][i - lo];
      }
    }
  }

  lemma ShapeGivesPattern(s: string)
    requires HasEmailShape(s)
    ensures EmailPattern(s)
  {
    var a := IndexOf(s, '@').value;
    var k :| 0 <= k < |s[a + 2..|s| - 1]| && s[a + 2..|s| - 1][k] == '.';
    var b := a + 2 + k;
    assert s[b] == '.';
    AbsentFromSlice(s, 0, a, '@');
    assert s[..a] == s[0..a];
    AbsentFromSlice(s, a + 1, |s|, '@');
    assert s[a + 1..] == s[a + 1..|s|];
    PlainSlice(s, 0, a);
    PlainSlice(s, a + 1, b);
    PlainSlice(s, b + 1, |s|);
    assert s[b + 1..] == s[b + 1..|s|];
    assert SplitsAt(s, a, b);
  }

  lemma PatternGivesShape(s: string, a: nat, b: nat)
    requires 0 < a && a + 1 < b && b + 1 < |s|
    requires s[a] == '@' && s[b] == '.'
    requires PlainChars(s[..a]) && PlainChars(s[a + 1..b]) && PlainChars(s[b + 1..])
    ensures HasEmailShape(s)
  {
    assert s[..a] == s[0..a] && s[b + 1..] == s[b + 1..|s|];
    PlainSlice(s, 0, a);
    PlainSlice(s, a + 1, b);
    PlainSlice(s, b + 1, |s|);
    AbsentFromSlice(s, 0, a, '@');
    assert s[a] in s;
    var idx := IndexOf(s, '@');
    assert idx.Some? && idx.value <= a;
    AbsentFromSlice(s, 0, idx.value, '@');
    AbsentFromSlice(s, a + 1, |s|, '@');
    assert s[a + 1..] == s[a + 1..|s|];
    assert s[a + 2..|s| - 1][b - (a + 2)] == '.';
  }

  /** The direct test accepts exactly the strings the pattern matches. */
  lemma EmailShapeIsPattern(s: string)
    ensures HasEmailShape(s) <==> EmailPattern(s)
  {
    if HasEmailShape(s) {
      ShapeGivesPattern(s);
    }
    if EmailPattern(s) {
      var a, b :| SplitsAt(s, a, b);
      PatternGivesShape(s, a, b);
    }
  }

  const InvalidEmail := "Enter a valid email address."

  /** The email validator: a blank value is accepted (the field is optional);
      otherwise the trimmed value must match the email pattern. */
  function ValidateEmail(v: string): (r: Option<string>)
    ensures r.None? <==> AllSpace(v) || EmailPattern(Trim(v))
    ensures r.Some? ==> r.value == InvalidEmail
  {
    var t := Trim(v);
    EmailShapeIsPattern(t);
    if t == "" then None
    else if !HasEmailShape(t) then Some(InvalidEmail)
    else None
  }

  /* ------------------------------------------------------------------- dob */

  /** The outcome of a date-of-birth validator, before each page words it. */
  datatype DobVerdict = DobMissing | DobInvalid | DobTooYoung | DobTooOld | DobOk

  /** The date-of-birth validator given the age `computeAge` derived from the
      value: present, parsable, and within the inclusive age bounds. */
  function CheckDob(v: string, age: Option<int>, minAge: int, maxAge: int): (r: DobVerdict)
    ensures r == DobOk <==> v != "" && age.Some? && minAge <= age.value <= maxAge
    ensures r == DobMissing <==> v == ""
    ensures r == DobInvalid <==> v != "" && age.None?
    ensures r == DobTooYoung <==> v != "" && age.Some? && age.value < minAge
  {
    if v == "" then DobMissing
    else if age.None? then DobInvalid
    else if age.value < minAge then DobTooYoung
    else if age.value > maxAge then DobTooOld
    else DobOk
  }
}

=== FILE: vocational.dfy ===
/**
 * The Vocational Training scheme: ages 14 to 35, IDs `VT-UT-2025-NNNNNN`,
 * four required selections, and training mode, employment goal, category
 * and Aadhaar number collected but never checked.
 */
module Vocational {
  import opened Wrappers
  import opened Text
  import opened Csv
  import opened Validators
  import opened Store
  import opened Forms
  import opened Engine

  /** The scheme's own values, as collected and as stored in the record. */
  datatype VocationalData = VocationalData(
    sector: string,
    courseDuration: string,
    trainingMode: string,
    employmentGoal: string,
    qualification: string,
    employmentStatus: string,
    category: string,
    aadhaar: string)

  /** The four selections the scheme insists on. */
  predicate Complete(x: VocationalData) {
    x.sector != "" && x.courseDuration != "" && x.qualification != "" && x.employmentStatus != ""
  }

  /** `extraProgress`: the same four selections. */
  function ExtraProgress(x: VocationalData): (n: nat)
    ensures n <= 4
    ensures n == 4 <==> Complete(x)
  {
    Count(x.sector != "") + Count(x.courseDuration != "") + Count(x.qualification != "")
    + Count(x.employmentStatus != "")
  }

  const SectorMissing := FieldError("sector", "Please select a trade / sector.")
  const DurationMissing := FieldError("courseDuration", "Please select a training duration.")
  const QualificationMissing := FieldError("qualification", "Please select your highest qualification.")
  const StatusMissing := FieldError("employmentStatus", "Please select your current status.")

  function ExtraChecks(x: VocationalData): (checks: seq<Check>)
    ensures |checks| == 4 && DistinctKeys(checks)
  {
    [ Required(SectorMissing, x.sector != ""),
      Required(DurationMissing, x.courseDuration != ""),
      Required(QualificationMissing, x.qualification != ""),
      Required(StatusMissing, x.employmentStatus != "") ]
  }

  /** `validateExtra`: one error per empty selection, in the order sector,
      duration, qualification, status. */
  function ValidateExtra(x: VocationalData): (errors: seq<FieldError>)
    ensures errors == [] <==> Complete(x)
    ensures |errors| <= 4
    ensures SectorMissing in errors <==> x.sector == ""
    ensures DurationMissing in errors <==> x.courseDuration == ""
    ensures QualificationMissing in errors <==> x.qualification == ""
    ensures StatusMissing in errors <==> x.employmentStatus == ""
    ensures errors == ErrorIf(x.sector == "", SectorMissing)
                    + ErrorIf(x.courseDuration == "", DurationMissing)
                    + ErrorIf(x.qualification == "", QualificationMissing)
                    + ErrorIf(x.employmentStatus == "", StatusMissing)
  {
    var checks := ExtraChecks(x);
    RequiredFour(SectorMissing, x.sector != "", DurationMissing, x.courseDuration != "",
                 QualificationMissing, x.qualification != "", StatusMissing, x.employmentStatus != "");
    ReportedFour(SectorMissing, x.sector != "", DurationMissing, x.courseDuration != "",
                 QualificationMissing, x.qualification != "", StatusMissing, x.employmentStatus != "");
    Failures(checks)
  }

  /** Here the bar and the validator agree: the scheme's part of the bar is
      full exactly when the scheme reports no error. */
  lemma ProgressAgreesWithValidation(x: VocationalData)
    ensures ExtraProgress(x) == 4 <==> ValidateExtra(x) == []
  {
  }

  /** Training mode, employment goal, category and Aadhaar number never cause
      an error. */
  lemma UncheckedFields(x: VocationalData, mode: string, goal: string, category: string, aadhaar: string)
    ensures ValidateExtra(x.(trainingMode := mode, employmentGoal := goal, category := category, aadhaar := aadhaar))
         == ValidateExtra(x)
  {
    assert ExtraChecks(x.(trainingMode := mode, employmentGoal := goal, category := category, aadhaar := aadhaar))
        == ExtraChecks(x);
  }

  /** The admin table's columns and their CSV cells; "Status" is the
      applicant's employment status, not the record's review status. */
  const Columns: seq<Column<VocationalData>> := [
    Column("Name", NameCell), Column("Age", AgeCell), Column("District", DistrictCell),
    Column("Sector", SectorCell), Column("Duration", DurationCell),
    Column("Qualification", QualificationCell), Column("Status", StatusCell)]

  function NameCell(r: Record<VocationalData>): string { r.base.fullName }
  function DistrictCell(r: Record<VocationalData>): string { r.base.district }
  function SectorCell(r: Record<VocationalData>): string { r.extra.sector }
  function DurationCell(r: Record<VocationalData>): string { r.extra.courseDuration }
  function QualificationCell(r: Record<VocationalData>): string { r.extra.qualification }
  function StatusCell(r: Record<VocationalData>): string { r.extra.employmentStatus }

  /** The configuration the page hands to the engine. */
  const Scheme: Config<VocationalData, VocationalData> :=
    Config("VT-UT-2025", 14, 35, ExtraProgress, 4, ValidateExtra, (x: VocationalData) => x, Columns)

  /** An application is accepted exactly when the base form is acceptable
      for ages 14 to 35 and the four selections are made. */
  lemma AcceptedIff(data: FormData<VocationalData>, env: Env)
    ensures RunValidation(Scheme, data, env) == [] <==> BaseValid(Scheme, data.base, env) && Complete(data.extra)
  {
    RunValidationPassesIffValid(Scheme, data, env);
  }

  lemma ProgressFullIff(data: FormData<VocationalData>, env: Env)
    ensures Progress(Scheme, data, env) == 100 <==> BaseProgress(Scheme, data.base, env) == 10 && Complete(data.extra)
  {
  }

  /* ---------------------------------------------------------- the form */

  /** The scheme's part of the form: three radio groups among the fields. */
  datatype VocationalForm = VocationalForm(
    sector: string,
    courseDuration: string,
    trainingMode: seq<Box>,
    employmentGoal: seq<Box>,
    qualification: string,
    employmentStatus: string,
    category: seq<Box>,
    aadhaar: string)

  /** `_regCollectExtra`: each radio group gives its checked value or "". */
  function CollectExtra(f: VocationalForm): (x: VocationalData)
    ensures x.trainingMode == RadioValue(f.trainingMode) && x.employmentGoal == RadioValue(f.employmentGoal)
    ensures x.category == RadioValue(f.category)
    ensures x.sector == f.sector && x.courseDuration == f.courseDuration && x.qualification == f.qualification
    ensures x.employmentStatus == f.employmentStatus && x.aadhaar == f.aadhaar
  {
    VocationalData(f.sector, f.courseDuration, RadioValue(f.trainingMode), RadioValue(f.employmentGoal),
                   f.qualification, f.employmentStatus, RadioValue(f.category), f.aadhaar)
  }

  /** `_regRestoreExtra`: the selects and the Aadhaar input take the draft's
      non-empty values; a radio group is set only when the draft has a value
      for it. */
  function RestoreExtra(f: VocationalForm, d: VocationalData): (r: VocationalForm)
    ensures Values(r.trainingMode) == Values(f.trainingMode)
    ensures Values(r.employmentGoal) == Values(f.employmentGoal)
    ensures Values(r.category) == Values(f.category)
  {
    VocationalForm(
      Prefer(d.sector, f.sector), Prefer(d.courseDuration, f.courseDuration),
      RestoreRadio(f.trainingMode, d.trainingMode), RestoreRadio(f.employmentGoal, d.employmentGoal),
      Prefer(d.qualification, f.qualification), Prefer(d.employmentStatus, f.employmentStatus),
      RestoreRadio(f.category, d.category), Prefer(d.aadhaar, f.aadhaar))
  }

  predicate NoneChecked(g: seq<Box>) {
    forall i :: 0 <= i < |g| ==> !g[i].checked
  }

  /** The page as first shown: nothing chosen, typed or checked. */
  predicate Blank(f: VocationalForm) {
    && f.sector == "" && f.courseDuration == "" && f.qualification == ""
    && f.employmentStatus == "" && f.aadhaar == ""
    && NoneChecked(f.trainingMode) && NoneChecked(f.employmentGoal) && NoneChecked(f.category)
  }

  /** A draft saved from a form restores, on a freshly loaded page with the
      same radio options, to a form that collects the same values. */
  lemma RestoreRoundTrip(saved: VocationalForm, f: VocationalForm)
    requires Blank(f)
    requires Values(f.trainingMode) == Values(saved.trainingMode)
    requires Values(f.employmentGoal) == Values(saved.employmentGoal)
    requires Values(f.category) == Values(saved.category)
    ensures CollectExtra(RestoreExtra(f, CollectExtra(saved))) == CollectExtra(saved)
  {
    RestoreRadioRoundTrip(saved.trainingMode, f.trainingMode);
    RestoreRadioRoundTrip(saved.employmentGoal, f.employmentGoal);
    RestoreRadioRoundTrip(saved.category, f.category);
  }

  lemma LabelsArePlain()
    ensures forall i :: 0 <= i < |Columns| ==> SafeBare(Columns[i].header)
  {
    FirstLabelsPlain();
    LastLabelsPlain();
  }

  lemma FirstLabelsPlain()
    ensures forall i :: 0 <= i < 3 ==> SafeBare(Columns[i].header)
  {
  }

  lemma LastLabelsPlain()
    ensures forall i :: 3 <= i < |Columns| ==> SafeBare(Columns[i].header)
  {
  }

  /** In the export, the "Status" column reads back as the employment status. */
  lemma ExportStatus(b: Bucket<FormData<VocationalData>, VocationalData>, i: nat)
    requires i < |GetReg(b)|
    ensures ReadDocument(ExportCsv(Scheme, b).value).Some?
    ensures var rows := ReadDocument(ExportCsv(Scheme, b).value).value;
            i + 1 < |rows| && 7 < |rows[i + 1]| && rows[i + 1][7] == GetReg(b)[i].extra.employmentStatus
  {
    SchemeLabelsPlain();
    StatusColumn(GetReg(b)[i]);
    ExportColumn(Scheme, b, i, 6, GetReg(b)[i].extra.employmentStatus);
  }

  lemma SchemeLabelsPlain()
    ensures forall k :: 0 <= k < |Scheme.adminColumns| ==> SafeBare(Scheme.adminColumns[k].header)
  {
    LabelsArePlain();
  }

  lemma StatusColumn(r: Record<VocationalData>)
    ensures Scheme.adminColumns[6].cell(r) == r.extra.employmentStatus
  {
    assert Scheme.adminColumns[6] == Columns[6];
  }
}

=== FILE: wrappers.dfy ===
/** The optional value the scripts express with `null` / `undefined`. */
module Wrappers {

  datatype Option<+T> = None | Some(value: T) {

    /** The value, or `default` when absent (the scripts' `x || default`). */
    function GetOr(default: T): T {
      match this
      case Some(v) => v
      case None => default
    }
  }
}

=== FILE: youth.dfy ===
/**
 * The Youth Volunteering scheme: ages 18 to 29, IDs `YV-UT-2025-NNNNNN`,
 * up to three service areas, and availability and qualification required.
 */
module Youth {
  import opened Wrappers
  import opened Text
  import opened Csv
  import opened Validators
  import opened Store
  import opened Forms
  import opened Engine

  const MaxServiceAreas: nat := 3

  /** The scheme's own values, as collected and as stored in the record
      (`buildRecord` keeps each of them; its `|| ""` and `|| []` defaults
      only matter for values the form cannot produce). */
  datatype YouthData = YouthData(
    serviceAreas: seq<string>,
    availability: string,
    motivation: string,
    qualification: string,
    yearPassed: string,
    priorExperience: string,
    languages: seq<string>)

  /** What the scheme insists on. */
  predicate Complete(x: YouthData) {
    x.serviceAreas != [] && x.availability != "" && x.qualification != ""
  }

  /** `extraProgress`: availability, at least one service area, qualification. */
  function ExtraProgress(x: YouthData): (n: nat)
    ensures n <= 3
    ensures n == 3 <==> Complete(x)
  {
    Count(x.availability != "") + Count(x.serviceAreas != []) + Count(x.qualification != "")
  }

  const ServiceAreaMissing := FieldError("serviceArea", "Please select at least one service area.")
  const AvailabilityMissing := FieldError("availability", "Please select your availability.")
  const QualificationMissing := FieldError("qualification", "Please select your highest qualification.")

  function ExtraChecks(x: YouthData): (checks: seq<Check>)
    ensures |checks| == 3 && DistinctKeys(checks)
  {
    [ Required(ServiceAreaMissing, x.serviceAreas != []),
      Required(AvailabilityMissing, x.availability != ""),
      Required(QualificationMissing, x.qualification != "") ]
  }

  /** `validateExtra`: one error for each missing requirement, in the order
      service areas, availability, qualification. */
  function ValidateExtra(x: YouthData): (errors: seq<FieldError>)
    ensures errors == [] <==> Complete(x)
    ensures |errors| <= 3
    ensures ServiceAreaMissing in errors <==> x.serviceAreas == []
    ensures AvailabilityMissing in errors <==> x.availability == ""
    ensures QualificationMissing in errors <==> x.qualification == ""
    ensures errors == ErrorIf(x.serviceAreas == [], ServiceAreaMissing)
                    + ErrorIf(x.availability == "", AvailabilityMissing)
                    + ErrorIf(x.qualification == "", QualificationMissing)
  {
    var checks := ExtraChecks(x);
    RequiredThree(ServiceAreaMissing, x.serviceAreas != [], AvailabilityMissing, x.availability != "",
                  QualificationMissing, x.qualification != "");
    assert Complete(x) <==> forall i :: 0 <= i < |checks| ==> checks[i].verdict.None? by {
      if !Complete(x) {
        assert checks[0].verdict.Some? || checks[1].verdict.Some? || checks[2].verdict.Some?;
      }
    }
    ReportedIffFails(checks, 0, ServiceAreaMissing);
    ReportedIffFails(checks, 1, AvailabilityMissing);
    ReportedIffFails(checks, 2, QualificationMissing);
    NoFailuresIffAllPass(checks);
    Failures(checks)
  }

  /** The admin table's columns, with the CSV cell each contributes; the
      service areas are joined with `|`. */
  const Columns: seq<Column<YouthData>> := [
    Column("Name", NameCell), Column("Age", AgeCell), Column("District", DistrictCell),
    Column("Service Areas", ServiceAreasCell), Column("Qualification", QualificationCell),
    Column("Availability", AvailabilityCell)]

  function NameCell(r: Record<YouthData>): string { r.base.fullName }
  function DistrictCell(r: Record<YouthData>): string { r.base.district }
  function ServiceAreasCell(r: Record<YouthData>): string { Join(r.extra.serviceAreas, "|") }
  function QualificationCell(r: Record<YouthData>): string { r.extra.qualification }
  function AvailabilityCell(r: Record<YouthData>): string { r.extra.availability }

  /** The configuration the page hands to the engine. */
  const Scheme: Config<YouthData, YouthData> :=
    Config("YV-UT-2025", 18, 29, ExtraProgress, 3, ValidateExtra, (x: YouthData) => x, Columns)

  /** A youth application is accepted exactly when the base form is
      acceptable for ages 18 to 29 and the scheme's three requirements hold. */
  lemma AcceptedIff(data: FormData<YouthData>, env: Env)
    ensures RunValidation(Scheme, data, env) == [] <==> BaseValid(Scheme, data.base, env) && Complete(data.extra)
  {
    RunValidationPassesIffValid(Scheme, data, env);
  }

  /** The progress bar is full exactly when every base item and all three
      scheme items count. */
  lemma ProgressFullIff(data: FormData<YouthData>, env: Env)
    ensures Progress(Scheme, data, env) == 100 <==> BaseProgress(Scheme, data.base, env) == 10 && Complete(data.extra)
  {
  }

  /** An accepted record keeps every collected scheme value. */
  lemma AcceptedRecordKeepsValues(b: Bucket<FormData<YouthData>, YouthData>, data: FormData<YouthData>, env: Env)
    requires RunValidation(Scheme, data, env) == []
    ensures Submit(Scheme, b, data, env).0.record.extra == data.extra
    ensures Submit(Scheme, b, data, env).0.record.extra.serviceAreas != []
  {
    AcceptedIff(data, env);
  }

  /* ---------------------------------------------------------- the form */

  /** The scheme's part of the form. */
  datatype YouthForm = YouthForm(
    serviceAreas: seq<Box>,
    languages: seq<Box>,
    availability: string,
    motivation: string,
    qualification: string,
    yearPassed: string,
    priorExperience: string)

  /** `_regCollectExtra`. */
  function CollectExtra(f: YouthForm): (x: YouthData)
    ensures x.serviceAreas == CheckedValues(f.serviceAreas) && x.languages == CheckedValues(f.languages)
    ensures x.availability == f.availability && x.qualification == f.qualification && x.yearPassed == f.yearPassed
    ensures x.motivation == f.motivation && x.priorExperience == f.priorExperience
  {
    YouthData(CheckedValues(f.serviceAreas), f.availability, f.motivation, f.qualification,
              f.yearPassed, f.priorExperience, CheckedValues(f.languages))
  }

  /** `_regRestoreExtra`: both checkbox groups ticked from the draft's lists;
      the selects and text areas take the draft's non-empty values. */
  function RestoreExtra(f: YouthForm, d: YouthData): (r: YouthForm)
    ensures Values(r.serviceAreas) == Values(f.serviceAreas) && Values(r.languages) == Values(f.languages)
  {
    var sa := CheckListed(f.serviceAreas, d.serviceAreas);
    var la := CheckListed(f.languages, d.languages);
    assert Values(sa) == Values(f.serviceAreas);
    assert Values(la) == Values(f.languages);
    YouthForm(sa, la,
              Prefer(d.availability, f.availability), Prefer(d.motivation, f.motivation),
              Prefer(d.qualification, f.qualification), Prefer(d.yearPassed, f.yearPassed),
              Prefer(d.priorExperience, f.priorExperience))
  }

  /** The page as first shown: no text in the scheme's fields. */
  predicate Blank(f: YouthForm) {
    f.availability == "" && f.motivation == "" && f.qualification == ""
    && f.yearPassed == "" && f.priorExperience == ""
  }

  /** A draft saved from a form restores, on a freshly loaded page with the
      same (distinct) options, to a form that collects the same values. */
  lemma RestoreRoundTrip(saved: YouthForm, f: YouthForm)
    requires Blank(f)
    requires Values(f.serviceAreas) == Values(saved.serviceAreas) && Distinct(Values(f.serviceAreas))
    requires Values(f.languages) == Values(saved.languages) && Distinct(Values(f.languages))
    ensures CollectExtra(RestoreExtra(f, CollectExtra(saved))) == CollectExtra(saved)
  {
    CheckListedRestores(f.serviceAreas, saved.serviceAreas);
    CheckListedRestores(f.languages, saved.languages);
  }

  /** With the change handler in place, the collected service areas never
      exceed three. */
  lemma ToggleKeepsLimit(f: YouthForm, i: nat, checked: bool)
    requires i < |f.serviceAreas| && CountChecked(f.serviceAreas) <= MaxServiceAreas
    ensures var g := ToggleLimited(f.serviceAreas, i, checked, MaxServiceAreas);
            |CollectExtra(f.(serviceAreas := g)).serviceAreas| <= MaxServiceAreas
  {
  }

  /* ------------------------------------------------------------ export */

  lemma LabelsArePlain()
    ensures forall i :: 0 <= i < |Columns| ==> SafeBare(Columns[i].header)
  {
    FirstLabelsPlain();
    LastLabelsPlain();
  }

  lemma FirstLabelsPlain()
    ensures forall i :: 0 <= i < 3 ==> SafeBare(Columns[i].header)
  {
  }

  lemma LastLabelsPlain()
    ensures forall i :: 3 <= i < |Columns| ==> SafeBare(Columns[i].header)
  {
  }

  /** In the export, each record's fifth cell reads back as its service areas
      joined with `|`. */
  lemma ExportServiceAreas(b: Bucket<FormData<YouthData>, YouthData>, i: nat)
    requires i < |GetReg(b)|
    ensures ReadDocument(ExportCsv(Scheme, b).value).Some?
    ensures var rows := ReadDocument(ExportCsv(Scheme, b).value).value;
            i + 1 < |rows| && 4 < |rows[i + 1]| && rows[i + 1][4] == Join(GetReg(b)[i].extra.serviceAreas, "|")
  {
    LabelsArePlain();
    ExportCell(Scheme, b, i, 3);
  }
}
